=== FILE: README.md ===
# wwl-server core, modelled in Dafny

This project models the server logic of a meal-planning service (wwl-server):
the Express controllers and helpers that turn stored meal plans, recipes,
ingredients, tags, users and recipe collections into the documents the API
sends back. It covers:

- **Shopping lists**: collecting a meal plan's recipes (`collectMealPlanRecipes`),
  scaling and converting each recipe ingredient to the user's measuring system,
  merging the lines of one ingredient (`KeyedFold`, `ShoppingList`), grouping them
  by store section (`StandardFormat`), and the handler `getMealPlanShoppingList`
  (`ShoppingEndpoint`).
- **Units**: the imperial and metric conversion tables, `checkIfValidUnit`, and the
  conversions to and from the fundamental unit of a measurement type (`Units`). The
  recipe view's metric form of an ingredient list is `IngredientConversion`.
- **Recipes, meal plans, tags and ingredients**: the filter clauses of the sorted
  recipe search, the diet-specific projection of `getRecipeById`, the legacy
  migrations, rating averages, the slot sort and masking of meal plans, and
  `createTagsArray` (`Recipes`, `MealPlans`, `Tags`, `Ingredients`).
- **Users and membership**: sign-in, favourite and bookmark toggles, profile
  updates, the contact email, and the Memberful sign-in, membership check and
  permission ladder (`Users`, `Memberful`).
- **Recipe collections and uploads**: page windows and response shaping of the
  collection listings (`Collections`), and the key and address of an image upload
  (`S3`).
- **Errors**: the error classes with their status codes and the global error
  handler in development and production (`Errors`).

Everything the handlers do through the database, Redis, the Memberful API, the
mail service or S3 becomes a parameter: the documents a query returns, the
result (or the error) of a call. Aggregation pipelines are database semantics
and are not modelled; the JavaScript that builds their inputs and reshapes
their outputs is.

JavaScript values are modelled over exact numbers: `Js.Num` is `Option<real>`,
with `None` standing for `undefined` or `NaN`; `Js.Truthy`, `Js.Or` and
`Js.StrOr` are the `||` defaults the source relies on. Database ids are compared
as strings; the legacy `old_id` of an ingredient is a number. A run-time `TypeError` (reading a property of `undefined`) is a
`Js.Crash` or `Errors.Crashed` failure, so the paths where the source throws are
modelled rather than excluded by preconditions.

Shared modules: `Wrappers` (`Option`, `Result`), `Js`, `Text` (ASCII case
mapping, substring search), `Seqs` (last-occurrence de-duplication), `Models`
(the stored documents), `General` (rounding, sort parameters, favourite and
bookmark flags).

## Model

| member | source | states |
|---|---|---|
| Errors.GetCode | utilis/errors.js:7-21 | `getCode()` is 400, 404 and 403 for the three subclasses and 500 only for a plain `GeneralError` |
| Errors.CodeIdentifiesClass | utilis/errors.js:7-26 | two errors have the same code exactly when they were built as the same class |
| Errors.StatusCodeOf | controllers/errorController.js:55 | the status code sent is the error's own code, or 500 when it has none; it is never 0 |
| Errors.StatusOf | controllers/errorController.js:56 | the status text is never empty: an empty or missing one becomes "error" |
| Errors.WithDefaults | controllers/errorController.js:55-56 | the handler's defaults fill in the code and the status text and change nothing else in the error |
| Errors.SendProd | controllers/errorController.js:36-52 | in production an operational error sends its own code, status and message; any other error sends a generic 500 |
| Errors.GlobalErrorHandler | controllers/errorController.js:54-67 | development sends the code, status, message and stack; a mode other than development or production sends nothing; a sent code is never 0 |
| Errors.ProductionTable | controllers/errorController.js:59-65 | production rewrites cast, duplicate-key, validation, bad-token and expired-token errors to 400/401 with their fixed messages, the first matching rule in that order deciding |
| Errors.ProductionHidesInternalErrors | controllers/errorController.js:44-51 | a non-operational error that no rule rewrites never leaks: the client gets a generic 500 |
| Errors.ErrorText | middleware/memberful.js:93 | the text of a thrown value begins with its name |
| Errors.ErrorTextIsToString | middleware/memberful.js:93 | the text is the name and message the handler reads, joined by ": ", or the name alone for an empty message |
| Errors.RejectionReportedAs500 | controllers/errorController.js:36-67 | in production a rejected request to another service is answered with status 500 and the generic message |
| Errors.ProductionKeepsOperational | controllers/errorController.js:37-43 | an operational error that no rule rewrites keeps its own code and message in production |
| Errors.BadRequestReportedAs500 | controllers/errorController.js:55-65 | a `BadRequest` has code 400 by `getCode()`, yet the production handler answers it with a generic 500 |
| General.Ceil | utilis/generalFuntions.js:46 | `Math.ceil` gives the least integer at or above its argument |
| General.RoundToNearestHalf | utilis/generalFuntions.js:45-47 | `roundToNearestHalf` gives a multiple of one half within half a unit at or above the value |
| General.RoundIsLeast | utilis/generalFuntions.js:45-47 | the rounding is the least multiple of one half at or above the value |
| General.RoundIdempotent | utilis/generalFuntions.js:45-47 | rounding a rounded value changes nothing |
| General.RoundMonotone | utilis/generalFuntions.js:45-47 | rounding preserves order |
| General.RoundFalsy | utilis/generalFuntions.js:45-47 | the rounding is 0, the falsy value the callers replace, exactly for values in (-0.5, 0] |
| General.RoundNum | utilis/generalFuntions.js:45-47 | a NaN or missing value rounds to NaN; any number rounds as above |
| General.Direction | utilis/generalFuntions.js:23 | the sort direction is 1 exactly for "asc" and -1 for anything else |
| General.SortingFilters | utilis/generalFuntions.js:18-43 | "Rating", "Cook Time" and "Prep Time" choose their fields, any other filter sorts by publication date, in the requested direction |
| General.MarkFavoritesAndBookmarks | utilis/generalFuntions.js:1-7 | each recipe keeps its id and title, and is a favourite (bookmark) exactly when its id is in the user's favourites (bookmarks) |
| General.MarkIdempotent | utilis/generalFuntions.js:1-7 | marking a marked list again changes nothing |
| General.AllMealTitles | utilis/generalFuntions.js:10-11 | a title is collected exactly when some meal of some slot of some plan has it |
| General.RecipeTitlesFromMealPlans | utilis/generalFuntions.js:9-12 | the result has no duplicates, holds exactly the titles of the plans' meals, and lists them in the order of their first occurrence, as a `Set` keeps them |
| General.IngredientIds | utilis/generalFuntions.js:14-16 | the ids of the ingredients, one per ingredient, in order |
| Units.TablesPositive | utilis/shoppinglistHelperFunctions.js:264-334 | every registered unit is a positive fraction of its reference amount (946 mL, 453.6 g) |
| Units.ParseType | utilis/shoppinglistHelperFunctions.js:338-341 | the measurement type is volume, weight or count exactly when the lower-cased text is that word, and nothing otherwise |
| Units.FindUnit | utilis/shoppinglistHelperFunctions.js:344-348 | the lookup finds the first entry whose lower-cased name contains or equals the lower-cased unit, and no earlier entry answers to it; none when no entry does |
| Units.CheckIfValidUnit | utilis/shoppinglistHelperFunctions.js:337-353 | an unknown type is "Invalid measurement type"; "count" is always "Invalid unit"; a success names volume or weight and the first matching entry, whose value is positive |
| Units.ToFundamental | utilis/shoppinglistHelperFunctions.js:355-371 | a falsy quantity passes through with its unit; otherwise a lookup failure is returned as is, or the amount becomes mL or g scaled by reference over the entry's value; never nothing |
| Units.FromFundamental | utilis/shoppinglistHelperFunctions.js:373-398 | equal units are the identity; a bad target is the lookup error; from any mL or g spelling the amount is scaled by the entry's value over the reference; from "count" it is copied; any other source spelling gives nothing |
| Units.ToAmountMeaning | utilis/shoppinglistHelperFunctions.js:362-364 | the fundamental amount times the unit's value is the reference times the quantity, so it keeps the quantity's sign and zero |
| Units.AmountRoundTrip | utilis/shoppinglistHelperFunctions.js:362-392 | scaling to the fundamental unit and back returns the quantity exactly |
| Units.RoundTrip | utilis/shoppinglistHelperFunctions.js:355-392 | converting a valid unit (or a falsy quantity) to the fundamental unit and back to the same unit returns the original quantity and unit |
| Units.RoundTripConverted | utilis/shoppinglistHelperFunctions.js:355-392 | the round trip for a non-zero quantity of a registered volume or weight unit |
| Units.FundamentalNotRegistered | utilis/shoppinglistHelperFunctions.js:264-350 | neither "mL" nor "g" is itself a registered unit, so the fundamental unit cannot be a conversion target |
| Units.NoVolumeEntryIsMl | utilis/shoppinglistHelperFunctions.js:264-304 | no volume entry answers to "ml" in any case |
| Units.NoWeightEntryIsG | utilis/shoppinglistHelperFunctions.js:306-334 | no weight entry answers to "g" in any case |
| Units.MillilitreNotMl | utilis/shoppinglistHelperFunctions.js:300-301 | "Milliliter(s)" does not contain "ml" |
| Units.OunceIsLiquidOunce | utilis/shoppinglistHelperFunctions.js:344-346 | "ounce" in volume resolves to "Ounce(s)" worth 32, ahead of "Fluid Ounce(s)" |
| Units.OunceMatchesOunce | utilis/shoppinglistHelperFunctions.js:284-285 | "Ounce(s)" answers to "ounce" |
| Units.GallonNotOunce | utilis/shoppinglistHelperFunctions.js:280-281 | "Gallon(s)" does not answer to "ounce" |
| Units.EmptyUnitIsFirst | utilis/shoppinglistHelperFunctions.js:344-348 | the empty unit resolves to the first entry of the volume or weight table |
| Units.CountNeverResolves | utilis/shoppinglistHelperFunctions.js:344-350 | the count type never finds a unit, so its truthy conversions are always "Invalid unit" and the `count` case is unreachable |
| IngredientConversion.UnitFormat | utilis/ingredientConversion.js:20 | the recipe unit is the measurement with a capital first letter and "(s)" appended, so it equals the measurement plus "(s)" up to case; a missing one is "NaN(s)" |
| IngredientConversion.BaseValue | utilis/ingredientConversion.js:21-23 | the base value is the conversion to the imperial base unit when it yields one; a converter that yields nothing, or a missing base unit for volume or weight, throws; a rejected recipe unit throws exactly when the base unit is valid |
| IngredientConversion.ConvertOne | utilis/ingredientConversion.js:8-40 | a "whole" line keeps its quantity; an unknown ingredient throws otherwise; a falsy quantity gives no quantity and no unit; a metric line carries the ingredient's title and metric base unit; notes are always text, "" by default |
| IngredientConversion.ConvertAll | utilis/ingredientConversion.js:5-43 | succeeds exactly when every line converts, with one line per ingredient in order |
| IngredientConversion.SameEntryScales | utilis/ingredientConversion.js:21-30 | when the recipe unit and the imperial base unit are the same entry, the quantity is the recipe quantity over the imperial base quantity times the metric base quantity |
| IngredientConversion.CountShowsNoNumber | utilis/ingredientConversion.js:21-29 | a counted ingredient with a quantity converts, but to no number |
| IngredientConversion.UnknownUnitThrows | utilis/ingredientConversion.js:21-23 | an unknown recipe unit against a valid base unit throws |
| MealPlanRecipes.AddServings | utilis/shoppinglistHelperFunctions.js:114-115 | a repeated meal adds its servings to the first meal with its key, which keeps that key |
| MealPlanRecipes.NonEmpty | utilis/shoppinglistHelperFunctions.js:101 | the meals kept are exactly the pushed objects that are not empty, and no more of them |
| MealPlanRecipes.Collect | utilis/shoppinglistHelperFunctions.js:98-121 | without a plan it throws; otherwise it throws exactly when, with two or more meals, some meal has no recipe, or when two meals of one recipe include one without a diet; on success the merged keys are the plan's distinct keys in order of first occurrence |
| MealPlanRecipes.CollectServings | utilis/shoppinglistHelperFunctions.js:106-120 | every merged meal carries the servings of all the plan's meals with its key, added in plan order |
| MealPlanRecipes.CollectKeepsTotal | utilis/shoppinglistHelperFunctions.js:106-120 | merging keeps the plan's total servings |
| MealPlanRecipes.SingleFold | utilis/shoppinglistHelperFunctions.js:106-120 | a single meal is merged into itself unchanged |
| MealPlanRecipes.AddCommutative | utilis/shoppinglistHelperFunctions.js:115 | the servings addition is commutative, so merged totals do not depend on the order of the repeats |
| MealPlanRecipes.ListNameRule | utilis/shoppinglistHelperFunctions.js:127-130 | a meal without a diet has no list name; a dairy-free meal with a diet reads the dairy-free list whatever that diet is; any other meal reads its diet's list, diets compared ignoring case |
| MealPlanRecipes.Source | utilis/shoppinglistHelperFunctions.js:134-146 | a gluten-free meal's entry with a substitute id converts against the ingredient whose old id is that id, any other entry against its own ingredient |
| MealPlanRecipes.Normalize | utilis/shoppinglistHelperFunctions.js:165-246 | a missing document or type throws; a count ingredient keeps the recipe quantity for both amounts in "Item(s)" with factor 1; any other keeps its type and gets a numeric imperial amount or 0 |
| MealPlanRecipes.MetricFollowsImperial | utilis/shoppinglistHelperFunctions.js:241-243 | outside count, the metric amount is the conversion factor times the imperial amount, or 0 |
| MealPlanRecipes.UnresolvedUnitIsZero | utilis/shoppinglistHelperFunctions.js:180-244 | a recipe unit (default "count") that resolves nowhere gives 0 for both amounts and no unit |
| MealPlanRecipes.ResolvedUnitIsFundamental | utilis/shoppinglistHelperFunctions.js:180-242 | a registered recipe unit gives the amount in mL or g and names that unit |
| MealPlanRecipes.BaseAmountIsMetricBase | utilis/shoppinglistHelperFunctions.js:175-243 | a recipe asking for exactly the ingredient's imperial base amount gets exactly its metric base amount |
| MealPlanRecipes.NormalizeAll | utilis/shoppinglistHelperFunctions.js:131-147 | a list converts exactly when each entry does, to one converted entry per recipe entry, in order |
| MealPlanRecipes.ScaleAll | utilis/shoppinglistHelperFunctions.js:252-258 | one scaled line per converted entry, in order, each keeping its entry |
| MealPlanRecipes.PopulateMeal | utilis/shoppinglistHelperFunctions.js:125-162 | a meal without a diet (dairy-free or not), without a recipe or without its list throws; otherwise one line per list entry, in order, each amount times meal servings over recipe servings |
| MealPlanRecipes.ScaledProportion | utilis/shoppinglistHelperFunctions.js:251-256 | a line's meal-plan amount is to its recipe amount as the meal's servings are to the recipe's |
| MealPlanRecipes.Populate | utilis/shoppinglistHelperFunctions.js:123-163 | succeeds exactly when every meal does, with all meals' lines flattened in order, the first meal's lines first |
| MealPlanRecipes.PlanLines | utilis/shoppinglistHelperFunctions.js:8-163 | the lines of a plan exist only when the merge and the population succeed, and then every meal had a recipe and a diet |
| MealPlanRecipes.CollectedRecipes | utilis/shoppinglistHelperFunctions.js:101-162 | every meal of a plan whose lines could be built has a recipe and a diet, even a meal the merge never compares |
| MealPlanRecipes.DietsCarried | utilis/shoppinglistHelperFunctions.js:106-120 | the merge keeps every meal's key, diet included, so a plan meal without a diet leaves a merged meal without one |
| MealPlanRecipes.PopulateNeedsRecipes | utilis/shoppinglistHelperFunctions.js:125-130 | only meals with a recipe and a diet yield lines |
| KeyedFold.Find | utilis/shoppinglistHelperFunctions.js:107-112 | `findIndex` by key: a found index holds the key, and nothing is found exactly when no entry has it |
| KeyedFold.FoldKeys | utilis/shoppinglistHelperFunctions.js:106-120 | a merge-by-key reduction leaves one entry per key, the keys in order of first occurrence |
| KeyedFold.FoldTotals | utilis/shoppinglistHelperFunctions.js:106-120 | every merged entry's measure is the combination of the measures of all input entries with its key, in input order |
| KeyedFold.FoldSum | utilis/shoppinglistHelperFunctions.js:106-120 | with a commutative and associative addition, the reduction keeps the sum of the measures |
| ShoppingList.AppendNotes | controllers/shoppinglistController.js:105 | merged notes always exist and begin with the notes accumulated so far |
| ShoppingList.MergeLines | controllers/shoppinglistController.js:102-105 | merging a repeated ingredient into the first entry keeps that entry's ingredient id |
| ShoppingList.MergeById | controllers/shoppinglistController.js:97-110 | the merge leaves one entry per ingredient id, in order of first occurrence |
| ShoppingList.MergeTotals | controllers/shoppinglistController.js:97-110 | each merged entry's imperial and metric amounts are the sums over all lines with its id, and its notes are their notes joined by commas (later ones trimmed), in order |
| ShoppingList.MergeKeepsTotals | controllers/shoppinglistController.js:97-110 | merging keeps the total imperial and the total metric amount of the list |
| ShoppingList.DropBad | controllers/shoppinglistController.js:124 | the filter keeps exactly the tokens other than "", "undefined" and "null", and keeps a list free of duplicates |
| ShoppingList.CleanNotes | controllers/shoppinglistController.js:123-127 | falsy notes become no notes; otherwise the notes are exactly the distinct comma-separated tokens other than "", "undefined" and "null" |
| ShoppingList.CleanNotesOrder | controllers/shoppinglistController.js:124 | the cleaned notes keep the order of their first occurrence in the text |
| ShoppingList.DropBadOrder | controllers/shoppinglistController.js:124 | filtering keeps first-occurrence order |
| ShoppingList.ToBase | controllers/shoppinglistController.js:122-165 | notes are cleaned; a count ingredient or one missing an amount or base unit gets its meal-plan amounts, or 1 when those are 0 or missing, in "Item(s)", and so always a truthy amount |
| ShoppingList.BaseAliasIsIdentity | controllers/shoppinglistController.js:131-145 | an imperial base unit "Milliliter(s)" of a volume ingredient, or a metric base unit "Gram(s)" of a weighed one, leaves the amount as it is, in mL or g |
| ShoppingList.BaseInvertsFundamental | controllers/shoppinglistController.js:131-151 | converting a fundamental amount to the imperial base unit undoes the conversion that produced it from that unit |
| ShoppingList.ScaledShopping | controllers/shoppinglistController.js:189-197 | the need in shopping units (shopping over base amount, times the line's base amount) rounded up to a half; the raw shopping amount when the line has no base amount or the need lies in (-0.5, 0]; never falsy |
| ShoppingList.FallbackShopping | controllers/shoppinglistController.js:204-205 | the shopping amount rounded up to a half, and -1 exactly when it is missing or lies in (-0.5, 0], so a positive amount never shrinks |
| ShoppingList.ToShopping | controllers/shoppinglistController.js:183-207 | with a usable ratio in the ingredient document both amounts are scaled from the line's imperial and metric base amounts and are truthy; without one both fall back to the document's shopping amounts; the rest of the line is kept |
| ShoppingList.ShoppingCoversNeed | controllers/shoppinglistController.js:189-197 | a positive need is rounded up to a half unit, so the amount bought covers it; at the base amount exactly, the shopping amount rounded |
| ShoppingList.ShoppingWithoutBase | controllers/shoppinglistController.js:183-197 | a line whose base conversion failed keeps the document's own shopping amounts when the ratio is usable |
| ShoppingList.Stages | controllers/shoppinglistController.js:122-208 | the base and shopping stages keep the list's length and order, one line per merged ingredient |
| ShoppingList.DeleteOne | controllers/shoppinglistController.js:27 | `deleteOne` removes at most one list, only one for the pair, and keeps every other list |
| ShoppingList.DeleteOneCount | controllers/shoppinglistController.js:27 | deleting removes exactly one list of the pair when there is one, leaves the store unchanged otherwise, and leaves other pairs alone |
| ShoppingList.CreateList | controllers/shoppinglistController.js:28-33 | the new list is stored last |
| ShoppingList.CreateKeepsOnePerPair | controllers/shoppinglistController.js:24-38 | delete-then-create keeps at most one list per owner and meal plan, and exactly one for the pair just created |
| ShoppingList.DeleteOnReset | controllers/shoppinglistController.js:44-52 | a request without a user throws, whatever `reset` is; otherwise the pair's list is deleted exactly when `reset` is a non-empty text, even "false", and the store is left as it was otherwise |
| ShoppingEndpoint.Preference | controllers/shoppinglistController.js:55 | a request without a user reads the preference as `undefined`, spelt "undefined" in field names; a user without a preference throws; any other preference is lower-cased |
| ShoppingEndpoint.GetMealPlanShoppingList | controllers/shoppinglistController.js:53-236 | every failure is passed on as a 400 `AppError` with the failure's message, among them a user without a unit preference and a plan whose lines cannot be built; a result needs the plan's lines and its title, has three sections, each without repeated ingredient ids, and shows each line in the preference read |
| ShoppingEndpoint.HandlerWithoutUserShowsNoAmounts | controllers/shoppinglistController.js:55 | the handler called on its own without a user builds lists with no quantity and no unit on any entry |
| ShoppingEndpoint.ShoppingListRoute | routes/shoppinglistRoutes.js:16-17 | a request without a user throws in the reset middleware before any list is built; with a user the route succeeds exactly when the handler does, sends the handler's list and leaves the store as the middleware left it |
| ShoppingEndpoint.RouteAnswers500WithoutUser | controllers/shoppinglistController.js:44-47 | every request to the route without a user is answered in production with status 500 and the generic message |
| ShoppingEndpoint.StagesKeepIds | controllers/shoppinglistController.js:122-208 | distinct ids after the merge stay distinct through the base and shopping stages |
| ShoppingEndpoint.SectionIdsDistinct | utilis/shoppinglistHelperFunctions.js:416-442 | a section built from lines with distinct ids has distinct ids |
| StandardFormat.EntryOf | utilis/shoppinglistHelperFunctions.js:417-428 | an entry is unchecked and keeps the id and title; its amount and unit follow the preference; "g" is shown as "Gram(s)" while the desired title keeps the raw unit; notes are joined by commas |
| StandardFormat.SectionEntries | utilis/shoppinglistHelperFunctions.js:430-441 | a section holds exactly the entries of the lines whose category equals its name ignoring case, one per such line |
| StandardFormat.ToStandardFormat | utilis/shoppinglistHelperFunctions.js:400-447 | the list exists exactly when the plan's title does, and has three sections, Pantry, Produce and Refrigerated, in that order |
| StandardFormat.SectionsExclusive | utilis/shoppinglistHelperFunctions.js:430-441 | no line is in two sections |
| StandardFormat.SectionsPartition | utilis/shoppinglistHelperFunctions.js:416-442 | every line is in exactly one section or dropped: the section sizes and the dropped lines add up to the list |
| MealPlans.SlotOrder | controllers/mealplanController.js:506-516 | breakfast, lunch and dinner, in any case, get orders 1, 2 and 3, and no other title gets an order |
| MealPlans.HavingMembers | controllers/mealplanController.js:518 | a group of the sort holds only slots of the input with that order |
| MealPlans.StableSort | controllers/mealplanController.js:518 | the sort is ascending by order, a permutation of its input, and keeps slots with equal order in their input order |
| MealPlans.GroupsAscending | controllers/mealplanController.js:518 | the slots of order 1, then 2, then 3 are in ascending order |
| MealPlans.GroupsStable | controllers/mealplanController.js:518 | taking the groups in turn keeps each order's slots as they were |
| MealPlans.Groups | controllers/mealplanController.js:518 | when every slot has an order, the three groups together are exactly the slots |
| MealPlans.SortSlots | controllers/mealplanController.js:504-519 | slots are sorted when all are breakfast, lunch or dinner: ascending by order, a permutation, stable for equal orders |
| MealPlans.MaskDrafts | controllers/mealplanController.js:520-528 | a meal is shown unchanged exactly when the user is an admin or its draft flag is exactly false, otherwise it is emptied; the length is kept |
| MealPlans.MaskShowsPublished | controllers/mealplanController.js:520-528 | a non-admin sees exactly the published meals, an admin all of them |
| MealPlans.PlanData | controllers/mealplanController.js:504-529 | the slots of a plan come back sorted, each carrying its order (1 breakfast, 2 lunch, 3 dinner, ascending) and its meals masked for the user |
| MealPlans.SortedMealPlansQuery | controllers/mealplanController.js:198-205 | the key defaults to featured date, the direction is 1 exactly for a missing direction or "asc", and the page size defaults to 25 |
| MealPlans.FindRecipe | controllers/mealplanController.js:591 | the recipe found matches by legacy id or by title, and when none is found no recipe matches either way |
| MealPlans.MigrateMeal | controllers/mealplanController.js:586-603 | a meal keeps its fields and gets its diet and flags as details; its id changes only when it has one and a recipe matches, and then becomes that recipe's id |
| MealPlans.MigrateSlot | controllers/mealplanController.js:582-607 | a slot keeps its title and migrates each meal in order |
| MealPlans.FindUser | controllers/mealplanController.js:609 | the owner found has the plan's user id, and none is found only when no user has it |
| MealPlans.MigratePlan | controllers/mealplanController.js:574-626 | a plan migrates exactly when its owner exists, with that owner, the fixed default shopping list, the current time, its own tags, title, admin flag and primary image, and each slot migrated |
| MealPlans.MigratePlans | controllers/mealplanController.js:574-626 | the migrated plans are exactly those of input plans with an owner |
| MealPlans.MigrateKeepsOwned | controllers/mealplanController.js:609-626 | one plan is kept for each input plan whose owner exists |
| Recipes.ClassifyTags | controllers/recipeController.js:408-451 | the text tags are exactly those of type "recipe" or of an unknown type, in order |
| Recipes.ClassifyTitles | controllers/recipeController.js:413-428 | the meal-plan titles are those of every "mealplan" tag's plans, in order, with empty titles dropped |
| Recipes.ClassifyIds | controllers/recipeController.js:429-442 | the ingredient ids are those found for every "ingredient" tag, each kept once at its first occurrence |
| Recipes.ClassifyUnmatched | controllers/recipeController.js:443-446 | an "ingredient" tag matching no ingredient is recorded, and title search is switched on exactly when there is one |
| Recipes.FinalTags | controllers/recipeController.js:453-463 | the remaining tags have no duplicates and are exactly the text tags |
| Recipes.FinalTagsOrder | controllers/recipeController.js:453-463 | the remaining tags keep the order of their last occurrences |
| Recipes.Clauses | controllers/recipeController.js:629-662 | one clause per remaining tag, a title clause exactly when a tag matched no ingredient, an `$all` clause exactly when there are ingredient ids, and a title-list clause exactly when there are meal-plan titles |
| Recipes.RecipeRatings | controllers/recipeController.js:1197-1208 | the count is the number of ratings; the average times the count is their sum, or 4.5 without ratings |
| Recipes.SumBounds | controllers/recipeController.js:1200-1202 | the sum of scores within bounds lies within the bounds times the count |
| Recipes.AverageBetween | controllers/recipeController.js:1199-1204 | the average of scores within bounds lies within the same bounds |
| Recipes.PreferenceOf | controllers/recipeController.js:740 | the preference is metric exactly when the user's unit preference is "metric" in any case |
| Recipes.GetRecipeById | controllers/recipeController.js:734-783 | a missing user throws; a missing recipe, or a draft for a non-admin, is not found; otherwise the chosen diet's (default omnivore) instructions and ingredients become the defaults, converted to metric only for a metric user |
| Recipes.FindByOldId | controllers/recipeController.js:1142-1145 | an ingredient found has a numeric `old_id` strictly equal to the line's id, none is found only when no ingredient has one, and a line id written as text finds nothing |
| Recipes.MigrateLines | controllers/recipeController.js:1141-1147 | each line keeps its amount and unit, and its id becomes that of the ingredient with the legacy id, if any |
| Recipes.LastListWins | controllers/recipeController.js:1137-1182 | a diet's list is the last legacy list for the recipe and that diet, or empty when there is none |
| Recipes.DietFieldsDiffer | controllers/recipeController.js:1139-1179 | the four diets fill four different fields |
| Recipes.MigrateRecipe | controllers/recipeController.js:1110-1185 | a recipe keeps its id, title, review, draft and public flags, publish date, primary image, four instruction texts and prep time; gets the default description, cook time 15 and servings 1 when missing, rating 4.5 over 10, its tags split on commas and trimmed; and its lists are the last list of each diet, one per diet field |
| Tags.Typed | controllers/tagController.js:30-48 | each tag becomes one entry, lower-cased, with the given type, in order |
| Tags.AllTags | controllers/tagController.js:18-55 | the candidates are the ingredient titles first, each lower-cased as an "ingredient" entry, then exactly the non-empty meal-plan tags as "mealplan" entries, the non-empty recipe tags as "recipe" entries and all ingredient tags as "ingredient" entries, each segment in order |
| Tags.CandidatesOfKind | controllers/tagController.js:36-55 | a (tag, "mealplan") or (tag, "recipe") pair is a candidate exactly when some non-empty tag of that kind lower-cases to it |
| Tags.CreateTags | controllers/tagController.js:57-70 | the stored entries have no two equal (tag, type) pairs and are exactly the candidates whose search finds a recipe |
| Tags.StoredInLastOrder | controllers/tagController.js:57-61 | the stored entries keep the order of their last occurrences among the candidates |
| Tags.TitlesAreCandidates | controllers/tagController.js:21-24 | an ingredient title whose search finds a recipe is stored as an "ingredient" tag |
| Tags.BlankTagsDropped | controllers/tagController.js:36-48 | no empty recipe or meal-plan tag is a candidate |
| Users.RemoveAll | controllers/userController.js:152 | removing an id drops every copy of it and keeps every other entry as often as before |
| Users.Toggle | controllers/userController.js:152 | an absent id is appended at the end; a present one has every copy removed; no other id changes membership |
| Users.RemoveAllKeepsOrder | controllers/userController.js:152 | removing keeps the other entries in their order |
| Users.ToggleTwice | controllers/userController.js:152 | toggling an absent id twice restores the list |
| Users.ToggleKeepsDistinct | controllers/userController.js:152 | a list without duplicates stays without duplicates |
| Users.AddRemoveFavorite | controllers/userController.js:149-164 | only the favourites change, by the toggle |
| Users.AddRemoveBookmark | controllers/userController.js:171-186 | only the bookmarks change, by the toggle |
| Users.UpdateUser | controllers/userController.js:126-143 | a missing user is a 404; otherwise only unit preference, primary diet and the two diet flags change, each to the given value or left as it was |
| Users.UpdateIdempotent | controllers/userController.js:126-143 | applying the same update twice is applying it once |
| Users.Login | controllers/userController.js:13-27 | a sign-in error is passed on; a user without email or Memberful id is a 401; otherwise a token over both is issued |
| Users.LoginAdmin | controllers/userController.js:29-47 | a missing email or password is a 401; an unknown email throws; a token is issued exactly to an admin, any other user gets a 401 |
| Users.PasswordNeverCompared | controllers/userController.js:32-43 | any non-empty password gives the same outcome |
| Users.PasswordLoginFails | controllers/userController.js:15 | a sign-in by email and password never logs in, because the member looked up has no subscriptions to read |
| Users.Tick | controllers/userController.js:271 | the checkbox is "checked" exactly for a ticked line |
| Users.LineTicked | controllers/userController.js:271-272 | a line's checkbox carries `checked` exactly when the entry is ticked |
| Users.LineNotes | controllers/userController.js:272 | a line ends with a notes block exactly when the entry has notes |
| Users.GroupHtml | controllers/userController.js:263-274 | a group has a heading only when it has a category, followed by its lines |
| Users.HeadingOnlyWithCategory | controllers/userController.js:264-266 | a group with a category starts with its heading; one without is just its lines |
| Users.EmailBody | controllers/userController.js:258-286 | without a shopping list it is a 404; otherwise the body is the header with the plan's title, then every group in order |
| Memberful.ValidSubscriptionIds | middleware/memberful.js:17-23 | the test plan "92789" is valid exactly in the local environment; elsewhere the nine fixed ids are, all of them plans with known permissions |
| Memberful.AnyCurrent | middleware/memberful.js:64-71 | a member is current exactly when some subscription is active and on a valid plan |
| Memberful.CurrentIgnoresOrder | middleware/memberful.js:64-71 | the membership verdict does not depend on the order of the subscriptions |
| Memberful.FetchMember | middleware/memberful.js:76-95 | an answer is passed on as it is; a failed request becomes a plain `Error` whose message is the failure's text followed by ": Memberful Fetch Member" |
| Memberful.CheckIfCurrentMember | middleware/memberful.js:52-74 | the member's own subscriptions decide when present; otherwise a member looked up by email decides, a failed lookup is rethrown, no member is not current, and a member without subscriptions throws |
| Memberful.PreferApiEmail | middleware/memberful.js:195 | the Memberful email is used when it is non-empty, the sign-in email otherwise |
| Memberful.NewUser | middleware/memberful.js:203-218 | a new user is active as the membership says, not an admin, omnivore, a family of one, imperial, with neither diet flag and with empty lists |
| Memberful.UpdatedUser | middleware/memberful.js:192-201 | an existing user gets the membership verdict, the preferred email and the full name, and nothing else changes |
| Memberful.ValidateCredentials | middleware/memberful.js:26-50 | a rejected token request is rethrown as it is; a token body with a truthy access token passes; any other body throws a `TypeError`, never an invalid-check report |
| Memberful.SignInMember | middleware/memberful.js:158-179 | with a code, a failed code exchange is rethrown, no token body throws, and otherwise the current member is fetched with the access token; without one, a failed password check is rethrown and otherwise the member is fetched by email |
| Memberful.Authenticate | middleware/memberful.js:158-222 | any failure to obtain the member, through the code exchange, the password check or either fetch, ends the sign-in with that error, and a missing member throws; a new user gets the defaults; an existing user changes only in activity, email and name |
| Memberful.FetchFailureEndsSignIn | middleware/memberful.js:88-137 | a failed member fetch, by access token or by email, ends the sign-in with the plain `Error` naming the failure |
| Memberful.PasswordSignInNeverBadRequest | middleware/memberful.js:170-178 | a password sign-in never ends in a `GeneralError` unless the token request was rejected with one, so the `BadRequest` is unreachable |
| Memberful.PasswordSignInNeedsSubscriptions | middleware/memberful.js:180-188 | a password sign-in whose member lookup returns no subscriptions always throws |
| Memberful.PlanOf | controllers/memberfulController.js:46-118 | a plan id has permissions exactly when it is in the table; the three flags agree, and are set exactly for the plans that are not Basic |
| Memberful.PlanTable | controllers/memberfulController.js:46-118 | every table entry has three equal flags, false exactly for the Basic plans |
| Memberful.Replay | controllers/memberfulController.js:145-157 | with no active subscription the result is the Basic default; otherwise it is the plan of some active subscription |
| Memberful.PermissionCheck | controllers/memberfulController.js:145-157 | without an active subscription the permissions are the Basic default; any permissions found have three equal flags |
| Memberful.LastActiveDecides | controllers/memberfulController.js:152-157 | the last active subscription decides, and an unknown plan id gives undefined permissions |
| Memberful.ReplayLastActive | controllers/memberfulController.js:152-157 | the loop's result is the plan of the last active subscription |
| Memberful.InactiveChangesNothing | controllers/memberfulController.js:152-157 | an inactive subscription anywhere in the list changes nothing |
| Memberful.CurrentPlanHasPermissions | controllers/memberfulController.js:152-157 | when the last active subscription is on a plan valid for membership, the permissions are defined |
| Ingredients.MigrateIngredient | controllers/ingredientController.js:133-147 | produce is counted as 1 "item(s)" in both systems, everything else weighed as 8 "ounce(s)" and 227 "gram(s)"; shopping amounts equal base amounts; the legacy id is kept and the tags are empty |
| Ingredients.MigrateIngredients | controllers/ingredientController.js:131-150 | one migrated ingredient per legacy one, in order |
| Ingredients.StoredOldId | models/ingredientModel.js:6-8 | `old_id` is stored as a number: a numeric legacy id as it is, a text id as the number it reads as, if any |
| Ingredients.LegacyIdsResolve | controllers/ingredientController.js:131-150 | a legacy ingredient id exported as a number is found again by the recipe migration's strict `old_id` lookup; one exported as text is found only through its number, never through the text |
| Ingredients.MigratedGramsUnregistered | controllers/ingredientController.js:142-145 | the metric unit "gram(s)" given to weighed ingredients answers to no weight unit |
| Ingredients.SortedIngredientsQuery | controllers/ingredientController.js:51-59 | the key defaults to creation date, the direction is 1 exactly for a missing direction or "asc", and the page size is the route text, 25 only when that is empty |
| Collections.PageOf | controllers/recipecollectionController.js:211 | a page number that is not a number reads as page 0 |
| Collections.ResultsPerPage | controllers/recipecollectionController.js:212 | page 1 shows one collection, page 2 two, any other page three |
| Collections.SkipAsWritten | controllers/recipecollectionController.js:212-217 | as written, pages 1 to 3 skip 0, 1 and 3 collections and any other page twice the number of earlier pages |
| Collections.AsWrittenPagesOverlap | controllers/recipecollectionController.js:214-217 | as written, from page 5 on a page begins with the last collection of the page before |
| Collections.Position8OnPages4And5 | controllers/recipecollectionController.js:214-217 | as written, the collection at position 8 is on pages 4 and 5 |
| Collections.DefaultPageSkipsNegative | controllers/recipecollectionController.js:211-217 | as written, the default page 0 skips -2 collections |
| Collections.Skip | controllers/recipecollectionController.js:212-217 | the corrected skip agrees with the handler up to page 4 and is 3p - 6 from page 3 on |
| Collections.PagesFollowOn | controllers/recipecollectionController.js:212-217 | with the corrected skip page 1 starts at the first collection and every page starts where the one before ends |
| Collections.PageOfPosition | controllers/recipecollectionController.js:212-217 | every position of the sorted list is on a page from 1 on |
| Collections.SkipMonotone | controllers/recipecollectionController.js:212-217 | corrected pages lie in order, each after the end of every earlier page |
| Collections.PagesPartition | controllers/recipecollectionController.js:212-217 | with the corrected skip each position is on exactly one page |
| Collections.CollectionsResponse | controllers/recipecollectionController.js:320-338 | recipes carry the user's favourite and bookmark flags; a first collection with a null id gives an empty list; the total count is undefined |
| Collections.FlagsFollowUserLists | controllers/recipecollectionController.js:320-326 | a returned recipe is a favourite (bookmark) exactly when its id is in the user's favourites (bookmarks) |
| Collections.AllCollectionsTotal | controllers/recipecollectionController.js:47 | a missing or zero total is reported as 0 |
| Collections.SortedCollectionsQuery | controllers/recipecollectionController.js:349-355 | the key defaults to featured date, the direction is 1 exactly for a missing direction or "asc", and the page size defaults to 25 |
| S3.Sanitize | middleware/s3.js:11 | the key has the name's length, every space and dot becomes an underscore, every other character is kept, and no space or dot remains |
| S3.SanitizeIdempotent | middleware/s3.js:11 | sanitizing a key again changes nothing |
| S3.SanitizeFixesClean | middleware/s3.js:11 | a name is its own key exactly when it has no space and no dot |
| S3.FileKey | middleware/s3.js:11 | a file has a key exactly when it has a name |
| S3.PublicUrl | middleware/s3.js:28 | the address is "https://", the bucket, the us-west-2 host and the key, in that order |
| S3.PutConfig | middleware/s3.js:13-19 | the object is stored in the bucket under the sanitized key, with the file's type and public read access |
| S3.UploadImage | middleware/s3.js:21-31 | a storage error rejects with that error; otherwise the public address of the key the object was stored under |
| S3.UrlEndsWithKey | middleware/s3.js:11-28 | an upload's address ends with the sanitized name, with no space or dot in that part |

## Left out

- Database, Redis, Memberful, mail and S3 calls: their results are parameters; query and aggregation semantics (sorting, `$lookup`, `$group`, skip and limit inside the database) are not modelled.
- Express plumbing, JWT signing and verification, cookies, `console` output and the `catchAsync` wrapper: they forward values or only log.
- utilis/appError.js is not part of this model: an `AppError` is modelled as an operational error with its code and message, and its status text is a parameter.
- The development error body's `err` field (the whole exception object) is left out; the other fields are modelled.
- `deleteImage` in middleware/s3.js and the AWS client configuration: a storage call with no logic of its own.
- The HTTP POST of the contact email: the model builds the message body only. The handler does not wait for the request, since it awaits the `data` field of the pending request, which is `undefined`, and answers regardless.
- Floating point: quantities are exact reals, so rounding of binary fractions is not modelled.
- Text.Lower: case mapping covers the ASCII letters only, while `toLowerCase` and `toUpperCase` map every Unicode letter; tags, diets, slot titles, units and categories with non-ASCII letters are compared more strictly than the source compares them.
- MealPlans.MigratePlans: every migrated plan gets the same featured date, a parameter, where the source reads the clock once per plan (controllers/mealplanController.js:618), so its dates may differ by the time the migration takes.
- Js.Div: a zero divisor gives no number (`None`), where JavaScript gives an infinity for a non-zero dividend. Besides table factors, the source divides by stored data: an ingredient's `imperial_base_qty` (utilis/ingredientConversion.js:29), a converted amount (utilis/shoppinglistHelperFunctions.js:177) and a recipe's `servings` (utilis/shoppinglistHelperFunctions.js:251). An ingredient stored with `imperial_base_qty` 0 gives `Infinity` there, where the model gives no number.
- Collections.PageOf: takes the page the route text parses to as an integer; a fractional page number is not modelled.
- MealPlans.SortSlots: makes no claim when a slot title is not breakfast, lunch or dinner; the source's comparator then yields `NaN` and the order depends on the engine.
- Recipes.GetRecipeById: models the diet-specific fields the projection chooses, not the rest of the stored recipe document.
- The migrations mutate shared legacy objects in place (`migrateRecipes` rewrites ingredient lists it also reads later); the model migrates each item from its legacy form.
- Memberful.ValidateCredentials: assumes a token body has no `response` field of its own, so a body without an access token crashes at `response.data`; the rejection's HTTP status is not carried, only its message.
- The tag list `migratePlans` builds and never uses is not modelled.
- A Mongoose update with an `undefined` field leaves that field unchanged; a duplicate-key error carries the offending `keyValue`. Both are assumed of the database library.
- Ingredients.StoredOldId: how Mongoose reads a text as a number is a parameter. A text it cannot cast makes `insertMany` reject, which the model does not follow: it stores such a document without a number.
- Tags.CreateTags: the search for each tag cannot fail in the model, so the handler's catch-all answer, a 400 `AppError` "Something went wrong" (controllers/tagController.js:73-75), is not modelled.

Behaviour the model follows as the code has it:

- `collectMealPlanRecipes` throws when a meal's recipe is not found, rather than skipping the meal.
- A meal stored without a diet makes the shopping-list build throw: `populateIngredientsForRecipeList` lower-cases every meal's diet, dairy-free or not, and `collectMealPlanRecipes` does so for two meals of the same recipe.
- `getCode()` is never called by the error handler, so a `GeneralError` would be reported with status 500. The only one the code throws, the `BadRequest` of a wrong password, is unreachable: the token request rejects a wrong password, and that rejection propagates as it is (a generic 500 in production).
- The shopping-list route (`deleteShoppingListOnReset`, then `getMealPlanShoppingList`) is mounted without authentication and nothing else sets `req.user`, so every request to it throws at `req.user._id` in the middleware, before any list is built, and is answered with a 500. Called with no user, the handler alone would not throw: its optional chain yields `undefined`, and every entry would read its quantity and unit from `final_undefined_shopping_qty` and `undefined_shopping_unit`, which do not exist.
- A legacy ingredient id exported as text is stored as a number in `old_id`, so the recipe migration's strict comparison never matches a recipe line that carries the same id as text.
- A password sign-in through Memberful always fails: the member query does not ask for subscriptions, and the code iterates over them.
- `loginAdmin` throws on an unknown email instead of answering 401.
- `getSortedIngredients` passes the page size on as route text, not as a number.
- The weighed ingredients' metric unit "gram(s)" set by `migrateIngredients` is not a unit of the weight table.
- `getAllRecipesFromCollection` sends a total count that is always undefined, and page 0 asks for a skip of -2.
- `convertIngredientsToBaseUnit` throws when a volume or weight ingredient has no imperial base unit, and when the recipe's unit is rejected while the ingredient's base unit is valid: the second conversion then gets no unit and returns nothing.

## Findings

| source | as written | input that shows it | evidently intended | confidence | as-written member | corrected member |
|---|---|---|---|---|---|---|
| controllers/recipecollectionController.js:214-217 | the skip is `(page - 1) * (resultsPerPage - 1)`, minus one on page 3 only, so from page 4 on it is `2 * (page - 1)` while each page shows three collections | page 5 skips 8 collections while page 4 shows positions 6 to 8, so the collection at position 8 is on both pages | each page starts after the last collection of the page before: skip `3 * page - 6` from page 3 on | not executed | Collections.SkipAsWritten, Collections.AsWrittenPagesOverlap, Collections.Position8OnPages4And5 | Collections.Skip, Collections.PagesFollowOn, Collections.PagesPartition |

=== FILE: collections.dfy ===
/**
 * The page arithmetic and response shaping of
 * controllers/recipecollectionController.js. The aggregation pipelines
 * themselves are database queries; what is modelled is the JavaScript around
 * them: which window of collections a page asks for, and what is sent back.
 */
module Collections {
  import opened Wrappers
  import opened Js
  import General

  // ---- getAllRecipesFromCollection: page windows ----

  /**
   * `Number(pageNum) || 0`: the page number, with a missing, non-numeric or
   * zero page number read as page 0. `pageNum` is the number the route text
   * parses to (None when it parses to NaN).
   */
  function PageOf(pageNum: Option<int>): (r: int)
    ensures pageNum.Some? ==> r == pageNum.value
    ensures pageNum.None? ==> r == 0
  {
    if pageNum.Some? then pageNum.value else 0
  }

  /** The page size: one collection on page 1, two on page 2, three on any other page. */
  function ResultsPerPage(page: int): (r: int)
    ensures page == 1 <==> r == 1
    ensures page == 2 <==> r == 2
    ensures page != 1 && page != 2 <==> r == 3
  {
    if page == 1 then 1 else if page == 2 then 2 else 3
  }

  /**
   * The number of collections skipped before the page, as the handler computes
   * it: 0, 1 and 3 for pages 1 to 3, and twice the number of earlier pages
   * otherwise, although those pages hold three collections each.
   */
  function SkipAsWritten(page: int): (r: int)
    ensures page == 1 ==> r == 0
    ensures page == 2 ==> r == 1
    ensures page == 3 ==> r == 3
    ensures page >= 4 || page <= 0 ==> r == 2 * (page - 1)
  {
    var size := ResultsPerPage(page);
    if size == 3 && page == 3 then (page - 1) * (size - 1) - 1
    else (page - 1) * (size - 1)
  }

  /** Whether the collection at position `k` of the sorted list is on the page, as written. */
  predicate OnPageAsWritten(page: int, k: int) {
    SkipAsWritten(page) <= k < SkipAsWritten(page) + ResultsPerPage(page)
  }

  /**
   * As written, the first four pages follow on from each other (positions 0,
   * 1-2, 3-5 and 6-8), but from page 5 on every page starts one position before
   * its predecessor ends.
   */
  lemma AsWrittenPagesOverlap(page: int)
    requires page >= 5
    ensures OnPageAsWritten(page - 1, SkipAsWritten(page))
    ensures OnPageAsWritten(page, SkipAsWritten(page))
  {
  }

  /** The concrete case: the collection at position 8 is shown on both page 4 and page 5. */
  lemma Position8OnPages4And5()
    ensures OnPageAsWritten(4, 8) && OnPageAsWritten(5, 8)
  {
  }

  /** As written, the default page 0 asks the database to skip a negative number of collections. */
  lemma DefaultPageSkipsNegative()
    ensures SkipAsWritten(PageOf(None)) == -2
  {
  }

  /**
   * The skip the page sizes call for: everything shown on the earlier pages
   * (one, then two, then three per page). It agrees with the handler up to
   * page 4 and on pages below 1.
   */
  function Skip(page: int): (r: int)
    ensures page <= 4 ==> r == SkipAsWritten(page)
    ensures page >= 3 ==> r == 3 * page - 6
  {
    if page <= 3 then SkipAsWritten(page) else 3 * page - 6
  }

  predicate OnPage(page: int, k: int) {
    Skip(page) <= k < Skip(page) + ResultsPerPage(page)
  }

  /** Each page starts where the one before it ends, and page 1 starts at the first collection. */
  lemma PagesFollowOn(page: int)
    requires page >= 2
    ensures Skip(1) == 0
    ensures Skip(page) == Skip(page - 1) + ResultsPerPage(page - 1)
  {
  }

  /** The page a position of the sorted list falls on. */
  function PageOfPosition(k: nat): (p: int)
    ensures p >= 1 && OnPage(p, k)
  {
    if k == 0 then 1 else if k <= 2 then 2 else (k + 6) / 3
  }

  /** Skips grow with the page number from page 1 on. */
  lemma {:induction false} SkipMonotone(p: int, q: int)
    requires 1 <= p <= q
    ensures Skip(p) <= Skip(q)
    ensures p < q ==> Skip(p) + ResultsPerPage(p) <= Skip(q)
    decreases q - p
  {
    if p < q {
      PagesFollowOn(q);
      SkipMonotone(p, q - 1);
    }
  }

  /**
   * The pages from 1 on partition the sorted list: every position is on exactly
   * one page.
   */
  lemma PagesPartition(k: nat, page: int)
    requires page >= 1
    ensures OnPage(page, k) <==> page == PageOfPosition(k)
  {
    var p := PageOfPosition(k);
    if page < p {
      SkipMonotone(page, p);
    } else if p < page {
      SkipMonotone(p, page);
    }
  }

  // ---- getAllRecipesFromCollection: the response ----

  /** A collection as the pipeline groups it; `id` is None when the grouped id is null. */
  datatype Collection = Collection(id: Option<string>, title: string, recipes: seq<General.RecipeCard>)

  /** The body sent: the collections and the pagination block. */
  datatype CollectionsPage = CollectionsPage(collections: seq<Collection>, totalCount: Num, currentPage: int)

  /**
   * The response: every collection's recipes carry the user's favourite and
   * bookmark flags; a first collection with a null id means an empty list; and
   * the total count reads `total` off the metadata array itself, so it is
   * always undefined.
   */
  function CollectionsResponse(data: seq<Collection>, page: int, favorites: seq<string>, bookmarks: seq<string>)
    : (r: CollectionsPage)
    ensures r.totalCount.None? && r.currentPage == page
    ensures |data| > 0 && data[0].id.None? ==> r.collections == []
    ensures !(|data| > 0 && data[0].id.None?) ==> |r.collections| == |data|
    ensures forall i :: 0 <= i < |r.collections| ==>
      r.collections[i].id == data[i].id && r.collections[i].title == data[i].title &&
      r.collections[i].recipes == General.MarkFavoritesAndBookmarks(data[i].recipes, favorites, bookmarks)
  {
    var marked := seq(|data|, i requires 0 <= i < |data| =>
      data[i].(recipes := General.MarkFavoritesAndBookmarks(data[i].recipes, favorites, bookmarks)));
    if |data| > 0 && data[0].id.None? then CollectionsPage([], None, page)
    else CollectionsPage(marked, None, page)
  }

  /** A recipe of a returned collection is flagged exactly when its id is in the user's list. */
  lemma FlagsFollowUserLists(data: seq<Collection>, page: int, favorites: seq<string>, bookmarks: seq<string>,
                             i: nat, j: nat)
    requires i < |CollectionsResponse(data, page, favorites, bookmarks).collections|
    requires j < |CollectionsResponse(data, page, favorites, bookmarks).collections[i].recipes|
    ensures var card := CollectionsResponse(data, page, favorites, bookmarks).collections[i].recipes[j];
      card.id == data[i].recipes[j].id &&
      (card.isFavorite <==> card.id in favorites) && (card.isBookmarked <==> card.id in bookmarks)
  {
  }

  // ---- getAllRecipeCollections and getSortedRecipeCollections ----

  /** The pagination block of `getAllRecipeCollections`: a missing or zero total is reported as 0. */
  function AllCollectionsTotal(total: Num): (r: real)
    ensures Truthy(total) ==> r == total.value
    ensures !Truthy(total) ==> r == 0.0
  {
    Or(total, Some(0.0)).value
  }

  /**
   * `getSortedRecipeCollections`: the sort key (featured date by default), the
   * direction and the page size of the route.
   */
  function SortedCollectionsQuery(filterKey: Option<string>, direction: Option<string>, numPerPage: Num)
    : (r: General.SortQuery)
    ensures !StrTruthy(filterKey) ==> r.key == "featured_date"
    ensures StrTruthy(filterKey) ==> r.key == filterKey.value
    ensures r.direction == 1 <==> !StrTruthy(direction) || direction.value == "asc"
    ensures r.direction == 1 || r.direction == -1
    ensures r.pageSize == if Truthy(numPerPage) then numPerPage.value else 25.0
  {
    General.SortedParams(filterKey, direction, numPerPage, "featured_date")
  }
}

=== FILE: errors.dfy ===
/**
 * Error reporting: the status codes of the `GeneralError` classes
 * (utilis/errors.js) and the `globalErrorHandler` decision table
 * (controllers/errorController.js), which turns a thrown value into the
 * response sent, depending on `NODE_ENV`.
 */
module Errors {
  import opened Wrappers
  import opened Js
  import Text

  // ---- utilis/errors.js ----

  /** The subclass a `GeneralError` was built as. */
  datatype ErrorClass = Base | BadRequestClass | NotFoundClass | UnauthorizedClass

  /** A `GeneralError`: its class and the message its constructor stores. */
  datatype GeneralError = GeneralError(kind: ErrorClass, message: string)

  function BadRequest(message: string): (e: GeneralError)
    ensures e.kind == BadRequestClass && e.message == message
  {
    GeneralError(BadRequestClass, message)
  }

  /** `getCode()`: 400, 404 and 403 for the three subclasses, 500 for anything else. */
  function GetCode(e: GeneralError): (r: int)
    ensures r in {400, 403, 404, 500}
    ensures r == 500 <==> e.kind == Base
    ensures e.kind == BadRequestClass <==> r == 400
    ensures e.kind == NotFoundClass <==> r == 404
    ensures e.kind == UnauthorizedClass <==> r == 403
  {
    match e.kind
    case BadRequestClass => 400
    case NotFoundClass => 404
    case UnauthorizedClass => 403
    case Base => 500
  }

  /** The code names the class: two errors share a code exactly when they share a class. */
  lemma CodeIdentifiesClass(a: GeneralError, b: GeneralError)
    ensures GetCode(a) == GetCode(b) <==> a.kind == b.kind
  {
  }

  // ---- controllers/errorController.js ----

  /**
   * The fields of a thrown value the handler reads. `duplicateTitle` is
   * `err.keyValue.title`, `fieldMessages` the messages of `err.errors`, in order.
   */
  datatype ErrObject = ErrObject(
    name: string,
    code: Option<int>,
    statusCode: Option<int>,
    status: Option<string>,
    message: string,
    isOperational: bool,
    path: Option<string>,
    value: Option<string>,
    duplicateTitle: Option<string>,
    fieldMessages: seq<string>,
    stack: string)

  /**
   * `new AppError(message, statusCode)`: an operational error carrying its code.
   * Its status text is whatever `statusOf` gives for the code.
   */
  function AppError(message: string, statusCode: int, statusOf: int -> string): (e: ErrObject)
    ensures e.isOperational && e.statusCode == Some(statusCode) && e.message == message
    ensures e.status == Some(statusOf(statusCode))
    ensures e.name == "Error" && e.code.None?
  {
    ErrObject("Error", None, Some(statusCode), Some(statusOf(statusCode)), message, true, None, None, None, [], "")
  }

  /** A `GeneralError` as thrown: it sets no status code and is not operational. */
  function FromGeneral(e: GeneralError): (r: ErrObject)
    ensures r.message == e.message && r.statusCode.None? && !r.isOperational
  {
    ErrObject("Error", None, None, None, e.message, false, None, None, None, [], "")
  }

  /**
   * A value thrown by the modelled code: a runtime type error, a `GeneralError`,
   * an `AppError`, the rejection of a request to another service, passed on
   * as the HTTP client raised it, or a plain `Error` built from a message.
   */
  datatype Thrown =
    | Crashed(crash: Crash)
    | General(error: GeneralError)
    | App(message: string, statusCode: int)
    | Rejected(message: string)
    | Plain(message: string)

  /** The thrown value as the handler sees it. */
  function ObjectOf(t: Thrown, statusOf: int -> string): (r: ErrObject)
    ensures t.General? ==> r == FromGeneral(t.error)
    ensures t.App? ==> r == AppError(t.message, t.statusCode, statusOf)
    ensures t.Crashed? ==> r.name == "TypeError" && !r.isOperational && r.statusCode.None?
    ensures t.Rejected? ==> r.name == "AxiosError" && r.message == t.message && !r.isOperational && r.statusCode.None?
    ensures t.Plain? ==> r.name == "Error" && r.message == t.message && !r.isOperational && r.statusCode.None?
    ensures r.name == NameOf(t)
  {
    match t
    case Crashed(TypeError(what)) => ErrObject("TypeError", None, None, None, what, false, None, None, None, [], "")
    case General(e) => FromGeneral(e)
    case App(message, code) => AppError(message, code, statusOf)
    case Rejected(message) => ErrObject("AxiosError", None, None, None, message, false, None, None, None, [], "")
    case Plain(message) => ErrObject("Error", None, None, None, message, false, None, None, None, [], "")
  }

  /** The name every thrown value carries, as `ObjectOf` reports it. */
  function NameOf(t: Thrown): string {
    match t
    case Crashed(_) => "TypeError"
    case Rejected(_) => "AxiosError"
    case _ => "Error"
  }

  /**
   * `${e}`, which is `Error.prototype.toString`: the name and the message joined
   * by ": ", or only the name when the message is empty.
   */
  function ErrorText(t: Thrown): (r: string)
    ensures |NameOf(t)| <= |r| && r[..|NameOf(t)|] == NameOf(t)
  {
    var message := match t
      case Crashed(TypeError(what)) => what
      case General(e) => e.message
      case App(m, _) => m
      case Rejected(m) => m
      case Plain(m) => m;
    if message == "" then NameOf(t) else NameOf(t) + ": " + message
  }

  /** The text of a thrown value is the name and message the handler reads from it. */
  lemma ErrorTextIsToString(t: Thrown, statusOf: int -> string)
    ensures var o := ObjectOf(t, statusOf);
      ErrorText(t) == (if o.message == "" then o.name else o.name + ": " + o.message)
  {
  }

  /** What the client receives. */
  datatype Body =
    | DevBody(status: string, message: string, stack: string)
    | ProdBody(status: string, message: string)

  datatype Response = Sent(statusCode: int, body: Body) | NotSent

  const GenericMessage: string := "Something went very wrong!"

  /** `err.statusCode || 500`. */
  function StatusCodeOf(err: ErrObject): (r: int)
    ensures r == 500 || (err.statusCode.Some? && r == err.statusCode.value)
    ensures r != 0
  {
    if err.statusCode.Some? && err.statusCode.value != 0 then err.statusCode.value else 500
  }

  /** `err.status || 'error'`. */
  function StatusOf(err: ErrObject): (r: string)
    ensures r != ""
    ensures err.status.Some? ==> r == OrError(err.status.value)
  {
    if err.status.Some? then OrError(err.status.value) else "error"
  }

  function OrError(status: string): string {
    if status != "" then status else "error"
  }

  /** The defaults the handler writes into the error before anything else. */
  function WithDefaults(err: ErrObject): (r: ErrObject)
    ensures r.statusCode == Some(StatusCodeOf(err)) && r.status == Some(StatusOf(err))
    ensures r.(statusCode := err.statusCode, status := err.status) == err
  {
    err.(statusCode := Some(StatusCodeOf(err)), status := Some(StatusOf(err)))
  }

  /** The database and token errors production mode rewrites, tested in turn on the current error. */
  function Rewrite(err: ErrObject, statusOf: int -> string): ErrObject {
    var e1 := if err.name == "CastError" then
        AppError("Invalid " + Show(err.path) + ": " + Show(err.value), 400, statusOf) else err;
    var e2 := if e1.code == Some(11000) then
        AppError("Duplicate Field Value: \"" + Show(e1.duplicateTitle) + "\". Please input another value! ", 400, statusOf)
      else e1;
    var e3 := if e2.name == "ValidationError" then
        AppError("Invalid Input Data: " + Text.Join(e2.fieldMessages, ". "), 400, statusOf) else e2;
    var e4 := if e3.name == "JsonWebTokenError" then
        AppError("Invalid Token! Please log in again!", 401, statusOf) else e3;
    if e4.name == "TokenExpiredError" then AppError("Your token has expired! Please log in again!", 401, statusOf)
    else e4
  }

  /** `sendErrorProd`: an operational error's own code and message, otherwise a generic 500. */
  function SendProd(err: ErrObject): (r: Response)
    ensures err.isOperational ==> r == Sent(StatusCodeOf(err), ProdBody(StatusOf(err), err.message))
    ensures !err.isOperational ==> r == Sent(500, ProdBody("error", GenericMessage))
  {
    if err.isOperational then Sent(StatusCodeOf(err), ProdBody(StatusOf(err), err.message))
    else Sent(500, ProdBody("error", GenericMessage))
  }

  /**
   * `globalErrorHandler`: the full response in development, the rewritten and
   * filtered response in production, and nothing at all in any other mode.
   */
  function GlobalErrorHandler(err: ErrObject, nodeEnv: Option<string>, statusOf: int -> string): (r: Response)
    ensures nodeEnv == Some("development") ==>
      r == Sent(StatusCodeOf(err), DevBody(StatusOf(err), err.message, err.stack))
    ensures nodeEnv != Some("development") && nodeEnv != Some("production") ==> r == NotSent
    ensures r.Sent? ==> r.statusCode != 0
  {
    var e := WithDefaults(err);
    if nodeEnv == Some("development") then Sent(e.statusCode.value, DevBody(e.status.value, e.message, e.stack))
    else if nodeEnv == Some("production") then SendProd(Rewrite(e, statusOf))
    else NotSent
  }

  /** The names production mode rewrites. */
  predicate Rewritten(err: ErrObject) {
    err.name in {"CastError", "ValidationError", "JsonWebTokenError", "TokenExpiredError"} || err.code == Some(11000)
  }

  /**
   * The production decision table: the first matching rule decides the response,
   * in the order cast error, duplicate key, validation, bad token, expired token.
   */
  lemma ProductionTable(err: ErrObject, statusOf: int -> string)
    ensures var r := GlobalErrorHandler(err, Some("production"), statusOf);
      (err.name == "CastError" ==>
        r == Sent(400, ProdBody(OrError(statusOf(400)), "Invalid " + Show(err.path) + ": " + Show(err.value)))) &&
      (err.name != "CastError" && err.code == Some(11000) ==>
        r == Sent(400, ProdBody(OrError(statusOf(400)),
          "Duplicate Field Value: \"" + Show(err.duplicateTitle) + "\". Please input another value! "))) &&
      (err.name == "ValidationError" && err.code != Some(11000) ==>
        r == Sent(400, ProdBody(OrError(statusOf(400)), "Invalid Input Data: " + Text.Join(err.fieldMessages, ". ")))) &&
      (err.name == "JsonWebTokenError" && err.code != Some(11000) ==>
        r == Sent(401, ProdBody(OrError(statusOf(401)), "Invalid Token! Please log in again!"))) &&
      (err.name == "TokenExpiredError" && err.code != Some(11000) ==>
        r == Sent(401, ProdBody(OrError(statusOf(401)), "Your token has expired! Please log in again!")))
  {
  }

  /**
   * Production never leaks the details of an error it does not trust: a
   * non-operational error that no rule rewrites is reported as a generic 500.
   */
  lemma ProductionHidesInternalErrors(err: ErrObject, statusOf: int -> string)
    requires !err.isOperational && !Rewritten(err)
    ensures GlobalErrorHandler(err, Some("production"), statusOf) == Sent(500, ProdBody("error", GenericMessage))
  {
  }

  /**
   * A rejected request to another service reaches a production client as the
   * generic 500: it is not operational and no rule rewrites it.
   */
  lemma RejectionReportedAs500(message: string, statusOf: int -> string)
    ensures GlobalErrorHandler(ObjectOf(Rejected(message), statusOf), Some("production"), statusOf) ==
      Sent(500, ProdBody("error", GenericMessage))
  {
    ProductionHidesInternalErrors(ObjectOf(Rejected(message), statusOf), statusOf);
  }

  /** An operational error that no rule rewrites keeps its own code (or 500) and message in production. */
  lemma ProductionKeepsOperational(err: ErrObject, statusOf: int -> string)
    requires err.isOperational && !Rewritten(err)
    ensures GlobalErrorHandler(err, Some("production"), statusOf) ==
      Sent(StatusCodeOf(err), ProdBody(StatusOf(err), err.message))
  {
  }

  /**
   * A `BadRequest` reaches the client as a 500 in production: the handler reads
   * `statusCode`, which a `GeneralError` does not set, and never calls `getCode()`.
   */
  lemma BadRequestReportedAs500(message: string, statusOf: int -> string)
    ensures GetCode(BadRequest(message)) == 400
    ensures GlobalErrorHandler(FromGeneral(BadRequest(message)), Some("production"), statusOf) ==
      Sent(500, ProdBody("error", GenericMessage))
  {
  }
}

=== FILE: general.dfy ===
/**
 * The small helpers of utilis/generalFuntions.js, and the sort-parameter defaults
 * the controllers repeat.
 */
module General {
  import opened Wrappers
  import opened Js
  import Seqs
  import opened Models

  /** `Math.ceil` on reals. */
  function Ceil(x: real): (r: int)
    ensures x <= r as real < x + 1.0
  {
    -((-x).Floor)
  }

  /** `r` is a whole number of halves. */
  predicate IsHalfStep(r: real) {
    (r * 2.0).Floor as real == r * 2.0
  }

  /** `roundToNearestHalf`: `Math.ceil(x * 2) / 2`, which rounds UP to a multiple of one half. */
  function RoundToNearestHalf(x: real): (r: real)
    ensures IsHalfStep(r)
    ensures r - 0.5 < x <= r
  {
    var c := Ceil(x * 2.0);
    assert (c as real / 2.0) * 2.0 == c as real;
    c as real / 2.0
  }

  /** No multiple of one half lies between `x` and its rounding: the result is the least one at or above `x`. */
  lemma RoundIsLeast(x: real, h: real)
    requires IsHalfStep(h) && x <= h
    ensures RoundToNearestHalf(x) <= h
  {
    var r := RoundToNearestHalf(x);
    var k := (h * 2.0).Floor;
    var c := (r * 2.0).Floor;
    assert c as real == r * 2.0;
    assert k as real == h * 2.0;
    assert (c - 1) as real < x * 2.0;
    assert c - 1 < k;
  }

  /** Rounding a multiple of one half changes nothing, so rounding twice is rounding once. */
  lemma RoundIdempotent(x: real)
    ensures RoundToNearestHalf(RoundToNearestHalf(x)) == RoundToNearestHalf(x)
  {
    var r := RoundToNearestHalf(x);
    RoundIsLeast(r, r);
  }

  /** Rounding is monotone. */
  lemma RoundMonotone(x: real, y: real)
    requires x <= y
    ensures RoundToNearestHalf(x) <= RoundToNearestHalf(y)
  {
    RoundIsLeast(x, RoundToNearestHalf(y));
  }

  /** The rounding is 0, which JavaScript treats as false, exactly for values in (-0.5, 0]. */
  lemma RoundFalsy(x: real)
    ensures RoundToNearestHalf(x) == 0.0 <==> -0.5 < x <= 0.0
  {
    var r := RoundToNearestHalf(x);
    if -0.5 < x <= 0.0 {
      var c := (r * 2.0).Floor;
      assert c as real == r * 2.0;
      assert -1 < c < 1;
    }
  }

  /** `roundToNearestHalf` on a number that may be NaN or `undefined` (both give NaN). */
  function RoundNum(n: Num): (r: Num)
    ensures r.Some? <==> n.Some?
    ensures r.Some? ==> IsHalfStep(r.value) && r.value - 0.5 < n.value <= r.value
  {
    if n.Some? then Some(RoundToNearestHalf(n.value)) else None
  }

  /** The sort fields `getSortingFilters` can choose. */
  datatype SortField = AverageRating | CookTime | PrepTime | PublishDate

  function FieldName(f: SortField): string {
    match f
    case AverageRating => "average_rating"
    case CookTime => "cook_time"
    case PrepTime => "prep_time"
    case PublishDate => "publish_date"
  }

  /** A sort on exactly one field, ascending (1) or descending (-1). */
  datatype Sort = Sort(field: SortField, direction: int)

  /** `sortOrder === "asc" ? 1 : -1`. */
  function Direction(sortOrder: string): (r: int)
    ensures r == 1 <==> sortOrder == "asc"
    ensures r == 1 || r == -1
  {
    if sortOrder == "asc" then 1 else -1
  }

  /** `getSortingFilters`: three named filters, and publication date for anything else. */
  function SortingFilters(filter: string, sortOrder: string): (r: Sort)
    ensures r.direction == Direction(sortOrder)
    ensures r.field == AverageRating <==> filter == "Rating"
    ensures r.field == CookTime <==> filter == "Cook Time"
    ensures r.field == PrepTime <==> filter == "Prep Time"
    ensures r.field == PublishDate <==> filter !in {"Rating", "Cook Time", "Prep Time"}
  {
    var field :=
      if filter == "Rating" then AverageRating
      else if filter == "Cook Time" then CookTime
      else if filter == "Prep Time" then PrepTime
      else PublishDate;
    Sort(field, Direction(sortOrder))
  }

  /**
   * The route parameters of the sorted listings (`getSortedMealPlans`,
   * `getSortedRecipeCollections`, `getSortedIngredients`): a missing direction is
   * "asc", a missing key is the listing's default, and a missing, zero or
   * non-numeric page size is 25.
   */
  datatype SortQuery = SortQuery(key: string, direction: int, pageSize: real)

  function SortedParams(filterKey: Option<string>, direction: Option<string>, numPerPage: Num, defaultKey: string)
    : (r: SortQuery)
    ensures r.direction == 1 <==> !StrTruthy(direction) || direction.value == "asc"
    ensures r.direction == 1 || r.direction == -1
    ensures StrTruthy(filterKey) ==> r.key == filterKey.value
    ensures !StrTruthy(filterKey) ==> r.key == defaultKey
    ensures Truthy(numPerPage) ==> r.pageSize == numPerPage.value
    ensures !Truthy(numPerPage) ==> r.pageSize == 25.0
  {
    SortQuery(StrOr(filterKey, defaultKey), Direction(StrOr(direction, "asc")), Or(numPerPage, Some(25.0)).value)
  }

  /** A recipe in a listing, with the two per-user flags. */
  datatype RecipeCard = RecipeCard(id: string, title: string, isFavorite: bool, isBookmarked: bool)

  /** `updateFavoriteOrBookmarkProperty`: sets both flags from the user's two lists. */
  function MarkFavoritesAndBookmarks(recipes: seq<RecipeCard>, favorites: seq<string>, bookmarks: seq<string>)
    : (r: seq<RecipeCard>)
    ensures |r| == |recipes|
    ensures forall i :: 0 <= i < |r| ==>
      r[i].id == recipes[i].id && r[i].title == recipes[i].title &&
      (r[i].isFavorite <==> recipes[i].id in favorites) &&
      (r[i].isBookmarked <==> recipes[i].id in bookmarks)
  {
    seq(|recipes|, i requires 0 <= i < |recipes| =>
      recipes[i].(isFavorite := recipes[i].id in favorites, isBookmarked := recipes[i].id in bookmarks))
  }

  /** Marking is idempotent: the flags depend only on the ids and the two lists. */
  lemma MarkIdempotent(recipes: seq<RecipeCard>, favorites: seq<string>, bookmarks: seq<string>)
    ensures var once := MarkFavoritesAndBookmarks(recipes, favorites, bookmarks);
      MarkFavoritesAndBookmarks(once, favorites, bookmarks) == once
  {
  }

  /** Every meal title of every slot of every plan, in order. */
  function AllMealTitles(plans: seq<MealPlanDoc>): (r: seq<string>)
    ensures forall t :: t in r <==> exists p, s, m :: p in plans && s in p.planData && m in s.meals && m.title == t
  {
    if |plans| == 0 then []
    else SlotTitles(plans[0].planData) + AllMealTitles(plans[1..])
  }

  function SlotTitles(slots: seq<PlanSlot>): (r: seq<string>)
    ensures forall t :: t in r <==> exists s, m :: s in slots && m in s.meals && m.title == t
  {
    if |slots| == 0 then []
    else MealTitles(slots[0].meals) + SlotTitles(slots[1..])
  }

  function MealTitles(meals: seq<PlannedMeal>): (r: seq<string>)
    ensures |r| == |meals|
    ensures forall i :: 0 <= i < |meals| ==> r[i] == meals[i].title
  {
    seq(|meals|, i requires 0 <= i < |meals| => meals[i].title)
  }

  /**
   * `getRecipeTitlesFromMealPlans`: the distinct meal titles of the plans, in order
   * of first occurrence, each the title of some meal.
   */
  function RecipeTitlesFromMealPlans(plans: seq<MealPlanDoc>): (r: seq<string>)
    ensures Seqs.NoDup(r)
    ensures forall t :: t in r <==> exists p, s, m :: p in plans && s in p.planData && m in s.meals && m.title == t
    ensures forall t :: t in r ==> t in AllMealTitles(plans)
    ensures forall i, j :: 0 <= i < j < |r| ==>
      Seqs.FirstIndex(AllMealTitles(plans), r[i]) < Seqs.FirstIndex(AllMealTitles(plans), r[j])
  {
    var all := AllMealTitles(plans);
    Seqs.DistinctMembers(all);
    Seqs.DistinctOrder(all);
    Seqs.Distinct(all)
  }

  /** `getIngredientIds`. */
  function IngredientIds(ingredients: seq<IngredientDoc>): (r: seq<string>)
    ensures |r| == |ingredients|
    ensures forall i :: 0 <= i < |r| ==> r[i] == ingredients[i].id
  {
    seq(|ingredients|, i requires 0 <= i < |ingredients| => ingredients[i].id)
  }
}

=== FILE: ingredient_conversion.dfy ===
/**
 * `convertIngredientsToBaseUnit` (utilis/ingredientConversion.js): the recipe
 * view's metric form of a recipe's ingredient list. Each line is converted to the
 * fundamental unit from the unit the recipe names, back to the ingredient's
 * imperial base unit, and then scaled by the ingredient's metric/imperial base
 * ratio.
 */
module IngredientConversion {
  import opened Wrappers
  import opened Js
  import Text
  import Units
  import opened Models

  /** A converted line; the three shapes the source pushes. */
  datatype ViewLine =
    | Whole(foundTitle: Option<string>, notes: string, qty: Num)              // unit "Item(s)"
    | Metric(title: string, notes: string, qty: Num, measurement: Option<string>)
    | NoQty(title: string, notes: string)                                      // qty and unit null

  /** `type && type.toLowerCase() === 'whole'`. */
  predicate IsWhole(ri: RecipeIngredient) {
    StrTruthy(ri.kind) && Text.Lower(ri.kind.value) == "whole"
  }

  /**
   * `${measurement?.charAt(0)?.toUpperCase() + measurement?.slice(1)}(s)`: a
   * missing measurement adds two `undefined`s, which print as "NaN".
   */
  function UnitFormat(measurement: Option<string>): (r: string)
    ensures measurement.None? ==> r == "NaN(s)"
    ensures measurement.Some? ==> |r| == |measurement.value| + 3 && Text.Lower(r) == Text.Lower(measurement.value + "(s)")
  {
    if measurement.None? then "NaN(s)"
    else
      Text.CapitalizeIgnoringCase(measurement.value);
      assert Text.Lower(Text.Capitalize(measurement.value) + "(s)") == Text.Lower(Text.Capitalize(measurement.value)) + Text.Lower("(s)");
      assert Text.Lower(measurement.value + "(s)") == Text.Lower(measurement.value) + Text.Lower("(s)");
      Text.Capitalize(measurement.value) + "(s)"
  }

  /**
   * `convertFundamentalUnitToTargetUnit(mt, f.unit, f.value, imperial_base_unit).value`
   * where `f` is the result of the first conversion. A rejected first conversion
   * is a message string, so its unit and value are `undefined`; an absent target
   * is `undefined` too. Reading `.value` of an absent result, or lower-casing an
   * absent target while searching a table, throws.
   */
  function BaseValue(mt: string, f: Units.Conversion, target: Option<string>): (r: Result<Num, Crash>)
    ensures f.Converted? && target.Some? && Units.FromFundamental(mt, f.unit, f.value, target.value).Converted? ==>
      r == Success(Units.FromFundamental(mt, f.unit, f.value, target.value).value)
    ensures f.Converted? && target.Some? && Units.FromFundamental(mt, f.unit, f.value, target.value).NoResult? ==>
      r.Failure?
    ensures f.Rejected? && target.Some? ==> (r.Failure? <==> Units.CheckIfValidUnit(mt, target.value).Success?)
    ensures f.Converted? && target.None? ==>
      (r.Failure? <==> Units.ParseType(mt) in {Some(Units.Volume), Some(Units.Weight)})
    ensures r.Success? && !(f.Converted? && target.Some?) ==> r.value.None?
  {
    match f
    case NoResult => Failure(TypeError("unit of undefined"))
    case Rejected(_) =>
      if target.None? then Success(None)
      else if Units.CheckIfValidUnit(mt, target.value).Success? then Failure(TypeError("value of undefined"))
      else Success(None)
    case Converted(unit, value) =>
      if target.None? then
        match Units.ParseType(mt)
        case Some(Volume) => Failure(TypeError("toLowerCase of undefined"))
        case Some(Weight) => Failure(TypeError("toLowerCase of undefined"))
        case _ => Success(None)
      else
        match Units.FromFundamental(mt, unit, value, target.value)
        case Converted(_, v) => Success(v)
        case Rejected(_) => Success(None)
        case NoResult => Failure(TypeError("value of undefined"))
  }

  function Lookup(byId: map<string, IngredientDoc>, id: string): Option<IngredientDoc> {
    if id in byId then Some(byId[id]) else None
  }

  /** One line of `convertIngredientsToBaseUnit`. */
  function ConvertOne(ri: RecipeIngredient, byId: map<string, IngredientDoc>): (r: Result<ViewLine, Crash>)
    ensures IsWhole(ri) ==> r == Success(Whole(
      if ri.ingredientId in byId then Some(byId[ri.ingredientId].title) else None, StrOr(ri.notes, ""), ri.qty))
    ensures !IsWhole(ri) && ri.ingredientId !in byId ==> r.Failure?
    ensures !IsWhole(ri) && !Truthy(ri.qty) && ri.ingredientId in byId ==>
      r == Success(NoQty(byId[ri.ingredientId].title, StrOr(ri.notes, "")))
    ensures !IsWhole(ri) && Truthy(ri.qty) && ri.ingredientId in byId && byId[ri.ingredientId].measurementType.None? ==>
      r.Failure?
    ensures r.Success? && r.value.Metric? ==>
      ri.ingredientId in byId && r.value.title == byId[ri.ingredientId].title &&
      r.value.measurement == byId[ri.ingredientId].metricBaseUnit && r.value.notes == StrOr(ri.notes, "")
  {
    var doc := Lookup(byId, ri.ingredientId);
    var notes := StrOr(ri.notes, "");
    if IsWhole(ri) then
      Success(Whole(if doc.Some? then Some(doc.value.title) else None, notes, ri.qty))
    else if doc.None? then
      Failure(TypeError("property of null"))
    else if !Truthy(ri.qty) then
      Success(NoQty(doc.value.title, notes))
    else if doc.value.measurementType.None? then
      Failure(TypeError("toLowerCase of undefined"))
    else
      var mt := doc.value.measurementType.value;
      var f := Units.ToFundamental(mt, UnitFormat(ri.measurement), ri.qty);
      var base :- BaseValue(mt, f, doc.value.imperialBaseUnit);
      Success(Metric(doc.value.title, notes, Mul(Div(base, doc.value.imperialBaseQty), doc.value.metricBaseQty),
        doc.value.metricBaseUnit))
  }

  /** `convertIngredientsToBaseUnit`: one line per ingredient, in order; the first throw ends it. */
  function ConvertAll(ingredients: seq<RecipeIngredient>, byId: map<string, IngredientDoc>)
    : (r: Result<seq<ViewLine>, Crash>)
    ensures r.Success? <==> forall i :: 0 <= i < |ingredients| ==> ConvertOne(ingredients[i], byId).Success?
    ensures r.Success? ==> |r.value| == |ingredients|
    ensures r.Success? ==> forall i :: 0 <= i < |ingredients| ==> r.value[i] == ConvertOne(ingredients[i], byId).value
  {
    if |ingredients| == 0 then Success([])
    else
      var p := ingredients[..|ingredients| - 1];
      var rest :- ConvertAll(p, byId);
      var line :- ConvertOne(ingredients[|ingredients| - 1], byId);
      Success(rest + [line])
  }

  /**
   * When the recipe's unit resolves to the same table entry as the ingredient's
   * imperial base unit, the conversion round-trips exactly and the shown amount is
   * the recipe amount over the imperial base amount times the metric base amount.
   */
  lemma SameEntryScales(ri: RecipeIngredient, byId: map<string, IngredientDoc>)
    requires !IsWhole(ri) && Truthy(ri.qty) && ri.ingredientId in byId
    requires var d := byId[ri.ingredientId];
      d.measurementType.Some? && d.imperialBaseUnit.Some? &&
      Units.CheckIfValidUnit(d.measurementType.value, UnitFormat(ri.measurement)).Success? &&
      Units.CheckIfValidUnit(d.measurementType.value, d.imperialBaseUnit.value) ==
        Units.CheckIfValidUnit(d.measurementType.value, UnitFormat(ri.measurement))
    ensures var d := byId[ri.ingredientId];
      ConvertOne(ri, byId) ==
        Success(Metric(d.title, StrOr(ri.notes, ""), Mul(Div(ri.qty, d.imperialBaseQty), d.metricBaseQty), d.metricBaseUnit))
  {
    var d := byId[ri.ingredientId];
    var mt := d.measurementType.value;
    var u := UnitFormat(ri.measurement);
    var t := d.imperialBaseUnit.value;
    var found := Units.CheckIfValidUnit(mt, u).value;
    var f := Units.ToFundamental(mt, u, ri.qty);
    Units.AmountRoundTrip(Units.ReferenceOf(found.0), found.1.value, ri.qty.value);
    Units.FundamentalNotRegistered(mt);
    assert f.unit != t;
    assert BaseValue(mt, f, d.imperialBaseUnit) == Success(ri.qty);
  }

  /**
   * A count ingredient that is not marked whole never converts: its unit lookup
   * always fails, so the line shows no number, whatever its base unit.
   */
  lemma CountShowsNoNumber(ri: RecipeIngredient, byId: map<string, IngredientDoc>)
    requires !IsWhole(ri) && Truthy(ri.qty) && ri.ingredientId in byId
    requires byId[ri.ingredientId].measurementType.Some?
    requires Units.ParseType(byId[ri.ingredientId].measurementType.value) == Some(Units.Count)
    ensures ConvertOne(ri, byId).Success? && ConvertOne(ri, byId).value.Metric?
    ensures ConvertOne(ri, byId).value.qty.None?
  {
  }

  /**
   * A recipe unit that no table entry answers to throws when the ingredient has a
   * registered imperial base unit: the rejected lookup leaves no unit to convert from.
   */
  lemma UnknownUnitThrows(ri: RecipeIngredient, byId: map<string, IngredientDoc>)
    requires !IsWhole(ri) && Truthy(ri.qty) && ri.ingredientId in byId
    requires var d := byId[ri.ingredientId];
      d.measurementType.Some? && d.imperialBaseUnit.Some? &&
      Units.CheckIfValidUnit(d.measurementType.value, UnitFormat(ri.measurement)).Failure? &&
      Units.CheckIfValidUnit(d.measurementType.value, d.imperialBaseUnit.value).Success?
    ensures ConvertOne(ri, byId).Failure?
  {
  }
}

=== FILE: ingredients.dfy ===
/**
 * The pure rules of controllers/ingredientController.js: the field mapping of
 * `migrateIngredients` and the sort of `getSortedIngredients`.
 */
module Ingredients {
  import opened Wrappers
  import opened Js
  import Text
  import General
  import Units
  import Recipes

  /** An ingredient of the legacy export. */
  datatype LegacyIngredient = LegacyIngredient(id: Recipes.LegacyId, title: string, category: Option<string>)

  /** A migrated ingredient document, before the database assigns its id. */
  datatype MigratedIngredient = MigratedIngredient(
    title: string,
    oldId: Recipes.LegacyId,
    category: Option<string>,
    measurementType: string,
    imperialBaseQty: real,
    imperialBaseUnit: string,
    imperialShoppingQty: real,
    imperialShoppingUnit: string,
    metricBaseQty: real,
    metricBaseUnit: string,
    metricShoppingQty: real,
    metricShoppingUnit: string,
    tags: seq<string>)

  /**
   * One ingredient: produce is counted in single items; everything else is
   * weighed, 8 ounces imperial and 227 grams metric.
   */
  function MigrateIngredient(item: LegacyIngredient): (r: MigratedIngredient)
    ensures r.title == item.title && r.oldId == item.id && r.category == item.category && r.tags == []
    ensures item.category == Some("produce") ==>
      (r.measurementType == "count" && r.imperialBaseQty == 1.0 && r.imperialBaseUnit == "item(s)" &&
       r.metricBaseQty == 1.0 && r.metricBaseUnit == "item(s)")
    ensures item.category != Some("produce") ==>
      (r.measurementType == "weight" && r.imperialBaseQty == 8.0 && r.imperialBaseUnit == "ounce(s)" &&
       r.metricBaseQty == 227.0 && r.metricBaseUnit == "gram(s)")
    ensures r.imperialShoppingQty == r.imperialBaseQty && r.imperialShoppingUnit == r.imperialBaseUnit
    ensures r.metricShoppingQty == r.metricBaseQty && r.metricShoppingUnit == r.metricBaseUnit
  {
    var produce := item.category == Some("produce");
    var iq := if produce then 1.0 else 8.0;
    var iu := if produce then "item(s)" else "ounce(s)";
    var mq := if produce then 1.0 else 227.0;
    var mu := if produce then "item(s)" else "gram(s)";
    MigratedIngredient(item.title, item.id, item.category, if produce then "count" else "weight",
      iq, iu, iq, iu, mq, mu, mq, mu, [])
  }

  /** `migrateIngredients`: one document per legacy ingredient, in order. */
  function MigrateIngredients(items: seq<LegacyIngredient>): (r: seq<MigratedIngredient>)
    ensures |r| == |items|
    ensures forall i :: 0 <= i < |items| ==> r[i] == MigrateIngredient(items[i])
  {
    seq(|items|, i requires 0 <= i < |items| => MigrateIngredient(items[i]))
  }

  /**
   * The schema's Number cast of `old_id`: a number is kept; a text is read as a
   * number by `textToNumber`, which gives nothing for a text that is not one.
   */
  function StoredOldId(id: Recipes.LegacyId, textToNumber: string -> Num): (r: Num)
    ensures id.NumberId? ==> r == Some(id.n)
    ensures id.TextId? ==> r == textToNumber(id.t)
  {
    match id
    case NumberId(n) => Some(n)
    case TextId(t) => textToNumber(t)
  }

  /**
   * The documents as the recipe migration later finds them: each inserted
   * document, given its database id, holds its legacy id cast to a number.
   */
  function Inserted(docs: seq<MigratedIngredient>, objectIds: seq<string>, textToNumber: string -> Num)
    : (r: seq<Recipes.IngredientRef>)
    requires |objectIds| == |docs|
    ensures |r| == |docs|
    ensures forall i :: 0 <= i < |docs| ==>
      r[i] == Recipes.IngredientRef(objectIds[i], StoredOldId(docs[i].oldId, textToNumber))
  {
    seq(|docs|, i requires 0 <= i < |docs| => Recipes.IngredientRef(objectIds[i], StoredOldId(docs[i].oldId, textToNumber)))
  }

  /**
   * After the migration, a legacy ingredient id exported as a number is found
   * again by the recipe migration's strict `old_id` lookup, and so is one exported
   * as a numeric text, but only from a recipe line that carries the number. No
   * line carrying a text id ever finds an ingredient.
   */
  lemma LegacyIdsResolve(items: seq<LegacyIngredient>, objectIds: seq<string>, textToNumber: string -> Num, k: nat)
    requires |objectIds| == |items| && k < |items|
    ensures var refs := Inserted(MigrateIngredients(items), objectIds, textToNumber);
      (items[k].id.NumberId? ==> Recipes.FindByOldId(refs, items[k].id).Some?) &&
      (items[k].id.TextId? && textToNumber(items[k].id.t).Some? ==>
        Recipes.FindByOldId(refs, Recipes.NumberId(textToNumber(items[k].id.t).value)).Some?) &&
      (items[k].id.TextId? ==> Recipes.FindByOldId(refs, items[k].id).None?)
  {
    var refs := Inserted(MigrateIngredients(items), objectIds, textToNumber);
    assert refs[k] in refs;
  }

  /**
   * The metric unit given to weighed ingredients is not in the weight table: no
   * weight unit name contains "gram(s)", so converting to it finds no unit.
   */
  lemma MigratedGramsUnregistered()
    ensures Units.CheckIfValidUnit("weight", "gram(s)") == Failure(Units.InvalidUnit)
  {
    assert Text.Lower("weight") == "weight";
    var u := "gram(s)";
    assert Text.LowerChar(u[0]) == 'g';
    Units.NoMatchFirstWeight(u, 'g');
    Units.NoMatchNextWeight(u, 'g');
    assert Units.FindUnit(Units.WeightUnits, u).None?;
  }

  /**
   * `getSortedIngredients`: the sort key (creation date by default) and the
   * direction as in the other sorted listings. The page size, unlike theirs, is
   * the route text itself, never converted to a number; the default 25 (None
   * here) applies only when that text is empty.
   */
  datatype IngredientsQuery = IngredientsQuery(key: string, direction: int, pageText: Option<string>)

  function SortedIngredientsQuery(filterKey: Option<string>, direction: Option<string>, numPerPage: Option<string>)
    : (r: IngredientsQuery)
    ensures !StrTruthy(filterKey) ==> r.key == "created_at"
    ensures StrTruthy(filterKey) ==> r.key == filterKey.value
    ensures r.direction == 1 <==> !StrTruthy(direction) || direction.value == "asc"
    ensures r.direction == 1 || r.direction == -1
    ensures r.pageText.Some? <==> StrTruthy(numPerPage)
    ensures r.pageText.Some? ==> r.pageText == numPerPage
  {
    var q := General.SortedParams(filterKey, direction, None, "created_at");
    IngredientsQuery(q.key, q.direction, if StrTruthy(numPerPage) then numPerPage else None)
  }
}

=== FILE: js.dfy ===
/**
 * The few JavaScript value rules the source leans on, stated over exact reals.
 *
 * A `Num` is a JavaScript number that may also be `undefined` or `NaN`; both are
 * `None`. Arithmetic on `None` gives `None` (NaN absorbs), and a division by
 * zero gives `None` as well (the source would produce NaN or an infinity).
 */
module Js {
  import opened Wrappers

  type Num = Option<real>

  /** JavaScript truthiness of a number: defined, not NaN, not zero. */
  predicate Truthy(n: Num) {
    n.Some? && n.value != 0.0
  }

  /** `n || fallback`. */
  function Or(n: Num, fallback: Num): Num {
    if Truthy(n) then n else fallback
  }

  /** `a + b`, with NaN absorbing. */
  function Add(a: Num, b: Num): Num {
    if a.Some? && b.Some? then Some(a.value + b.value) else None
  }

  /** `a * b`, with NaN absorbing. */
  function Mul(a: Num, b: Num): Num {
    if a.Some? && b.Some? then Some(a.value * b.value) else None
  }

  /** `a / b`; a zero divisor yields no finite number. */
  function Div(a: Num, b: Num): (r: Num)
    ensures r.Some? <==> a.Some? && b.Some? && b.value != 0.0
    ensures r.Some? ==> r.value * b.value == a.value
  {
    if a.Some? && b.Some? && b.value != 0.0 then Some(a.value / b.value) else None
  }

  /** `a > 0` for a possibly-undefined number (`undefined > 0` is false). */
  predicate Positive(n: Num) {
    n.Some? && n.value > 0.0
  }

  /** JavaScript truthiness of a possibly-undefined string. */
  predicate StrTruthy(s: Option<string>) {
    s.Some? && s.value != ""
  }

  /** `${s}` for a possibly-undefined string. */
  function Show(s: Option<string>): string {
    match s
    case Some(v) => v
    case None => "undefined"
  }

  /** `s || fallback` for strings. */
  function StrOr(s: Option<string>, fallback: string): string {
    if StrTruthy(s) then s.value else fallback
  }

  /** `${n}` for a possibly-undefined number, given how defined numbers are printed. */
  function ShowNum(n: Num, numberText: real -> string): string {
    match n
    case Some(v) => numberText(v)
    case None => "undefined"
  }

  /**
   * An exception the source would throw at run time (reading a property of
   * `undefined` or `null`, calling a method on it); `what` names the access.
   */
  datatype Crash = TypeError(what: string)

  /** Addition is commutative, so merged totals do not depend on operand order. */
  lemma AddCommutes(a: Num, b: Num)
    ensures Add(a, b) == Add(b, a)
  {
  }

  lemma AddAssociates(a: Num, b: Num, c: Num)
    ensures Add(Add(a, b), c) == Add(a, Add(b, c))
  {
  }

  lemma AddZero(a: Num)
    ensures Add(Some(0.0), a) == a
  {
  }
}

=== FILE: keyed_fold.dfy ===
/**
 * The "find an existing entry by key, else push" reduction the source writes twice
 * with `Array.prototype.reduce` and `findIndex`: once to merge repeated recipes of a
 * meal plan, once to merge repeated ingredients of a shopping list.
 *
 * `Fold(xs, key, merge)` walks `xs` left to right; an element whose key is already
 * present is merged into the FIRST entry with that key, any other element is
 * appended.
 */
module KeyedFold {
  import opened Wrappers
  import Seqs

  /** The keys of `xs`, in order. */
  function Keys<T, K>(xs: seq<T>, key: T -> K): (r: seq<K>)
    ensures |r| == |xs|
    ensures forall i :: 0 <= i < |xs| ==> r[i] == key(xs[i])
  {
    if |xs| == 0 then [] else Keys(xs[..|xs| - 1], key) + [key(xs[|xs| - 1])]
  }

  /** `findIndex` by key. */
  function Find<T, K(==)>(acc: seq<T>, key: T -> K, k: K): (r: Option<nat>)
    ensures r.Some? ==> r.value < |acc| && key(acc[r.value]) == k
    ensures r.None? <==> k !in Keys(acc, key)
  {
    if |acc| == 0 then None
    else if key(acc[0]) == k then Some(0)
    else
      match Find(acc[1..], key, k)
      case Some(i) => Some(i + 1)
      case None =>
        assert Keys(acc, key) == [key(acc[0])] + Keys(acc[1..], key);
        None
  }

  /** One step of the reduction. */
  function Step<T, K(==)>(acc: seq<T>, x: T, key: T -> K, merge: (T, T) -> T): seq<T> {
    match Find(acc, key, key(x))
    case Some(i) => acc[i := merge(acc[i], x)]
    case None => acc + [x]
  }

  /** The whole reduction, starting from `[]`. */
  function Fold<T, K(==)>(xs: seq<T>, key: T -> K, merge: (T, T) -> T): seq<T> {
    if |xs| == 0 then [] else Step(Fold(xs[..|xs| - 1], key, merge), xs[|xs| - 1], key, merge)
  }

  /**
   * When merging keeps the key of the entry merged into, the keys of the result are
   * the distinct keys of the input in order of first occurrence: no key repeats,
   * no key is lost, and every entry sits where its key first appeared.
   */
  lemma {:induction false} FoldKeys<T, K>(xs: seq<T>, key: T -> K, merge: (T, T) -> T)
    requires forall a, b :: key(merge(a, b)) == key(a)
    ensures Keys(Fold(xs, key, merge), key) == Seqs.Distinct(Keys(xs, key))
  {
    if |xs| > 0 {
      var p := xs[..|xs| - 1];
      var x := xs[|xs| - 1];
      FoldKeys(p, key, merge);
      var acc := Fold(p, key, merge);
      var ks := Keys(xs, key);
      assert ks[..|ks| - 1] == Keys(p, key);
      assert ks[|ks| - 1] == key(x);
      assert Seqs.Distinct(ks) ==
        if key(x) in Seqs.Distinct(Keys(p, key)) then Seqs.Distinct(Keys(p, key))
        else Seqs.Distinct(Keys(p, key)) + [key(x)];
      assert Fold(xs, key, merge) == Step(acc, x, key, merge);
      match Find(acc, key, key(x))
      case Some(i) =>
        KeysUpdate(acc, i, merge(acc[i], x), key);
      case None =>
        assert Keys(acc + [x], key) == Keys(acc, key) + [key(x)];
    }
  }

  /** Replacing an entry by one with the same key leaves the keys alone. */
  lemma KeysUpdate<T, K>(acc: seq<T>, i: nat, v: T, key: T -> K)
    requires i < |acc| && key(v) == key(acc[i])
    ensures Keys(acc[i := v], key) == Keys(acc, key)
  {
    var a, b := Keys(acc[i := v], key), Keys(acc, key);
    assert |a| == |b|;
    forall j | 0 <= j < |a|
      ensures a[j] == b[j]
    {
    }
  }

  /** The elements of `xs` whose key is `k`, in order. */
  function Group<T, K(==)>(xs: seq<T>, key: T -> K, k: K): (r: seq<T>)
    ensures |r| == 0 <==> k !in Keys(xs, key)
  {
    if |xs| == 0 then []
    else
      var g := Group(xs[..|xs| - 1], key, k);
      assert Keys(xs, key) == Keys(xs[..|xs| - 1], key) + [key(xs[|xs| - 1])];
      if key(xs[|xs| - 1]) == k then g + [xs[|xs| - 1]] else g
  }

  /** The measures of a non-empty group combined left to right. */
  function Total<T, V>(ys: seq<T>, m: T -> V, add: (V, V) -> V): V
    requires |ys| > 0
  {
    if |ys| == 1 then m(ys[0]) else add(Total(ys[..|ys| - 1], m, add), m(ys[|ys| - 1]))
  }

  /**
   * When merging adds measures (`m(merge(a, b)) == add(m(a), m(b))`), every entry of
   * the result carries the combined measure of all inputs that share its key.
   */
  lemma {:induction false} FoldTotals<T, K, V>(
    xs: seq<T>, key: T -> K, merge: (T, T) -> T, m: T -> V, add: (V, V) -> V, i: nat)
    requires forall a, b :: key(merge(a, b)) == key(a)
    requires forall a, b :: m(merge(a, b)) == add(m(a), m(b))
    requires i < |Fold(xs, key, merge)|
    ensures |Group(xs, key, key(Fold(xs, key, merge)[i]))| > 0
    ensures m(Fold(xs, key, merge)[i]) == Total(Group(xs, key, key(Fold(xs, key, merge)[i])), m, add)
  {
    var r := Fold(xs, key, merge);
    var p := xs[..|xs| - 1];
    var x := xs[|xs| - 1];
    var acc := Fold(p, key, merge);
    FoldKeys(p, key, merge);
    FoldKeys(xs, key, merge);
    assert r == Step(acc, x, key, merge);
    assert Keys(r, key)[i] == key(r[i]);
    assert key(r[i]) in Seqs.Distinct(Keys(xs, key));
    var k := key(r[i]);
    GroupStep(xs, key, k);
    match Find(acc, key, key(x))
    case Some(j) =>
      FoldTotals(p, key, merge, m, add, i);
      if j == i {
        assert r[i] == merge(acc[i], x) && k == key(x);
        TotalStep(Group(p, key, k), x, m, add);
      } else {
        assert r[i] == acc[i];
        assert key(acc[i]) != key(x) by {
          assert Seqs.NoDup(Keys(acc, key));
          assert Keys(acc, key)[i] == key(acc[i]) && Keys(acc, key)[j] == key(acc[j]);
        }
      }
    case None =>
      if i < |acc| {
        FoldTotals(p, key, merge, m, add, i);
        assert r[i] == acc[i];
        assert Keys(acc, key)[i] == key(acc[i]);
      } else {
        assert r[i] == x;
        assert Group(p, key, key(x)) == [];
        assert Group(xs, key, key(x)) == [x];
      }
  }

  /** Adding one element to the input extends the group of its key and no other. */
  lemma GroupStep<T, K>(xs: seq<T>, key: T -> K, k: K)
    requires |xs| > 0
    ensures Group(xs, key, k) ==
      if key(xs[|xs| - 1]) == k then Group(xs[..|xs| - 1], key, k) + [xs[|xs| - 1]] else Group(xs[..|xs| - 1], key, k)
  {
  }

  /** The total of a group grown by one element. */
  lemma TotalStep<T, V>(g: seq<T>, x: T, m: T -> V, add: (V, V) -> V)
    requires |g| > 0
    ensures Total(g + [x], m, add) == add(Total(g, m, add), m(x))
  {
    assert (g + [x])[..|g|] == g;
  }

  /** The measures of `xs` combined left to right, starting from `zero`. */
  function Sum<T, V>(xs: seq<T>, m: T -> V, add: (V, V) -> V, zero: V): V {
    if |xs| == 0 then zero else add(Sum(xs[..|xs| - 1], m, add, zero), m(xs[|xs| - 1]))
  }

  /** `add` is commutative and associative. */
  ghost predicate Commutative<V(!new)>(add: (V, V) -> V) {
    (forall a, b :: add(a, b) == add(b, a)) &&
    (forall a, b, c {:trigger add(add(a, b), c)} :: add(add(a, b), c) == add(a, add(b, c)))
  }

  /**
   * When merging adds measures with a commutative and associative `add`, the
   * reduction loses no measure: the grand total of the result equals that of
   * the input.
   */
  lemma {:induction false} FoldSum<T, K, V(!new)>(
    xs: seq<T>, key: T -> K, merge: (T, T) -> T, m: T -> V, add: (V, V) -> V, zero: V)
    requires forall a, b :: key(merge(a, b)) == key(a)
    requires forall a, b :: m(merge(a, b)) == add(m(a), m(b))
    requires Commutative(add)
    ensures Sum(Fold(xs, key, merge), m, add, zero) == Sum(xs, m, add, zero)
  {
    if |xs| > 0 {
      var p := xs[..|xs| - 1];
      var x := xs[|xs| - 1];
      FoldSum(p, key, merge, m, add, zero);
      var acc := Fold(p, key, merge);
      match Find(acc, key, key(x))
      case Some(i) =>
        SumUpdate(acc, i, merge(acc[i], x), m(x), m, add, zero);
      case None =>
        assert (acc + [x])[..|acc|] == acc;
    }
  }

  /** Replacing one entry by one whose measure is larger by `d` adds `d` to the sum. */
  lemma {:induction false} SumUpdate<T, V(!new)>(
    acc: seq<T>, i: nat, y: T, d: V, m: T -> V, add: (V, V) -> V, zero: V)
    requires i < |acc| && m(y) == add(m(acc[i]), d)
    requires Commutative(add)
    ensures Sum(acc[i := y], m, add, zero) == add(Sum(acc, m, add, zero), d)
  {
    var n := |acc| - 1;
    var p := acc[..n];
    if i == n {
      assert acc[i := y][..n] == p;
      assert add(add(Sum(p, m, add, zero), m(acc[n])), d) == add(Sum(p, m, add, zero), add(m(acc[n]), d));
    } else {
      SumUpdate(p, i, y, d, m, add, zero);
      assert acc[i := y][..n] == p[i := y];
      var s := Sum(p, m, add, zero);
      calc {
        add(add(s, d), m(acc[n]));
        add(s, add(d, m(acc[n])));
        { assert add(d, m(acc[n])) == add(m(acc[n]), d); }
        add(s, add(m(acc[n]), d));
        add(add(s, m(acc[n])), d);
      }
    }
  }
}

=== FILE: meal_plan_recipes.dfy ===
/**
 * From a meal plan to the ingredient lines of a shopping list
 * (`collectMealPlanRecipes`, `populateIngredientsForRecipeList`,
 * `convertRecipeIngredientToMetric`, `multiplyIngredientsWithServingsMultiplier`).
 *
 * The meal-plan aggregate and the ingredient look-ups are inputs: the plan's meals
 * as the aggregate pushes them, and two maps from ingredient id and from old id to
 * the ingredient document.
 */
module MealPlanRecipes {
  import opened Wrappers
  import opened Js
  import Text
  import Seqs
  import KeyedFold
  import Units
  import opened Models

  /**
   * One meal of the plan: the servings the plan asks for, the diet and the two
   * flags chosen for it, and the recipe the look-up found (`None` when none). The
   * stored plan data is schemaless, so a meal may have no diet (`None`).
   */
  datatype Meal = Meal(
    servings: Num,
    diet: Option<string>,
    dairyFree: Option<bool>,
    glutenFree: Option<bool>,
    recipe: Option<Recipe>)

  /** A JavaScript flag that may be absent: only `true` is truthy. */
  predicate IsSet(flag: Option<bool>) {
    flag == Some(true)
  }

  /** What makes two meals "the same recipe": recipe id, diet ignoring case, and both flags compared exactly. */
  type MealKey = (string, Option<string>, Option<bool>, Option<bool>)

  function KeyOf(m: Meal): MealKey {
    (if m.recipe.Some? then m.recipe.value.id else "",
     if m.diet.Some? then Some(Text.Lower(m.diet.value)) else None,
     m.dairyFree, m.glutenFree)
  }

  /** Two meals whose recipes were both found and have the same id. */
  predicate SameRecipe(a: Meal, b: Meal) {
    a.recipe.Some? && b.recipe.Some? && a.recipe.value.id == b.recipe.value.id
  }

  /**
   * Some meal shares its recipe with an earlier one while one of the two has no
   * diet. The merge compares diets only after equal ids, so this is exactly when
   * it lower-cases a missing diet: the first meal of a recipe is the one every
   * later meal of that recipe is compared with first.
   */
  predicate DietMissingOnRepeat(meals: seq<Meal>) {
    exists i, j :: 0 <= i < j < |meals| && SameRecipe(meals[i], meals[j]) && (meals[i].diet.None? || meals[j].diet.None?)
  }

  /** A repeated meal adds its servings to the first one. */
  function AddServings(a: Meal, b: Meal): (r: Meal)
    ensures KeyOf(r) == KeyOf(a)
    ensures r.servings == Add(a.servings, b.servings)
  {
    a.(servings := Add(a.servings, b.servings))
  }

  function Servings(m: Meal): Num {
    m.servings
  }

  /** The pushed objects that are not empty (an empty object is `None`), in order. */
  function NonEmpty(xs: seq<Option<Meal>>): (r: seq<Meal>)
    ensures |r| <= |xs|
    ensures forall m :: m in r <==> Some(m) in xs
  {
    if |xs| == 0 then []
    else
      var rest := NonEmpty(xs[..|xs| - 1]);
      assert xs == xs[..|xs| - 1] + [xs[|xs| - 1]];
      match xs[|xs| - 1]
      case None => rest
      case Some(m) => rest + [m]
  }

  /**
   * `collectMealPlanRecipes`: drops the empty objects, then merges meals with equal
   * keys into the first of them, summing servings. Without a plan there is nothing
   * to parse and the source throws; with two or more meals the key comparison reads
   * the id of every meal's recipe and throws if one is missing, and it lower-cases
   * the diets of two meals of the same recipe, throwing if either has none.
   */
  function Collect(plan: Option<seq<Option<Meal>>>): (r: Result<seq<Meal>, Crash>)
    ensures plan.None? ==> r.Failure?
    ensures plan.Some? ==>
      (r.Failure? <==> (|NonEmpty(plan.value)| >= 2 && exists m :: m in NonEmpty(plan.value) && m.recipe.None?) ||
                       DietMissingOnRepeat(NonEmpty(plan.value)))
    ensures plan.Some? && |NonEmpty(plan.value)| <= 1 ==> r == Success(NonEmpty(plan.value))
    ensures r.Success? ==>
      KeyedFold.Keys(r.value, KeyOf) == Seqs.Distinct(KeyedFold.Keys(NonEmpty(plan.value), KeyOf))
  {
    if plan.None? then Failure(TypeError("recipes of a missing meal plan"))
    else
      var meals := NonEmpty(plan.value);
      if |meals| >= 2 && exists m :: m in meals && m.recipe.None? then Failure(TypeError("_id of a missing recipe"))
      else if DietMissingOnRepeat(meals) then Failure(TypeError("toLowerCase of a missing diet"))
      else
        KeyedFold.FoldKeys(meals, KeyOf, AddServings);
        if |meals| == 1 then
          SingleFold(meals);
          Success(KeyedFold.Fold(meals, KeyOf, AddServings))
        else Success(KeyedFold.Fold(meals, KeyOf, AddServings))
  }

  /** Every merged meal carries the servings of all meals of the plan with its key, added in plan order. */
  lemma CollectServings(plan: Option<seq<Option<Meal>>>, i: nat)
    requires Collect(plan).Success? && i < |Collect(plan).value|
    ensures var meals := NonEmpty(plan.value);
      var g := KeyedFold.Group(meals, KeyOf, KeyOf(Collect(plan).value[i]));
      |g| > 0 && Collect(plan).value[i].servings == KeyedFold.Total(g, Servings, Add)
  {
    KeyedFold.FoldTotals(NonEmpty(plan.value), KeyOf, AddServings, Servings, Add, i);
  }

  /** Merging loses no servings: the plan's total is the total over the merged meals. */
  lemma CollectKeepsTotal(plan: Option<seq<Option<Meal>>>)
    requires Collect(plan).Success?
    ensures KeyedFold.Sum(Collect(plan).value, Servings, Add, Some(0.0))
         == KeyedFold.Sum(NonEmpty(plan.value), Servings, Add, Some(0.0))
  {
    AddCommutative();
    KeyedFold.FoldSum(NonEmpty(plan.value), KeyOf, AddServings, Servings, Add, Some(0.0));
  }

  /**
   * The name of the recipe field that holds a meal's ingredient list. The diet
   * is lower-cased before the dairy-free flag is looked at, so a meal without a
   * diet has no list name at all.
   */
  function ListName(m: Meal): (r: Option<string>)
    ensures r.None? <==> m.diet.None?
  {
    if m.diet.None? then None
    else if IsSet(m.dairyFree) then Some("dairy_free_ingredients")
    else Some(Text.Lower(m.diet.value) + "_ingredients")
  }

  /**
   * A dairy-free meal with a diet reads the dairy-free list whatever that diet is;
   * otherwise the diet decides, ignoring case.
   */
  lemma ListNameRule(a: Meal, b: Meal)
    ensures a.diet.Some? && IsSet(a.dairyFree) ==> ListName(a) == Some("dairy_free_ingredients")
    ensures a.diet.Some? && b.diet.Some? && IsSet(a.dairyFree) && IsSet(b.dairyFree) ==> ListName(a) == ListName(b)
    ensures a.diet.Some? && b.diet.Some? && !IsSet(a.dairyFree) && !IsSet(b.dairyFree) ==>
      (ListName(a) == ListName(b) <==> Text.Lower(a.diet.value) == Text.Lower(b.diet.value))
  {
    if a.diet.Some? && b.diet.Some? && !IsSet(a.dairyFree) && !IsSet(b.dairyFree) && ListName(a) == ListName(b) {
      var sa, sb := Text.Lower(a.diet.value), Text.Lower(b.diet.value);
      assert sa + "_ingredients" == sb + "_ingredients";
      assert |sa| == |sb|;
      assert sa == (sa + "_ingredients")[..|sa|];
      assert sb == (sb + "_ingredients")[..|sb|];
    }
  }

  /**
   * The ingredient document an entry is converted against: for a gluten-free meal
   * with a substitute id, the first ingredient whose old id is that id; otherwise
   * the ingredient the entry refers to.
   */
  function Source(m: Meal, ri: RecipeIngredient, byId: map<string, IngredientDoc>, byOldId: map<string, IngredientDoc>)
    : (r: Option<IngredientDoc>)
    ensures IsSet(m.glutenFree) && StrTruthy(ri.substituteId) ==>
      (r.Some? <==> ri.substituteId.value in byOldId) && (r.Some? ==> r.value == byOldId[ri.substituteId.value])
    ensures !(IsSet(m.glutenFree) && StrTruthy(ri.substituteId)) ==>
      (r.Some? <==> ri.ingredientId in byId) && (r.Some? ==> r.value == byId[ri.ingredientId])
  {
    if IsSet(m.glutenFree) && StrTruthy(ri.substituteId) then
      if ri.substituteId.value in byOldId then Some(byOldId[ri.substituteId.value]) else None
    else if ri.ingredientId in byId then Some(byId[ri.ingredientId]) else None
  }

  /** A recipe entry converted against its ingredient document. */
  datatype Normalized = Normalized(
    doc: IngredientDoc,
    measurementType: string,
    conversionFactor: Num,
    fundamentalBase: Num,
    notes: Option<string>,
    quantity: Num,
    measurement: Option<string>,
    recipeImperialQty: Num,
    recipeMetricQty: Num,
    recipeUnit: Option<string>)

  /** `${unit}` || "count": only the empty string falls back (`undefined` prints as "undefined"). */
  function BaseUnitArg(u: Option<string>): string {
    if Show(u) == "" then "count" else Show(u)
  }

  /** The unit of a conversion result, `undefined` for an error string. */
  function UnitOf(c: Units.Conversion): Option<string> {
    if c.Converted? then Some(c.unit) else None
  }

  /**
   * `convertRecipeIngredientToMetric`. A count ingredient keeps the recipe quantity
   * as both amounts in "Item(s)". Any other converts the recipe amount to mL or g
   * (default unit "count", which resolves nowhere), and the metric amount is that
   * times `metric_base_qty` over the fundamental value of the ingredient's own base
   * amount. A missing document or measurement type throws.
   */
  function Normalize(source: Option<IngredientDoc>, ri: RecipeIngredient): (r: Result<Normalized, Crash>)
    ensures r.Failure? <==> source.None? || source.value.measurementType.None?
    ensures r.Success? ==> (r.value.doc == source.value && r.value.notes == ri.notes
      && r.value.quantity == ri.qty && r.value.measurement == ri.measurement)
    ensures r.Success? && Text.Lower(source.value.measurementType.value) == "count" ==>
      (r.value.measurementType == "count" && r.value.conversionFactor == Some(1.0) &&
       r.value.recipeImperialQty == ri.qty && r.value.recipeMetricQty == ri.qty && r.value.recipeUnit == Some("Item(s)"))
    ensures r.Success? && Text.Lower(source.value.measurementType.value) != "count" ==>
      (r.value.measurementType == source.value.measurementType.value &&
       (Truthy(r.value.recipeImperialQty) || r.value.recipeImperialQty == Some(0.0)))
  {
    if source.None? then Failure(TypeError("measurement_type of a missing ingredient"))
    else
      var doc := source.value;
      if doc.measurementType.None? then Failure(TypeError("toLowerCase of a missing measurement_type"))
      else
        var mt := doc.measurementType.value;
        if Text.Lower(mt) == "count" then
          Success(Normalized(doc, "count", Some(1.0), None, ri.notes, ri.qty, ri.measurement, ri.qty, ri.qty, Some("Item(s)")))
        else
          var base := Units.ToFundamental(mt, BaseUnitArg(doc.imperialBaseUnit), doc.imperialBaseQty);
          var factor := Div(doc.metricBaseQty, Units.ValueOf(base));
          var rc := Units.ToFundamental(mt, StrOr(ri.measurement, "count"), ri.qty);
          Success(Normalized(doc, mt, factor, Units.ValueOf(base), ri.notes, ri.qty, ri.measurement,
            Or(Units.ValueOf(rc), Some(0.0)),
            Or(Mul(factor, Units.ValueOf(rc)), Some(0.0)),
            if StrTruthy(UnitOf(rc)) then UnitOf(rc) else None))
  }

  /** Outside the count case the metric amount is the conversion factor times the imperial amount, or 0. */
  lemma MetricFollowsImperial(doc: IngredientDoc, ri: RecipeIngredient)
    requires doc.measurementType.Some? && Text.Lower(doc.measurementType.value) != "count"
    ensures var n := Normalize(Some(doc), ri).value;
      n.recipeMetricQty == Or(Mul(n.conversionFactor, n.recipeImperialQty), Some(0.0))
  {
  }

  /** A recipe amount whose unit does not resolve counts as nothing at all. */
  lemma UnresolvedUnitIsZero(doc: IngredientDoc, ri: RecipeIngredient)
    requires doc.measurementType.Some? && Text.Lower(doc.measurementType.value) != "count"
    requires Truthy(ri.qty) && Units.CheckIfValidUnit(doc.measurementType.value, StrOr(ri.measurement, "count")).Failure?
    ensures Normalize(Some(doc), ri).value.recipeImperialQty == Some(0.0)
    ensures Normalize(Some(doc), ri).value.recipeMetricQty == Some(0.0)
    ensures Normalize(Some(doc), ri).value.recipeUnit == None
  {
  }

  /** A recipe amount in a registered unit is expressed in mL or g, in that unit's name. */
  lemma ResolvedUnitIsFundamental(doc: IngredientDoc, ri: RecipeIngredient)
    requires doc.measurementType.Some? && Text.Lower(doc.measurementType.value) != "count"
    requires Truthy(ri.qty) && Units.CheckIfValidUnit(doc.measurementType.value, StrOr(ri.measurement, "count")).Success?
    ensures var found := Units.CheckIfValidUnit(doc.measurementType.value, StrOr(ri.measurement, "count")).value;
      var n := Normalize(Some(doc), ri).value;
      n.recipeImperialQty == Some(Units.ToAmount(Units.ReferenceOf(found.0), found.1.value, ri.qty.value)) &&
      n.recipeUnit == Some(Units.FundamentalName(found.0))
  {
    var found := Units.CheckIfValidUnit(doc.measurementType.value, StrOr(ri.measurement, "count")).value;
    Units.ToAmountMeaning(Units.ReferenceOf(found.0), found.1.value, ri.qty.value);
  }

  /**
   * The calibration the factor encodes: a recipe asking for exactly the ingredient's
   * imperial base amount gets exactly its metric base amount.
   */
  lemma BaseAmountIsMetricBase(doc: IngredientDoc, ri: RecipeIngredient)
    requires doc.measurementType.Some? && Text.Lower(doc.measurementType.value) != "count"
    requires StrTruthy(doc.imperialBaseUnit) && ri.measurement == doc.imperialBaseUnit
    requires Truthy(doc.imperialBaseQty) && ri.qty == doc.imperialBaseQty
    requires Units.CheckIfValidUnit(doc.measurementType.value, doc.imperialBaseUnit.value).Success?
    requires Truthy(doc.metricBaseQty)
    ensures Normalize(Some(doc), ri).value.recipeMetricQty == doc.metricBaseQty
  {
    var mt := doc.measurementType.value;
    var u := doc.imperialBaseUnit.value;
    assert BaseUnitArg(doc.imperialBaseUnit) == u;
    assert StrOr(ri.measurement, "count") == u;
    var found := Units.CheckIfValidUnit(mt, u).value;
    Units.ToAmountMeaning(Units.ReferenceOf(found.0), found.1.value, doc.imperialBaseQty.value);
    var a := Units.ToAmount(Units.ReferenceOf(found.0), found.1.value, doc.imperialBaseQty.value);
    assert Units.ToFundamental(mt, u, doc.imperialBaseQty) == Units.Converted(Units.FundamentalName(found.0), Some(a));
    FactorCancels(doc.metricBaseQty, a);
  }

  lemma FactorCancels(x: Num, a: real)
    requires a != 0.0 && x.Some?
    ensures Mul(Div(x, Some(a)), Some(a)) == x
  {
    assert (x.value / a) * a == x.value;
  }

  /** The converted entries of one list, in order; the first entry that throws stops the list. */
  function NormalizeAll(m: Meal, list: seq<RecipeIngredient>, byId: map<string, IngredientDoc>, byOldId: map<string, IngredientDoc>)
    : (r: Result<seq<Normalized>, Crash>)
    ensures r.Success? <==> forall j :: 0 <= j < |list| ==> Normalize(Source(m, list[j], byId, byOldId), list[j]).Success?
    ensures r.Success? ==> (|r.value| == |list| &&
      forall j :: 0 <= j < |list| ==> Normalize(Source(m, list[j], byId, byOldId), list[j]) == Success(r.value[j]))
  {
    if |list| == 0 then Success([])
    else
      var first := Normalize(Source(m, list[0], byId, byOldId), list[0]);
      if first.Failure? then Failure(first.error)
      else
        var rest := NormalizeAll(m, list[1..], byId, byOldId);
        if rest.Failure? then
          assert !forall j :: 0 <= j < |list| ==> Normalize(Source(m, list[j], byId, byOldId), list[j]).Success? by {
            var k :| 0 <= k < |list[1..]| && Normalize(Source(m, list[1..][k], byId, byOldId), list[1..][k]).Failure?;
            assert list[1..][k] == list[k + 1];
          }
          Failure(rest.error)
        else
          Success([first.value] + rest.value)
  }

  /** A converted entry with the amounts the meal plan needs. */
  datatype Scaled = Scaled(item: Normalized, mealPlanImperialQty: Num, mealPlanMetricQty: Num)

  /** Every amount of a meal's list times meal servings over recipe servings. */
  function ScaleAll(multiplier: Num, items: seq<Normalized>): (r: seq<Scaled>)
    ensures |r| == |items|
    ensures forall j :: 0 <= j < |items| ==> r[j].item == items[j]
  {
    seq(|items|, j requires 0 <= j < |items| =>
      Scaled(items[j], Mul(items[j].recipeImperialQty, multiplier), Mul(items[j].recipeMetricQty, multiplier)))
  }

  /**
   * The lines of one merged meal. Lower-casing a missing diet (dairy-free or
   * not), reading a list of a missing recipe, or a list field the recipe does not
   * have, throws.
   */
  function PopulateMeal(m: Meal, byId: map<string, IngredientDoc>, byOldId: map<string, IngredientDoc>)
    : (r: Result<seq<Scaled>, Crash>)
    ensures m.diet.None? ==> r.Failure?
    ensures m.recipe.None? || (m.diet.Some? && ListName(m).value !in m.recipe.value.lists) ==> r.Failure?
    ensures r.Success? ==> (m.diet.Some? && m.recipe.Some? && ListName(m).value in m.recipe.value.lists &&
      var list := m.recipe.value.lists[ListName(m).value];
      |r.value| == |list| &&
      forall j :: 0 <= j < |list| ==> Normalize(Source(m, list[j], byId, byOldId), list[j]) == Success(r.value[j].item))
    ensures r.Success? ==> forall j :: 0 <= j < |r.value| ==>
      var multiplier := Div(m.servings, m.recipe.value.servings);
      r.value[j].mealPlanImperialQty == Mul(r.value[j].item.recipeImperialQty, multiplier) &&
      r.value[j].mealPlanMetricQty == Mul(r.value[j].item.recipeMetricQty, multiplier)
  {
    if m.diet.None? then Failure(TypeError("toLowerCase of a missing diet"))
    else if m.recipe.None? then Failure(TypeError("ingredient list of a missing recipe"))
    else if ListName(m).value !in m.recipe.value.lists then Failure(TypeError("length of a missing ingredient list"))
    else
      var items := NormalizeAll(m, m.recipe.value.lists[ListName(m).value], byId, byOldId);
      if items.Failure? then Failure(items.error)
      else Success(ScaleAll(Div(m.servings, m.recipe.value.servings), items.value))
  }

  /**
   * Scaling keeps proportions: a line's meal-plan amount is to its recipe amount as
   * the meal's servings are to the recipe's.
   */
  lemma ScaledProportion(s: Scaled, servings: Num, recipeServings: Num)
    requires s.mealPlanImperialQty == Mul(s.item.recipeImperialQty, Div(servings, recipeServings))
    requires s.mealPlanMetricQty == Mul(s.item.recipeMetricQty, Div(servings, recipeServings))
    requires Truthy(recipeServings) && servings.Some?
    ensures s.mealPlanImperialQty.Some? <==> s.item.recipeImperialQty.Some?
    ensures s.mealPlanImperialQty.Some? ==>
      s.mealPlanImperialQty.value * recipeServings.value == s.item.recipeImperialQty.value * servings.value
    ensures s.mealPlanMetricQty.Some? <==> s.item.recipeMetricQty.Some?
    ensures s.mealPlanMetricQty.Some? ==>
      s.mealPlanMetricQty.value * recipeServings.value == s.item.recipeMetricQty.value * servings.value
  {
    if s.item.recipeImperialQty.Some? {
      ScaleMeaning(s.item.recipeImperialQty.value, servings.value, recipeServings.value);
    }
    if s.item.recipeMetricQty.Some? {
      ScaleMeaning(s.item.recipeMetricQty.value, servings.value, recipeServings.value);
    }
  }

  lemma ScaleMeaning(q: real, n: real, d: real)
    requires d != 0.0
    ensures (q * (n / d)) * d == q * n
  {
    assert (n / d) * d == n;
  }

  /** The lines of a list of merged meals, meal after meal; the first meal that throws stops everything. */
  function Populate(meals: seq<Meal>, byId: map<string, IngredientDoc>, byOldId: map<string, IngredientDoc>)
    : (r: Result<seq<Scaled>, Crash>)
    ensures r.Success? <==> forall i :: 0 <= i < |meals| ==> PopulateMeal(meals[i], byId, byOldId).Success?
    ensures r.Success? ==> |r.value| == ListLengths(meals)
    ensures r.Success? && |meals| > 0 ==> (PopulateMeal(meals[0], byId, byOldId).Success? &&
      var first := PopulateMeal(meals[0], byId, byOldId).value;
      |first| <= |r.value| && r.value[..|first|] == first)
  {
    if |meals| == 0 then Success([])
    else
      var first := PopulateMeal(meals[0], byId, byOldId);
      if first.Failure? then Failure(first.error)
      else
        var rest := Populate(meals[1..], byId, byOldId);
        if rest.Failure? then
          assert !forall i :: 0 <= i < |meals| ==> PopulateMeal(meals[i], byId, byOldId).Success? by {
            var k :| 0 <= k < |meals[1..]| && PopulateMeal(meals[1..][k], byId, byOldId).Failure?;
            assert meals[1..][k] == meals[k + 1];
          }
          Failure(rest.error)
        else
          assert (first.value + rest.value)[..|first.value|] == first.value;
          Success(first.value + rest.value)
  }

  /** The total length of the lists the meals read (0 for a meal that has none). */
  function ListLengths(meals: seq<Meal>): nat {
    if |meals| == 0 then 0
    else
      var m := meals[0];
      (if m.diet.Some? && m.recipe.Some? && ListName(m).value in m.recipe.value.lists
       then |m.recipe.value.lists[ListName(m).value]| else 0)
        + ListLengths(meals[1..])
  }

  /**
   * `populateIngredientsForRecipeList(collectMealPlanRecipes(plan))`: the
   * shopping-list lines of a whole plan.
   */
  function PlanLines(plan: Option<seq<Option<Meal>>>, byId: map<string, IngredientDoc>, byOldId: map<string, IngredientDoc>)
    : (r: Result<seq<Scaled>, Crash>)
    ensures r.Success? ==> Collect(plan).Success? && Populate(Collect(plan).value, byId, byOldId).Success?
    ensures r.Success? ==> forall m :: m in NonEmpty(plan.value) ==> m.recipe.Some? && m.diet.Some?
  {
    var meals :- Collect(plan);
    var lines :- Populate(meals, byId, byOldId);
    CollectedRecipes(plan, byId, byOldId);
    Success(lines)
  }

  /**
   * Every meal of a plan whose lines could be built has a recipe and a diet: a
   * lone meal without either passes the merge but throws when its list is read.
   */
  lemma CollectedRecipes(plan: Option<seq<Option<Meal>>>, byId: map<string, IngredientDoc>, byOldId: map<string, IngredientDoc>)
    requires Collect(plan).Success? && Populate(Collect(plan).value, byId, byOldId).Success?
    ensures forall m :: m in NonEmpty(plan.value) ==> m.recipe.Some? && m.diet.Some?
  {
    var merged := Collect(plan).value;
    PopulateNeedsRecipes(merged, byId, byOldId);
    DietsCarried(NonEmpty(plan.value), merged);
  }

  /** Merging keeps every meal's key, so a diet missing before the merge is missing after it. */
  lemma DietsCarried(meals: seq<Meal>, merged: seq<Meal>)
    requires KeyedFold.Keys(merged, KeyOf) == Seqs.Distinct(KeyedFold.Keys(meals, KeyOf))
    requires forall m :: m in merged ==> m.diet.Some?
    ensures forall m :: m in meals ==> m.diet.Some?
  {
    Seqs.DistinctMembers(KeyedFold.Keys(meals, KeyOf));
    forall m | m in meals
      ensures m.diet.Some?
    {
      var i :| 0 <= i < |meals| && meals[i] == m;
      assert KeyOf(m) in KeyedFold.Keys(merged, KeyOf) by {
        assert KeyedFold.Keys(meals, KeyOf)[i] == KeyOf(m);
      }
      var j :| 0 <= j < |merged| && KeyedFold.Keys(merged, KeyOf)[j] == KeyOf(m);
      assert merged[j] in merged;
    }
  }

  /** Only meals with a recipe and a diet yield lines. */
  lemma PopulateNeedsRecipes(meals: seq<Meal>, byId: map<string, IngredientDoc>, byOldId: map<string, IngredientDoc>)
    requires Populate(meals, byId, byOldId).Success?
    ensures forall m :: m in meals ==> m.recipe.Some? && m.diet.Some?
  {
    forall m | m in meals
      ensures m.recipe.Some? && m.diet.Some?
    {
      var i :| 0 <= i < |meals| && meals[i] == m;
      assert PopulateMeal(meals[i], byId, byOldId).Success?;
    }
  }

  /** A single meal is left as it is. */
  lemma SingleFold(meals: seq<Meal>)
    requires |meals| == 1
    ensures KeyedFold.Fold(meals, KeyOf, AddServings) == meals
  {
    assert meals[..0] == [];
    assert meals == [meals[0]];
  }

  /** JavaScript addition of numbers is commutative and associative, NaN included. */
  lemma AddCommutative()
    ensures KeyedFold.Commutative(Add)
  {
  }
}

=== FILE: meal_plans.dfy ===
/**
 * The pure rules of controllers/mealplanController.js: the time-slot ordering and
 * draft masking of `getMealPlanById`, the parameters of `getSortedMealPlans`, and
 * the record mapping of `migratePlans`.
 */
module MealPlans {
  import opened Wrappers
  import opened Js
  import Text
  import General
  import opened Models

  // ---- Time-slot ordering ----

  /** The order `getMealPlanById` gives a slot: breakfast, lunch, dinner (any case); other titles get none. */
  function SlotOrder(s: PlanSlot): (r: Option<int>)
    ensures r.Some? ==> 1 <= r.value <= 3
    ensures r == Some(1) <==> s.title.Some? && Text.Lower(s.title.value) == "breakfast"
    ensures r == Some(2) <==> s.title.Some? && Text.Lower(s.title.value) == "lunch"
    ensures r == Some(3) <==> s.title.Some? && Text.Lower(s.title.value) == "dinner"
  {
    if s.title.None? then None
    else
      var t := Text.Lower(s.title.value);
      if t == "breakfast" then Some(1) else if t == "lunch" then Some(2) else if t == "dinner" then Some(3) else None
  }

  /** The elements whose key is `Some(k)`, in their original order. */
  function Having<T>(xs: seq<T>, key: T -> Option<int>, k: int): (r: seq<T>)
    ensures |r| <= |xs|
  {
    if |xs| == 0 then []
    else (if key(xs[0]) == Some(k) then [xs[0]] else []) + Having(xs[1..], key, k)
  }

  /** What the filter keeps has the key and comes from the input. */
  lemma {:induction false} HavingMembers<T>(xs: seq<T>, key: T -> Option<int>, k: int)
    ensures forall i :: 0 <= i < |Having(xs, key, k)| ==> Having(xs, key, k)[i] in xs && key(Having(xs, key, k)[i]) == Some(k)
  {
    if |xs| > 0 {
      HavingMembers(xs[1..], key, k);
    }
  }

  /** Every element has a key, from 1 to 3. */
  predicate Keyed<T>(xs: seq<T>, key: T -> Option<int>) {
    forall i :: 0 <= i < |xs| ==> key(xs[i]).Some? && 1 <= key(xs[i]).value <= 3
  }

  predicate Ascending<T>(xs: seq<T>, key: T -> Option<int>)
    requires Keyed(xs, key)
  {
    forall i, j :: 0 <= i < j < |xs| ==> key(xs[i]).value <= key(xs[j]).value
  }

  /**
   * A stable sort on keys 1 to 3: the elements of key 1, then 2, then 3, each
   * group in its original order.
   */
  function StableSort<T>(xs: seq<T>, key: T -> Option<int>): (r: seq<T>)
    requires Keyed(xs, key)
    ensures |r| == |xs|
    ensures Keyed(r, key) && Ascending(r, key)
    ensures multiset(r) == multiset(xs)
    ensures forall k :: Having(r, key, k) == Having(xs, key, k)
  {
    var r := Having(xs, key, 1) + Having(xs, key, 2) + Having(xs, key, 3);
    GroupsAscending(xs, key);
    Groups(xs, key);
    forall k ensures Having(r, key, k) == Having(xs, key, k) {
      GroupsStable(xs, key, k);
    }
    assert |r| == |multiset(r)| == |multiset(xs)| == |xs|;
    r
  }

  /** The three groups one after the other are in ascending order of key. */
  lemma GroupsAscending<T>(xs: seq<T>, key: T -> Option<int>)
    ensures var r := Having(xs, key, 1) + Having(xs, key, 2) + Having(xs, key, 3);
      Keyed(r, key) && Ascending(r, key)
  {
    var a, b, c := Having(xs, key, 1), Having(xs, key, 2), Having(xs, key, 3);
    var r := a + b + c;
    HavingMembers(xs, key, 1);
    HavingMembers(xs, key, 2);
    HavingMembers(xs, key, 3);
    forall i | 0 <= i < |r|
      ensures key(r[i]) == Some(if i < |a| then 1 else if i < |a| + |b| then 2 else 3)
    {
      if i < |a| { assert r[i] == a[i]; }
      else if i < |a| + |b| { assert r[i] == b[i - |a|]; }
      else { assert r[i] == c[i - |a| - |b|]; }
    }
  }

  /** Filtering the three groups by any key gives what filtering the input gives: the sort is stable. */
  lemma GroupsStable<T>(xs: seq<T>, key: T -> Option<int>, k: int)
    requires Keyed(xs, key)
    ensures Having(Having(xs, key, 1) + Having(xs, key, 2) + Having(xs, key, 3), key, k) == Having(xs, key, k)
  {
    var a, b, c := Having(xs, key, 1), Having(xs, key, 2), Having(xs, key, 3);
    HavingConcat(a + b, c, key, k);
    HavingConcat(a, b, key, k);
    var ha, hb, hc := Having(a, key, k), Having(b, key, k), Having(c, key, k);
    assert Having(a + b + c, key, k) == ha + hb + hc;
    HavingTwice(xs, key, 1, k);
    HavingTwice(xs, key, 2, k);
    HavingTwice(xs, key, 3, k);
    if k == 1 {
      assert hb == [] && hc == [];
      assert ha + hb + hc == ha;
    } else if k == 2 {
      assert ha == [] && hc == [];
      assert ha + hb + hc == hb;
    } else if k == 3 {
      assert ha == [] && hb == [];
      assert ha + hb + hc == hc;
    } else {
      assert ha == [] && hb == [] && hc == [];
      HavingNone(xs, key, k);
    }
  }

  /** Nothing is kept when no element has the key. */
  lemma {:induction false} HavingNone<T>(xs: seq<T>, key: T -> Option<int>, k: int)
    requires forall i :: 0 <= i < |xs| ==> key(xs[i]) != Some(k)
    ensures Having(xs, key, k) == []
  {
    if |xs| > 0 {
      assert key(xs[0]) != Some(k);
      HavingNone(xs[1..], key, k);
    }
  }

  /** Filtering distributes over concatenation. */
  lemma {:induction false} HavingConcat<T>(xs: seq<T>, ys: seq<T>, key: T -> Option<int>, k: int)
    ensures Having(xs + ys, key, k) == Having(xs, key, k) + Having(ys, key, k)
  {
    if |xs| > 0 {
      assert (xs + ys)[1..] == xs[1..] + ys;
      HavingConcat(xs[1..], ys, key, k);
    } else {
      assert xs + ys == ys;
    }
  }

  /** Filtering by one key, then by another, keeps all or nothing. */
  lemma {:induction false} HavingTwice<T>(xs: seq<T>, key: T -> Option<int>, j: int, k: int)
    ensures Having(Having(xs, key, j), key, k) == if j == k then Having(xs, key, k) else []
  {
    if |xs| > 0 {
      HavingTwice(xs[1..], key, j, k);
      var head := if key(xs[0]) == Some(j) then [xs[0]] else [];
      HavingConcat(head, Having(xs[1..], key, j), key, k);
      if key(xs[0]) == Some(j) {
        assert head[1..] == [];
      }
    }
  }

  /** Elements keyed 1 to 3 are exactly the three groups together. */
  lemma {:induction false} Groups<T>(xs: seq<T>, key: T -> Option<int>)
    requires Keyed(xs, key)
    ensures multiset(Having(xs, key, 1)) + multiset(Having(xs, key, 2)) + multiset(Having(xs, key, 3)) == multiset(xs)
  {
    if |xs| > 0 {
      var t := xs[1..];
      KeyedTail(xs, key);
      Groups(t, key);
      HavingHead(xs, key, 1);
      HavingHead(xs, key, 2);
      HavingHead(xs, key, 3);
      assert xs == [xs[0]] + t;
      SumOfGroups(multiset(Having(xs, key, 1)), multiset(Having(xs, key, 2)), multiset(Having(xs, key, 3)),
        multiset(Having(t, key, 1)), multiset(Having(t, key, 2)), multiset(Having(t, key, 3)),
        xs[0], key(xs[0]).value, multiset(t), multiset(xs));
    }
  }

  /** The multiset arithmetic of one step of `Groups`. */
  lemma SumOfGroups<T>(a1: multiset<T>, a2: multiset<T>, a3: multiset<T>, b1: multiset<T>, b2: multiset<T>,
                       b3: multiset<T>, x: T, k: int, t: multiset<T>, all: multiset<T>)
    requires 1 <= k <= 3
    requires b1 + b2 + b3 == t && all == multiset{x} + t
    requires a1 == (if k == 1 then multiset{x} else multiset{}) + b1
    requires a2 == (if k == 2 then multiset{x} else multiset{}) + b2
    requires a3 == (if k == 3 then multiset{x} else multiset{}) + b3
    ensures a1 + a2 + a3 == all
  {
  }

  lemma KeyedTail<T>(xs: seq<T>, key: T -> Option<int>)
    requires |xs| > 0 && Keyed(xs, key)
    ensures Keyed(xs[1..], key)
  {
    forall i | 0 <= i < |xs| - 1 ensures key(xs[1..][i]).Some? && 1 <= key(xs[1..][i]).value <= 3 {
      assert xs[1..][i] == xs[i + 1];
    }
  }

  lemma HavingHead<T>(xs: seq<T>, key: T -> Option<int>, k: int)
    requires |xs| > 0
    ensures multiset(Having(xs, key, k)) ==
      (if key(xs[0]) == Some(k) then multiset{xs[0]} else multiset{}) + multiset(Having(xs[1..], key, k))
  {
  }

  /**
   * `sort((a, b) => a.order - b.order)` on the slots, which is stable, when every
   * slot has an order. A slot without an order makes the comparator NaN, which
   * gives no defined order, so the model gives no result.
   */
  function SortSlots(slots: seq<PlanSlot>): (r: Option<seq<PlanSlot>>)
    ensures r.Some? <==> Keyed(slots, SlotOrder)
    ensures r.Some? ==> |r.value| == |slots|
    ensures r.Some? ==> Keyed(r.value, SlotOrder) && Ascending(r.value, SlotOrder)
    ensures r.Some? ==> multiset(r.value) == multiset(slots)
    ensures r.Some? ==> forall k :: Having(r.value, SlotOrder, k) == Having(slots, SlotOrder, k)
  {
    if Keyed(slots, SlotOrder) then Some(StableSort(slots, SlotOrder)) else None
  }

  // ---- Draft masking ----

  /**
   * For a user who is not an admin, every meal that is not explicitly a published
   * one (`is_draft === false`) is replaced by an empty object (`None`); admins see
   * every meal.
   */
  function MaskDrafts(meals: seq<PlannedMeal>, isAdmin: bool): (r: seq<Option<PlannedMeal>>)
    ensures |r| == |meals|
    ensures forall i :: 0 <= i < |meals| ==> (r[i].Some? <==> isAdmin || meals[i].isDraft == Some(false))
    ensures forall i :: 0 <= i < |meals| ==> r[i].Some? ==> r[i].value == meals[i]
  {
    seq(|meals|, i requires 0 <= i < |meals| =>
      if isAdmin || meals[i].isDraft == Some(false) then Some(meals[i]) else None)
  }

  /** The number of meals a user who is not an admin is shown. */
  function Published(meals: seq<PlannedMeal>): nat {
    if |meals| == 0 then 0
    else (if meals[0].isDraft == Some(false) then 1 else 0) + Published(meals[1..])
  }

  function Shown(meals: seq<Option<PlannedMeal>>): nat {
    if |meals| == 0 then 0 else (if meals[0].Some? then 1 else 0) + Shown(meals[1..])
  }

  /** Masking shows a user who is not an admin exactly the published meals, and an admin all of them. */
  lemma {:induction false} MaskShowsPublished(meals: seq<PlannedMeal>, isAdmin: bool)
    ensures !isAdmin ==> Shown(MaskDrafts(meals, isAdmin)) == Published(meals)
    ensures isAdmin ==> Shown(MaskDrafts(meals, isAdmin)) == |meals|
  {
    if |meals| > 0 {
      MaskShowsPublished(meals[1..], isAdmin);
      assert MaskDrafts(meals, isAdmin)[1..] == MaskDrafts(meals[1..], isAdmin);
    }
  }

  /** A slot as `getMealPlanById` returns it, with the `order` the handler writes into it. */
  datatype ShownSlot = ShownSlot(title: Option<string>, order: int, meals: seq<Option<PlannedMeal>>)

  /**
   * The `plan_data` of `getMealPlanById`: the slots sorted by time of day, each
   * carrying its order (1 for breakfast, 2 for lunch, 3 for dinner), and their
   * meals masked for users who are not admins.
   */
  function PlanData(slots: seq<PlanSlot>, isAdmin: bool): (r: Option<seq<ShownSlot>>)
    ensures r.Some? <==> Keyed(slots, SlotOrder)
    ensures r.Some? ==> |r.value| == |slots|
    ensures r.Some? ==> forall i :: 0 <= i < |r.value| ==>
      r.value[i] == ShownSlot(SortSlots(slots).value[i].title, SlotOrder(SortSlots(slots).value[i]).value,
        MaskDrafts(SortSlots(slots).value[i].meals, isAdmin))
    ensures r.Some? ==> forall i :: 0 <= i < |r.value| ==> 1 <= r.value[i].order <= 3
    ensures r.Some? ==> forall i, j :: 0 <= i < j < |r.value| ==> r.value[i].order <= r.value[j].order
  {
    match SortSlots(slots)
    case None => None
    case Some(sorted) =>
      Some(seq(|sorted|, i requires 0 <= i < |sorted| =>
        ShownSlot(sorted[i].title, SlotOrder(sorted[i]).value, MaskDrafts(sorted[i].meals, isAdmin))))
  }

  // ---- getSortedMealPlans ----

  /** The sort parameters of `getSortedMealPlans`: key "featured_date" and page size 25 by default. */
  function SortedMealPlansQuery(filterKey: Option<string>, direction: Option<string>, numPerPage: Num)
    : (r: General.SortQuery)
    ensures !StrTruthy(filterKey) ==> r.key == "featured_date"
    ensures StrTruthy(filterKey) ==> r.key == filterKey.value
    ensures r.direction == 1 <==> !StrTruthy(direction) || direction.value == "asc"
    ensures r.pageSize == if Truthy(numPerPage) then numPerPage.value else 25.0
  {
    General.SortedParams(filterKey, direction, numPerPage, "featured_date")
  }

  // ---- migratePlans ----

  datatype LegacyMeal = LegacyMeal(
    id: Option<string>, title: string, diet: Option<string>, isDairyFree: Option<bool>, isGlutenFree: Option<bool>)

  datatype MealDetails = MealDetails(diet: Option<string>, isDairyFree: Option<bool>, isGlutenFree: Option<bool>)

  /** A migrated meal: the legacy meal, its id possibly replaced, with the three flags copied into `details`. */
  datatype MigratedMeal = MigratedMeal(meal: LegacyMeal, details: MealDetails)

  datatype LegacySlot = LegacySlot(title: Option<string>, meals: seq<LegacyMeal>)

  datatype MigratedSlot = MigratedSlot(title: Option<string>, meals: seq<MigratedMeal>)

  datatype LegacyPlan = LegacyPlan(
    title: Option<string>,
    userId: Option<string>,
    isAdmin: Option<bool>,
    primaryImage: Option<string>,
    tags: Option<seq<string>>,
    plan: seq<LegacySlot>)

  /** A stored recipe as the migration sees it: its object id, its legacy `id` and its title. */
  datatype RecipeRef = RecipeRef(objectId: string, legacyId: Option<string>, title: string)

  /** A stored user: its object id and its legacy `id`. */
  datatype UserRef = UserRef(objectId: string, legacyId: Option<string>)

  datatype MigratedPlan = MigratedPlan(
    defaultShoppingList: string,
    title: Option<string>,
    owner: string,
    isAdminPlan: Option<bool>,
    primaryImage: Option<string>,
    planData: seq<MigratedSlot>,
    featuredDate: int,
    tags: Option<seq<string>>)

  /** Every migrated plan points at this one shopping list. */
  const DefaultShoppingList := "63fc5ec5a93cc61ac031b843"

  /** `recipes.find(...)`: the first recipe whose legacy id prints as the meal's id, or whose title is the meal's. */
  function FindRecipe(recipes: seq<RecipeRef>, id: string, title: string): (r: Option<RecipeRef>)
    ensures r.Some? ==> r.value in recipes && (Show(r.value.legacyId) == id || r.value.title == title)
    ensures r.None? ==> forall x :: x in recipes ==> Show(x.legacyId) != id && x.title != title
  {
    if |recipes| == 0 then None
    else if Show(recipes[0].legacyId) == id || recipes[0].title == title then Some(recipes[0])
    else FindRecipe(recipes[1..], id, title)
  }

  /** A meal: matched only when its id is truthy; a match replaces the id by the recipe's object id. */
  function MigrateMeal(recipes: seq<RecipeRef>, m: LegacyMeal): (r: MigratedMeal)
    ensures r.details == MealDetails(m.diet, m.isDairyFree, m.isGlutenFree)
    ensures r.meal.title == m.title && r.meal.diet == m.diet
    ensures r.meal.isDairyFree == m.isDairyFree && r.meal.isGlutenFree == m.isGlutenFree
    ensures r.meal.id != m.id ==> StrTruthy(m.id) && FindRecipe(recipes, m.id.value, m.title).Some?
    ensures StrTruthy(m.id) && FindRecipe(recipes, m.id.value, m.title).Some? ==>
      r.meal.id == Some(FindRecipe(recipes, m.id.value, m.title).value.objectId)
  {
    var recipe := if StrTruthy(m.id) then FindRecipe(recipes, m.id.value, m.title) else None;
    var meal := if recipe.Some? then m.(id := Some(recipe.value.objectId)) else m;
    MigratedMeal(meal, MealDetails(m.diet, m.isDairyFree, m.isGlutenFree))
  }

  function MigrateSlot(recipes: seq<RecipeRef>, s: LegacySlot): (r: MigratedSlot)
    ensures r.title == s.title && |r.meals| == |s.meals|
    ensures forall i :: 0 <= i < |s.meals| ==> r.meals[i] == MigrateMeal(recipes, s.meals[i])
  {
    MigratedSlot(s.title, seq(|s.meals|, i requires 0 <= i < |s.meals| => MigrateMeal(recipes, s.meals[i])))
  }

  /** `users.find(user => user.id === item.UserId?.toString())`: strict equality, so two absent ids match. */
  function FindUser(users: seq<UserRef>, userId: Option<string>): (r: Option<UserRef>)
    ensures r.Some? ==> r.value in users && r.value.legacyId == userId
    ensures r.None? ==> forall u :: u in users ==> u.legacyId != userId
  {
    if |users| == 0 then None
    else if users[0].legacyId == userId then Some(users[0])
    else FindUser(users[1..], userId)
  }

  /** One legacy plan: `None` when no user owns it. */
  function MigratePlan(recipes: seq<RecipeRef>, users: seq<UserRef>, now: int, p: LegacyPlan): (r: Option<MigratedPlan>)
    ensures r.Some? <==> FindUser(users, p.userId).Some?
    ensures r.Some? ==> r.value.owner == FindUser(users, p.userId).value.objectId
    ensures r.Some? ==> r.value.defaultShoppingList == DefaultShoppingList && r.value.featuredDate == now
    ensures r.Some? ==> r.value.tags == p.tags && r.value.title == p.title && r.value.isAdminPlan == p.isAdmin
    ensures r.Some? ==> r.value.primaryImage == p.primaryImage
    ensures r.Some? ==> |r.value.planData| == |p.plan|
    ensures r.Some? ==> forall i :: 0 <= i < |p.plan| ==> r.value.planData[i] == MigrateSlot(recipes, p.plan[i])
  {
    match FindUser(users, p.userId)
    case None => None
    case Some(u) =>
      Some(MigratedPlan(DefaultShoppingList, p.title, u.objectId, p.isAdmin, p.primaryImage,
        seq(|p.plan| , i requires 0 <= i < |p.plan| => MigrateSlot(recipes, p.plan[i])), now, p.tags))
  }

  /** `migratePlans`: the plans with an owner, migrated, in order. */
  function MigratePlans(recipes: seq<RecipeRef>, users: seq<UserRef>, now: int, plans: seq<LegacyPlan>)
    : (r: seq<MigratedPlan>)
    ensures |r| <= |plans|
    ensures forall q :: q in r <==> exists p :: p in plans && MigratePlan(recipes, users, now, p) == Some(q)
  {
    if |plans| == 0 then []
    else
      var rest := MigratePlans(recipes, users, now, plans[1..]);
      match MigratePlan(recipes, users, now, plans[0])
      case None => rest
      case Some(q) => [q] + rest
  }

  /** The number of plans whose owner exists. */
  function Owned(users: seq<UserRef>, plans: seq<LegacyPlan>): nat {
    if |plans| == 0 then 0
    else (if FindUser(users, plans[0].userId).Some? then 1 else 0) + Owned(users, plans[1..])
  }

  /** Exactly the owned plans survive the migration. */
  lemma {:induction false} MigrateKeepsOwned(recipes: seq<RecipeRef>, users: seq<UserRef>, now: int, plans: seq<LegacyPlan>)
    ensures |MigratePlans(recipes, users, now, plans)| == Owned(users, plans)
  {
    if |plans| > 0 {
      MigrateKeepsOwned(recipes, users, now, plans[1..]);
    }
  }
}

=== FILE: memberful.dfy ===
/**
 * Memberful membership rules: which subscription plans count as a current
 * membership (middleware/memberful.js), the user record written on sign-in,
 * and the permissions a member's plans grant (controllers/memberfulController.js).
 * The calls to Memberful and to the database are parameters.
 */
module Memberful {
  import opened Wrappers
  import opened Js
  import opened Errors
  import opened Models

  /** A Memberful subscription: whether it is active, and its plan's id. */
  datatype Subscription = Subscription(active: bool, planId: string)

  // ---- validSubscriptionIDs ----

  const LocalPlanIds: seq<string> := ["92789"]

  const LivePlanIds: seq<string> :=
    ["42846", "30418", "34878", "79422", "86977", "86978", "86980", "86981", "86979"]

  /** The plans that count as a membership: the test plan alone when `CUSTOM_ENV` is 'local'. */
  function ValidSubscriptionIds(env: Option<string>): (r: seq<string>)
    ensures "92789" in r <==> env == Some("local")
    ensures env != Some("local") ==> |r| == 9
    ensures forall id :: id in r ==> id in PlanMap
  {
    if env == Some("local") then LocalPlanIds else LivePlanIds
  }

  // ---- checkIfCurrentMember ----

  /** A subscription makes its member current when it is active and its plan is valid. */
  predicate Counts(s: Subscription, valid: seq<string>) {
    s.active && s.planId in valid
  }

  /** The `forEach` loop: the flag is raised by any counting subscription and never lowered. */
  function AnyCurrent(subs: seq<Subscription>, valid: seq<string>): (r: bool)
    ensures r <==> exists i :: 0 <= i < |subs| && Counts(subs[i], valid)
  {
    if |subs| == 0 then false
    else
      var p := subs[..|subs| - 1];
      var r := AnyCurrent(p, valid);
      assert forall i :: 0 <= i < |p| ==> p[i] == subs[i];
      r || Counts(subs[|subs| - 1], valid)
  }

  /** The order of the subscriptions does not matter. */
  lemma CurrentIgnoresOrder(a: seq<Subscription>, b: seq<Subscription>, valid: seq<string>)
    requires multiset(a) == multiset(b)
    ensures AnyCurrent(a, valid) == AnyCurrent(b, valid)
  {
    if AnyCurrent(a, valid) {
      var i :| 0 <= i < |a| && Counts(a[i], valid);
      assert a[i] in multiset(b);
      var j :| 0 <= j < |b| && b[j] == a[i];
    }
    if AnyCurrent(b, valid) {
      var j :| 0 <= j < |b| && Counts(b[j], valid);
      assert b[j] in multiset(a);
      var i :| 0 <= i < |a| && a[i] == b[j];
    }
  }

  /** A Memberful member record as returned by the API. */
  datatype MemberRoot = MemberRoot(
    id: Option<string>, fullName: Option<string>, email: Option<string>, subscriptions: Option<seq<Subscription>>)

  /** What `fetchMemberfulUserByEmail` and `fetchCurrentMemberfulUser` append to a rethrown error. */
  const FetchSuffix: string := ": Memberful Fetch Member"

  /**
   * `fetchMemberfulUserByEmail` and `fetchCurrentMemberfulUser`: the member the
   * API answers with, or none. A failed request, or an answer without data, is
   * rethrown as a plain `Error` whose message is the error's text followed by
   * ": Memberful Fetch Member".
   */
  function FetchMember(answer: Result<Option<MemberRoot>, Thrown>): (r: Result<Option<MemberRoot>, Thrown>)
    ensures r.Success? <==> answer.Success?
    ensures answer.Success? ==> r.value == answer.value
    ensures answer.Failure? ==> r.error.Plain? && r.error.message == ErrorText(answer.error) + FetchSuffix
  {
    match answer
    case Success(member) => Success(member)
    case Failure(e) => Failure(Plain(ErrorText(e) + FetchSuffix))
  }

  /**
   * `checkIfCurrentMember`: the caller's subscriptions when it has them, else the
   * subscriptions of the member fetched by email (none found: not current). A
   * failed fetch is rethrown; a fetched member without a subscription list throws.
   */
  function CheckIfCurrentMember(email: string, root: Option<MemberRoot>,
                                byEmail: string -> Result<Option<MemberRoot>, Thrown>,
                                env: Option<string>): (r: Result<bool, Thrown>)
    ensures root.Some? && root.value.subscriptions.Some? ==>
      r == Success(AnyCurrent(root.value.subscriptions.value, ValidSubscriptionIds(env)))
    ensures (root.None? || root.value.subscriptions.None?) && byEmail(email).Failure? ==>
      r == Failure(FetchMember(byEmail(email)).error)
    ensures (root.None? || root.value.subscriptions.None?) && byEmail(email) == Success(None) ==> r == Success(false)
    ensures (root.None? || root.value.subscriptions.None?) && byEmail(email).Success? && byEmail(email).value.Some? ==>
      var member := byEmail(email).value.value;
      (r.Failure? <==> member.subscriptions.None?) &&
      (r.Success? ==> r.value == AnyCurrent(member.subscriptions.value, ValidSubscriptionIds(env)))
  {
    var valid := ValidSubscriptionIds(env);
    if root.Some? && root.value.subscriptions.Some? then Success(AnyCurrent(root.value.subscriptions.value, valid))
    else
      match FetchMember(byEmail(email))
      case Failure(e) => Failure(e)
      case Success(None) => Success(false)
      case Success(Some(member)) =>
        if member.subscriptions.None? then Failure(Crashed(TypeError("forEach of undefined")))
        else Success(AnyCurrent(member.subscriptions.value, valid))
  }

  // ---- authenticateThroughMemberful ----

  /** The sign-in request: an email and password, or an authorisation code. */
  datatype Credentials = Credentials(email: Option<string>, password: Option<string>, authCode: Option<string>)

  /** The body of a successful answer of Memberful's token endpoint. */
  datatype TokenBody = TokenBody(accessToken: Option<string>)

  /**
   * `validateThroughMemberfulWithCredentials`: the token request's rejection
   * (a wrong password is answered with an error status, which rejects) is
   * rethrown as it is; a body with an access token is valid; any other body is
   * read as if it were the rejection (`member.response.data`) and throws. So the
   * check never reports an invalid password: it throws or succeeds.
   */
  function ValidateCredentials(token: Result<Option<TokenBody>, Thrown>): (r: Result<(), Thrown>)
    ensures token.Failure? ==> r == Failure(token.error)
    ensures token.Success? ==>
      (r.Success? <==> token.value.Some? && StrTruthy(token.value.value.accessToken))
    ensures token.Success? && r.Failure? ==> r.error.Crashed?
  {
    match token
    case Failure(e) => Failure(e)
    case Success(body) =>
      if body.Some? && StrTruthy(body.value.accessToken) then Success(())
      else if body.None? then Failure(Crashed(TypeError("access_token of undefined")))
      else Failure(Crashed(TypeError("data of undefined")))
  }

  /** `emailFromMemberfulAPI || email`. */
  function PreferApiEmail(apiEmail: Option<string>, email: Option<string>): (r: Option<string>)
    ensures StrTruthy(apiEmail) ==> r == apiEmail
    ensures !StrTruthy(apiEmail) ==> r == email
  {
    if StrTruthy(apiEmail) then apiEmail else email
  }

  /**
   * The record of a first sign-in: the member's id, name and email, the
   * membership result, and the fixed defaults.
   */
  function NewUser(objectId: string, root: MemberRoot, email: Option<string>, isCurrent: bool): (u: UserRecord)
    ensures u.objectId == objectId && u.memberfulId == root.id && u.name == root.fullName
    ensures u.email == PreferApiEmail(root.email, email) && u.isActive == isCurrent
    ensures u.avatar == Some("avatar.jpg")
    ensures !u.isAdmin && u.primaryDiet == "omnivore" && u.familySize == 1 && u.unitPreference == "imperial"
    ensures !u.isGlutenFree && !u.isDairyFree
    ensures u.favoriteRecipes == [] && u.bookmarkedRecipes == [] && u.shoppingLists == []
  {
    UserRecord(objectId, root.id, PreferApiEmail(root.email, email), Some("avatar.jpg"), root.fullName, isCurrent,
      false, "omnivore", 1, "imperial", false, false, [], [], [])
  }

  /**
   * The update of a returning user: the membership result, the preferred email
   * and the member's name. A field whose new value is undefined is left as it was.
   */
  function UpdatedUser(u: UserRecord, root: MemberRoot, email: Option<string>, isCurrent: bool): (r: UserRecord)
    ensures r.isActive == isCurrent
    ensures PreferApiEmail(root.email, email).Some? ==> r.email == PreferApiEmail(root.email, email)
    ensures root.fullName.Some? ==> r.name == root.fullName
    ensures r.(isActive := u.isActive, email := u.email, name := u.name) == u
  {
    var e := PreferApiEmail(root.email, email);
    u.(isActive := isCurrent, email := if e.Some? then e else u.email, name := if root.fullName.Some? then root.fullName else u.name)
  }

  /**
   * What Memberful answers during a sign-in: the token endpoint's answer to the
   * password grant and to the authorisation-code grant, the current member for
   * an access token, and the member for an email. Each is a body, no body, or
   * the error the request raised.
   */
  datatype MemberfulAnswers = MemberfulAnswers(
    password: Result<Option<TokenBody>, Thrown>,
    code: Result<Option<TokenBody>, Thrown>,
    byToken: Option<string> -> Result<Option<MemberRoot>, Thrown>,
    byEmail: string -> Result<Option<MemberRoot>, Thrown>)

  /**
   * The member a sign-in starts from. With an authorisation code the code is
   * exchanged for tokens (a failure is rethrown; no body fails to destructure)
   * and the current member is fetched with the access token; otherwise the
   * password is checked and the member is fetched by email.
   */
  function SignInMember(params: Credentials, answers: MemberfulAnswers): (r: Result<Option<MemberRoot>, Thrown>)
    ensures StrTruthy(params.authCode) && answers.code.Failure? ==> r == Failure(answers.code.error)
    ensures StrTruthy(params.authCode) && answers.code == Success(None) ==> r.Failure? && r.error.Crashed?
    ensures StrTruthy(params.authCode) && answers.code.Success? && answers.code.value.Some? ==>
      r == FetchMember(answers.byToken(answers.code.value.value.accessToken))
    ensures !StrTruthy(params.authCode) && ValidateCredentials(answers.password).Failure? ==>
      r == Failure(ValidateCredentials(answers.password).error)
    ensures !StrTruthy(params.authCode) && ValidateCredentials(answers.password).Success? ==>
      r == FetchMember(answers.byEmail(Show(params.email)))
  {
    if StrTruthy(params.authCode) then
      match answers.code
      case Failure(e) => Failure(e)
      case Success(None) => Failure(Crashed(TypeError("destructuring access_token of undefined")))
      case Success(Some(tokens)) => FetchMember(answers.byToken(tokens.accessToken))
    else
      match ValidateCredentials(answers.password)
      case Failure(e) => Failure(e)
      case Success(_) => FetchMember(answers.byEmail(Show(params.email)))
  }

  /**
   * `authenticateThroughMemberful`: the member is signed in, its membership is
   * checked, and the user found by the member's email is updated, or a new one
   * is created. The `BadRequest` for an invalid check is never reached, since
   * the check throws instead of reporting one.
   */
  function Authenticate(params: Credentials, answers: MemberfulAnswers, existing: Option<UserRecord>, newId: string,
                        env: Option<string>): (r: Result<UserRecord, Thrown>)
    ensures SignInMember(params, answers).Failure? ==> r == Failure(SignInMember(params, answers).error)
    ensures SignInMember(params, answers) == Success(None) ==> r.Failure? && r.error.Crashed?
    ensures !StrTruthy(params.authCode) && answers.password.Failure? ==> r == Failure(answers.password.error)
    ensures StrTruthy(params.authCode) && answers.code.Failure? ==> r == Failure(answers.code.error)
    ensures r.Success? && existing.None? ==>
      (r.value.objectId == newId && !r.value.isAdmin &&
       r.value.primaryDiet == "omnivore" && r.value.familySize == 1 && r.value.unitPreference == "imperial")
    ensures r.Success? && existing.Some? ==>
      r.value.(isActive := existing.value.isActive, email := existing.value.email, name := existing.value.name) == existing.value
  {
    match SignInMember(params, answers)
    case Failure(e) => Failure(e)
    case Success(root) =>
      if root.None? then Failure(Crashed(TypeError("destructuring a missing member")))
      else
        var lookup := Show(if StrTruthy(params.email) then params.email else root.value.email);
        match CheckIfCurrentMember(lookup, root, answers.byEmail, env)
        case Failure(e) => Failure(e)
        case Success(isCurrent) =>
          if existing.Some? then Success(UpdatedUser(existing.value, root.value, params.email, isCurrent))
          else Success(NewUser(newId, root.value, params.email, isCurrent))
  }

  /**
   * A failed member fetch ends the sign-in with a plain `Error` naming the
   * failure, whichever way the member was fetched.
   */
  lemma FetchFailureEndsSignIn(params: Credentials, answers: MemberfulAnswers, existing: Option<UserRecord>,
                               newId: string, env: Option<string>, cause: Thrown)
    requires StrTruthy(params.authCode) ==>
      answers.code.Success? && answers.code.value.Some? &&
      answers.byToken(answers.code.value.value.accessToken) == Failure(cause)
    requires !StrTruthy(params.authCode) ==>
      ValidateCredentials(answers.password).Success? && answers.byEmail(Show(params.email)) == Failure(cause)
    ensures Authenticate(params, answers, existing, newId, env) == Failure(Plain(ErrorText(cause) + FetchSuffix))
  {
  }

  /**
   * A password sign-in never ends in the `BadRequest` of an invalid password:
   * unless the token request itself was rejected with a `GeneralError`, no
   * `GeneralError` comes out at all.
   */
  lemma PasswordSignInNeverBadRequest(params: Credentials, answers: MemberfulAnswers, existing: Option<UserRecord>,
                                      newId: string, env: Option<string>)
    requires !StrTruthy(params.authCode)
    requires answers.password.Failure? ==> !answers.password.error.General?
    ensures var r := Authenticate(params, answers, existing, newId, env);
      r.Failure? ==> !r.error.General?
  {
  }

  /**
   * A password sign-in throws whenever the member fetched by email comes without
   * a subscription list: the membership check then fetches the same member again
   * and iterates over the missing list. The email query asks only for the id,
   * username, name and email, so this is the case for every password sign-in.
   */
  lemma PasswordSignInNeedsSubscriptions(params: Credentials, answers: MemberfulAnswers, existing: Option<UserRecord>,
                                         newId: string, env: Option<string>)
    requires !StrTruthy(params.authCode) && StrTruthy(params.email)
    requires var member := answers.byEmail(params.email.value);
      member.Success? && member.value.Some? && member.value.value.subscriptions.None?
    ensures Authenticate(params, answers, existing, newId, env).Failure?
  {
  }

  // ---- memberfulController.js: permissionCheck ----

  /** What a plan lets its member do. */
  datatype Permissions = Permissions(title: string, hasMealPlanner: bool, hasShoppingListEditor: bool,
                                     hasMealPlanArchives: bool)

  function Pro(title: string): Permissions {
    Permissions(title, true, true, true)
  }

  function Basic(title: string): Permissions {
    Permissions(title, false, false, false)
  }

  /** `memberfulPlanMap`. */
  const PlanMap: map<string, Permissions> := map[
    "42846" := Pro("WWL Meal Prep Program 1 Year"),
    "30418" := Pro("The WWL Meal Prep Program"),
    "34878" := Pro("WWL Meal Prep Program 6 Months"),
    "79422" := Basic("Basic 12 Month"),
    "86977" := Basic("Basic - Yearly Gift"),
    "86978" := Basic("Basic - Monthly"),
    "86980" := Pro("Pro - 12 month"),
    "86981" := Pro("Pro - Yearly Gift"),
    "86979" := Pro("Pro - Monthly"),
    "92789" := Pro("Pro - Monthly")]

  const BasicPlanIds: set<string> := {"79422", "86977", "86978"}

  /** The permissions a member without an active subscription gets. */
  const DefaultPermissions: Permissions := Basic("Basic - Monthly")

  /** `memberfulPlanMap[planId]`; an unknown plan gives `undefined`. */
  function PlanOf(planId: string): (r: Option<Permissions>)
    ensures r.Some? <==> planId in PlanMap
    ensures r.Some? ==> r.value.hasMealPlanner == r.value.hasShoppingListEditor == r.value.hasMealPlanArchives
    ensures r.Some? ==> (r.value.hasMealPlanner <==> planId !in BasicPlanIds)
  {
    if planId in PlanMap then PlanTable(planId); Some(PlanMap[planId]) else None
  }

  /** In every plan the three flags agree, and they are off exactly for the Basic plans. */
  lemma PlanTable(id: string)
    requires id in PlanMap
    ensures var p := PlanMap[id];
      p.hasMealPlanner == p.hasShoppingListEditor == p.hasMealPlanArchives
    ensures PlanMap[id].hasMealPlanner <==> id !in BasicPlanIds
  {
  }

  /**
   * The loop of `permissionCheck` over any plan lookup: every active
   * subscription replaces the permissions with those of its plan; inactive ones
   * leave them alone.
   */
  function Replay(subs: seq<Subscription>, plans: string -> Option<Permissions>): (r: Option<Permissions>)
    ensures (forall i :: 0 <= i < |subs| ==> !subs[i].active) ==> r == Some(DefaultPermissions)
    ensures r == Some(DefaultPermissions) || exists i :: 0 <= i < |subs| && subs[i].active && r == plans(subs[i].planId)
  {
    if |subs| == 0 then Some(DefaultPermissions)
    else
      var p := subs[..|subs| - 1];
      var s := subs[|subs| - 1];
      if s.active then plans(s.planId)
      else
        var r := Replay(p, plans);
        assert forall i :: 0 <= i < |p| ==> p[i] == subs[i];
        r
  }

  /** `permissionCheck`: the loop over `memberfulPlanMap`. */
  function PermissionCheck(subs: seq<Subscription>): (r: Option<Permissions>)
    ensures (forall i :: 0 <= i < |subs| ==> !subs[i].active) ==> r == Some(DefaultPermissions)
    ensures r.Some? ==> r.value.hasMealPlanner == r.value.hasShoppingListEditor == r.value.hasMealPlanArchives
  {
    Replay(subs, PlanOf)
  }

  /** The last active subscription decides: its plan's permissions, or `undefined` for an unknown plan. */
  lemma LastActiveDecides(subs: seq<Subscription>, k: nat)
    requires k < |subs| && subs[k].active
    requires forall j :: k < j < |subs| ==> !subs[j].active
    ensures PermissionCheck(subs) == PlanOf(subs[k].planId)
  {
    ReplayLastActive(subs, PlanOf, k);
  }

  lemma {:induction false} ReplayLastActive(subs: seq<Subscription>, plans: string -> Option<Permissions>, k: nat)
    requires k < |subs| && subs[k].active
    requires forall j :: k < j < |subs| ==> !subs[j].active
    ensures Replay(subs, plans) == plans(subs[k].planId)
  {
    if k < |subs| - 1 {
      ReplayLastActive(subs[..|subs| - 1], plans, k);
    }
  }

  /** An inactive subscription changes nothing, wherever it sits. */
  lemma InactiveChangesNothing(a: seq<Subscription>, s: Subscription, b: seq<Subscription>)
    requires !s.active
    ensures PermissionCheck(a + [s] + b) == PermissionCheck(a + b)
  {
    ReplayInactive(a, s, b, PlanOf);
  }

  lemma {:induction false} ReplayInactive(a: seq<Subscription>, s: Subscription, b: seq<Subscription>,
                                          plans: string -> Option<Permissions>)
    requires !s.active
    ensures Replay(a + [s] + b, plans) == Replay(a + b, plans)
  {
    var x, y := a + [s] + b, a + b;
    ReplayStep(x, plans);
    if |b| == 0 {
      assert x[..|x| - 1] == a;
      assert y == a;
    } else {
      var b' := b[..|b| - 1];
      ReplayStep(y, plans);
      assert x[|x| - 1] == b[|b| - 1] == y[|y| - 1];
      assert x[..|x| - 1] == a + [s] + b';
      assert y[..|y| - 1] == a + b';
      ReplayInactive(a, s, b', plans);
    }
  }

  /** One step of the loop: the last subscription, if active, decides; otherwise it is skipped. */
  lemma ReplayStep(subs: seq<Subscription>, plans: string -> Option<Permissions>)
    requires |subs| > 0
    ensures Replay(subs, plans) ==
      if subs[|subs| - 1].active then plans(subs[|subs| - 1].planId) else Replay(subs[..|subs| - 1], plans)
  {
  }

  /**
   * A member whose last active subscription is one of the valid plans always
   * gets permissions: every valid plan id is in the plan table.
   */
  lemma CurrentPlanHasPermissions(subs: seq<Subscription>, k: nat, env: Option<string>)
    requires k < |subs| && Counts(subs[k], ValidSubscriptionIds(env))
    requires forall j :: k < j < |subs| ==> !subs[j].active
    ensures PermissionCheck(subs).Some?
  {
    LastActiveDecides(subs, k);
  }
}

=== FILE: models.dfy ===
/**
 * Record shapes of the stored documents the core reads (models/ingredientModel.js,
 * models/recipeModel.js, models/mealplanModel.js,
 * models/userModel.js). Absent optional fields are `None`.
 */
module Models {
  import opened Wrappers
  import opened Js

  /** An ingredient document. */
  datatype IngredientDoc = IngredientDoc(
    id: string,
    title: string,
    category: string,
    measurementType: Option<string>,
    imperialBaseQty: Num,
    imperialBaseUnit: Option<string>,
    imperialShoppingQty: Num,
    imperialShoppingUnit: Option<string>,
    metricBaseQty: Num,
    metricBaseUnit: Option<string>,
    metricShoppingQty: Num,
    metricShoppingUnit: Option<string>)

  /**
   * One entry of a recipe's `<diet>_ingredients` list: the ingredient it refers to,
   * the amount the recipe asks for, and the optional extras.
   */
  datatype RecipeIngredient = RecipeIngredient(
    ingredientId: string,
    qty: Num,
    measurement: Option<string>,
    notes: Option<string>,
    substituteId: Option<string>,
    kind: Option<string>)

  /**
   * The projection of a recipe the shopping list works from: its ingredient lists,
   * keyed by field name (`omnivore_ingredients`, `dairy_free_ingredients`, ...).
   */
  datatype Recipe = Recipe(
    id: string,
    title: string,
    servings: Num,
    lists: map<string, seq<RecipeIngredient>>)

  /** A meal placed in a slot of a plan. */
  datatype PlannedMeal = PlannedMeal(id: string, title: string, isDraft: Option<bool>)

  /** One time slot of a plan ("Breakfast", "Lunch", ...) with its meals. */
  datatype PlanSlot = PlanSlot(title: Option<string>, meals: seq<PlannedMeal>)

  /** A meal-plan document. */
  datatype MealPlanDoc = MealPlanDoc(id: string, owner: string, title: string, planData: seq<PlanSlot>, tags: seq<string>)

  /** A user document (models/userModel.js); ids are kept in their string form. */
  datatype UserRecord = UserRecord(
    objectId: string,
    memberfulId: Option<string>,
    email: Option<string>,
    avatar: Option<string>,
    name: Option<string>,
    isActive: bool,
    isAdmin: bool,
    primaryDiet: string,
    familySize: int,
    unitPreference: string,
    isGlutenFree: bool,
    isDairyFree: bool,
    favoriteRecipes: seq<string>,
    bookmarkedRecipes: seq<string>,
    shoppingLists: seq<string>)
}

=== FILE: recipes.dfy ===
/**
 * The pure rules of controllers/recipeController.js: how `getSortedRecipes` turns
 * the search tags into match clauses, the `recipesRatings` summary, the diet
 * selection of `getRecipeById`, and the record mapping of `migrateRecipes`.
 */
module Recipes {
  import opened Wrappers
  import opened Js
  import Text
  import Seqs
  import IngredientConversion
  import opened Models

  // ---- Search tags of getSortedRecipes ----

  /** A search tag from the request body: its text and its type. */
  datatype SearchTag = SearchTag(tag: string, kind: Option<string>)

  /**
   * What the loop over the search tags collects: the text tags (regexes), the
   * recipe titles of matching meal plans, the ingredient ids of matching
   * ingredients, and the ingredient tags that matched no ingredient.
   */
  datatype Search = Search(
    tags: seq<string>, titles: seq<string>, ingredientIds: seq<string>, searchTitles: bool, unmatched: seq<string>)

  /** One pass of the `switch` on a search tag's type; unknown types count as text tags. */
  function Step(s: Search, t: SearchTag, planTitles: string -> seq<string>, ingredientsTitled: string -> seq<string>)
    : Search
  {
    if t.kind == Some("mealplan") then s.(titles := Text.NonBlank(s.titles + planTitles(t.tag)))
    else if t.kind == Some("ingredient") then
      var found := ingredientsTitled(t.tag);
      if |found| > 0 then s.(ingredientIds := Seqs.Distinct(s.ingredientIds + found))
      else s.(searchTitles := true, unmatched := s.unmatched + [t.tag])
    else s.(tags := s.tags + [t.tag])
  }

  function Classify(tags: seq<SearchTag>, planTitles: string -> seq<string>, ingredientsTitled: string -> seq<string>)
    : Search
  {
    if |tags| == 0 then Search([], [], [], false, [])
    else Step(Classify(tags[..|tags| - 1], planTitles, ingredientsTitled), tags[|tags| - 1], planTitles, ingredientsTitled)
  }

  predicate IsTextTag(t: SearchTag) {
    t.kind != Some("mealplan") && t.kind != Some("ingredient")
  }

  /** The texts of the tags of type 'recipe' or of an unknown type, in order. */
  function TextTags(tags: seq<SearchTag>): seq<string> {
    if |tags| == 0 then []
    else TextTags(tags[..|tags| - 1]) + (if IsTextTag(tags[|tags| - 1]) then [tags[|tags| - 1].tag] else [])
  }

  /** Every title any meal-plan tag finds, in order. */
  function PlanTitles(tags: seq<SearchTag>, planTitles: string -> seq<string>): seq<string> {
    if |tags| == 0 then []
    else
      PlanTitles(tags[..|tags| - 1], planTitles) +
      (if tags[|tags| - 1].kind == Some("mealplan") then planTitles(tags[|tags| - 1].tag) else [])
  }

  /** Every ingredient id any ingredient tag finds, in order. */
  function FoundIds(tags: seq<SearchTag>, ingredientsTitled: string -> seq<string>): seq<string> {
    if |tags| == 0 then []
    else
      FoundIds(tags[..|tags| - 1], ingredientsTitled) +
      (if tags[|tags| - 1].kind == Some("ingredient") then ingredientsTitled(tags[|tags| - 1].tag) else [])
  }

  /** The ingredient tags no ingredient has as its title, in order. */
  function Unmatched(tags: seq<SearchTag>, ingredientsTitled: string -> seq<string>): seq<string> {
    if |tags| == 0 then []
    else
      var t := tags[|tags| - 1];
      Unmatched(tags[..|tags| - 1], ingredientsTitled) +
      (if t.kind == Some("ingredient") && |ingredientsTitled(t.tag)| == 0 then [t.tag] else [])
  }

  /** The loop keeps the text tags, in order. */
  lemma {:induction false} ClassifyTags(tags: seq<SearchTag>, planTitles: string -> seq<string>,
                                        ingredientsTitled: string -> seq<string>)
    ensures Classify(tags, planTitles, ingredientsTitled).tags == TextTags(tags)
  {
    if |tags| > 0 {
      ClassifyTags(tags[..|tags| - 1], planTitles, ingredientsTitled);
    }
  }

  /** The loop keeps the non-empty meal-plan titles, in order: filtering after each tag is filtering once. */
  lemma {:induction false} ClassifyTitles(tags: seq<SearchTag>, planTitles: string -> seq<string>,
                                          ingredientsTitled: string -> seq<string>)
    ensures Classify(tags, planTitles, ingredientsTitled).titles == Text.NonBlank(PlanTitles(tags, planTitles))
  {
    if |tags| > 0 {
      var p := tags[..|tags| - 1];
      var t := tags[|tags| - 1];
      var prev := Classify(p, planTitles, ingredientsTitled);
      ClassifyTitles(p, planTitles, ingredientsTitled);
      var a := PlanTitles(p, planTitles);
      assert Classify(tags, planTitles, ingredientsTitled) == Step(prev, t, planTitles, ingredientsTitled);
      if t.kind == Some("mealplan") {
        var x := planTitles(t.tag);
        assert PlanTitles(tags, planTitles) == a + x;
        Text.NonBlankAppend(Text.NonBlank(a), x);
        Text.NonBlankAppend(a, x);
        Text.NonBlankTwice(a);
      } else {
        assert PlanTitles(tags, planTitles) == a + [];
        assert a + [] == a;
      }
    }
  }

  /**
   * The loop keeps the ingredient ids found, without duplicates and in order of
   * first occurrence: de-duplicating after each tag is de-duplicating once.
   */
  lemma {:induction false} ClassifyIds(tags: seq<SearchTag>, planTitles: string -> seq<string>,
                                       ingredientsTitled: string -> seq<string>)
    ensures Classify(tags, planTitles, ingredientsTitled).ingredientIds == Seqs.Distinct(FoundIds(tags, ingredientsTitled))
  {
    if |tags| > 0 {
      var p := tags[..|tags| - 1];
      var t := tags[|tags| - 1];
      var prev := Classify(p, planTitles, ingredientsTitled);
      ClassifyIds(p, planTitles, ingredientsTitled);
      var a := FoundIds(p, ingredientsTitled);
      assert Classify(tags, planTitles, ingredientsTitled) == Step(prev, t, planTitles, ingredientsTitled);
      if t.kind == Some("ingredient") {
        var x := ingredientsTitled(t.tag);
        assert FoundIds(tags, ingredientsTitled) == a + x;
        if |x| > 0 {
          Seqs.DistinctAppend(a, x);
        } else {
          assert a + x == a;
        }
      } else {
        assert FoundIds(tags, ingredientsTitled) == a + [];
        assert a + [] == a;
      }
    }
  }

  /** The unmatched ingredient tags, in order, and they alone switch on the title search. */
  lemma {:induction false} ClassifyUnmatched(tags: seq<SearchTag>, planTitles: string -> seq<string>,
                                             ingredientsTitled: string -> seq<string>)
    ensures Classify(tags, planTitles, ingredientsTitled).unmatched == Unmatched(tags, ingredientsTitled)
    ensures Classify(tags, planTitles, ingredientsTitled).searchTitles <==> |Unmatched(tags, ingredientsTitled)| > 0
  {
    if |tags| > 0 {
      ClassifyUnmatched(tags[..|tags| - 1], planTitles, ingredientsTitled);
    }
  }

  /**
   * The tag filter: an element survives when no later element has the same
   * `$regex` and `$options`. Every text tag has the options 'i', so this keeps the
   * last occurrence of each text.
   */
  function FinalTags(s: Search): (r: seq<string>)
    ensures Seqs.NoDup(r)
    ensures forall x :: x in r <==> x in s.tags
  {
    Seqs.KeepLastMembers(s.tags);
    Seqs.KeepLast(s.tags)
  }

  /** The remaining tags keep the order of their last occurrences. */
  lemma FinalTagsOrder(s: Search, i: nat, j: nat)
    requires i < j < |FinalTags(s)|
    ensures FinalTags(s)[i] in s.tags && FinalTags(s)[j] in s.tags
    ensures Seqs.LastIndex(s.tags, FinalTags(s)[i]) < Seqs.LastIndex(s.tags, FinalTags(s)[j])
  {
    Seqs.KeepLastOrder(s.tags, i, j);
  }

  /** A clause of the `$and` match. */
  datatype Clause =
    | TitleMatchesAny(patterns: seq<string>)
    | TagOrTitle(tag: string)
    | AllIngredients(ids: seq<string>)
    | TitleIn(titles: seq<string>)

  /**
   * The `$and` clauses: the title search for unmatched ingredients when switched
   * on, one clause per final text tag, the `$all` ingredient clause only when
   * some id was found, and the meal-plan title clause only when some title was.
   */
  function Clauses(s: Search): (r: seq<Clause>)
    ensures |r| == (if s.searchTitles then 1 else 0) + |FinalTags(s)| +
      (if |s.ingredientIds| > 0 then 1 else 0) + (if |s.titles| > 0 then 1 else 0)
    ensures forall t :: TagOrTitle(t) in r <==> t in s.tags
    ensures AllIngredients(s.ingredientIds) in r <==> |s.ingredientIds| > 0
    ensures (exists c :: c in r && c.AllIngredients?) <==> |s.ingredientIds| > 0
    ensures TitleMatchesAny(s.unmatched) in r <==> s.searchTitles
    ensures TitleIn(s.titles) in r <==> |s.titles| > 0
    ensures (exists c :: c in r && c.TitleIn?) <==> |s.titles| > 0
  {
    var tags := FinalTags(s);
    var perTag := seq(|tags|, i requires 0 <= i < |tags| => TagOrTitle(tags[i]));
    assert forall t :: TagOrTitle(t) in perTag <==> t in tags by {
      forall t | t in tags ensures TagOrTitle(t) in perTag {
        var i :| 0 <= i < |tags| && tags[i] == t;
        assert perTag[i] == TagOrTitle(t);
      }
    }
    (if s.searchTitles then [TitleMatchesAny(s.unmatched)] else []) + perTag +
    (if |s.ingredientIds| > 0 then [AllIngredients(s.ingredientIds)] else []) +
    (if |s.titles| > 0 then [TitleIn(s.titles)] else [])
  }

  // ---- recipesRatings ----

  function Sum(scores: seq<real>): real {
    if |scores| == 0 then 0.0 else Sum(scores[..|scores| - 1]) + scores[|scores| - 1]
  }

  datatype RatingSummary = RatingSummary(totalRatings: nat, averageRating: real)

  /** `recipesRatings` for one recipe: the count and mean of its scores, or 0 and 4.5 when it has none. */
  function RecipeRatings(scores: seq<real>): (r: RatingSummary)
    ensures r.totalRatings == |scores|
    ensures |scores| == 0 ==> r.averageRating == 4.5
    ensures |scores| > 0 ==> r.averageRating * (|scores| as real) == Sum(scores)
  {
    if |scores| == 0 then RatingSummary(0, 4.5)
    else RatingSummary(|scores|, Sum(scores) / (|scores| as real))
  }

  lemma {:induction false} SumBounds(scores: seq<real>, lo: real, hi: real)
    requires forall i :: 0 <= i < |scores| ==> lo <= scores[i] <= hi
    ensures lo * (|scores| as real) <= Sum(scores) <= hi * (|scores| as real)
  {
    if |scores| > 0 {
      SumBounds(scores[..|scores| - 1], lo, hi);
    }
  }

  /** The average lies between the lowest and the highest score. */
  lemma AverageBetween(scores: seq<real>, lo: real, hi: real)
    requires |scores| > 0
    requires forall i :: 0 <= i < |scores| ==> lo <= scores[i] <= hi
    ensures lo <= RecipeRatings(scores).averageRating <= hi
  {
    SumBounds(scores, lo, hi);
    var n := |scores| as real;
    var avg := RecipeRatings(scores).averageRating;
    assert avg * n == Sum(scores);
    assert lo * n <= avg * n <= hi * n;
    ScaleBack(lo, avg, hi, n);
  }

  lemma ScaleBack(lo: real, x: real, hi: real, n: real)
    requires n > 0.0 && lo * n <= x * n <= hi * n
    ensures lo <= x <= hi
  {
  }

  // ---- getRecipeById ----

  /** The requesting user as `getRecipeById` reads it. */
  datatype Viewer = Viewer(isAdmin: Option<bool>, unitPreference: Option<string>)

  /** A stored recipe: the per-diet instructions and ingredient lists, keyed by diet. */
  datatype StoredRecipe = StoredRecipe(
    id: string,
    isDraft: Option<bool>,
    instructions: map<string, string>,
    ingredients: map<string, seq<RecipeIngredient>>)

  datatype DefaultIngredients = AsStored(lines: seq<RecipeIngredient>) | InMetric(converted: seq<IngredientConversion.ViewLine>)

  /**
   * The recipe as sent: the chosen diet's fields moved to `default_instructions`
   * and `default_ingredients`. Only the chosen diet's fields are read, and both are
   * deleted after the move, so no per-diet field remains.
   */
  datatype RecipeView = RecipeView(id: string, defaultInstructions: Option<string>, defaultIngredients: Option<DefaultIngredients>)

  datatype ViewError = NotFound | Thrown(crash: Crash)

  /** `req.query.diet || 'omnivore'`. */
  function DietOf(diet: Option<string>): string {
    StrOr(diet, "omnivore")
  }

  /** `user?.unit_preference?.toLowerCase() || 'imperial'`. */
  function PreferenceOf(v: Viewer): (r: string)
    ensures r == "metric" <==> v.unitPreference.Some? && Text.Lower(v.unitPreference.value) == "metric"
  {
    if StrTruthy(v.unitPreference) then Text.Lower(v.unitPreference.value) else "imperial"
  }

  /**
   * `getRecipeById`: a missing user throws; a missing recipe, or a recipe that is
   * not explicitly published for a user who is not an admin, is 404; otherwise the
   * chosen diet's lists are the defaults, converted to metric only for a user who
   * prefers metric.
   */
  function GetRecipeById(user: Option<Viewer>, diet: Option<string>, recipe: Option<StoredRecipe>,
                         byId: map<string, IngredientDoc>): (r: Result<RecipeView, ViewError>)
    ensures user.None? ==> r.Failure? && r.error.Thrown?
    ensures user.Some? && recipe.None? ==> r == Failure(NotFound)
    ensures user.Some? && recipe.Some? && user.value.isAdmin != Some(true) && recipe.value.isDraft != Some(false) ==>
      r == Failure(NotFound)
    ensures r.Success? ==> recipe.Some? && r.value.id == recipe.value.id
    ensures r.Success? ==>
      var d := DietOf(diet);
      (r.value.defaultInstructions.Some? <==> d in recipe.value.instructions) &&
      (d in recipe.value.instructions ==> r.value.defaultInstructions.value == recipe.value.instructions[d])
    ensures r.Success? && PreferenceOf(user.value) != "metric" ==>
      var d := DietOf(diet);
      r.value.defaultIngredients == if d in recipe.value.ingredients then Some(AsStored(recipe.value.ingredients[d])) else None
    ensures r.Success? && PreferenceOf(user.value) == "metric" ==>
      var d := DietOf(diet);
      d in recipe.value.ingredients &&
      IngredientConversion.ConvertAll(recipe.value.ingredients[d], byId).Success? &&
      r.value.defaultIngredients == Some(InMetric(IngredientConversion.ConvertAll(recipe.value.ingredients[d], byId).value))
  {
    if user.None? then Failure(Thrown(TypeError("is_admin of null")))
    else if recipe.None? || (user.value.isAdmin != Some(true) && recipe.value.isDraft != Some(false)) then
      Failure(NotFound)
    else
      var rec := recipe.value;
      var d := DietOf(diet);
      var instructions := if d in rec.instructions then Some(rec.instructions[d]) else None;
      if PreferenceOf(user.value) == "metric" then
        if d !in rec.ingredients then Failure(Thrown(TypeError("length of undefined")))
        else
          match IngredientConversion.ConvertAll(rec.ingredients[d], byId)
          case Failure(e) => Failure(Thrown(e))
          case Success(lines) => Success(RecipeView(rec.id, instructions, Some(InMetric(lines))))
      else
        Success(RecipeView(rec.id, instructions, if d in rec.ingredients then Some(AsStored(rec.ingredients[d])) else None))
  }

  // ---- migrateRecipes ----

  /** The four per-diet instruction texts of a recipe, each possibly absent. */
  datatype DietInstructions = DietInstructions(
    dairyFree: Option<string>,
    omnivore: Option<string>,
    vegan: Option<string>,
    vegetarian: Option<string>)

  /** A recipe of the legacy export. */
  datatype LegacyRecipe = LegacyRecipe(
    id: string,
    title: string,
    reviewed: Option<bool>,
    isDraft: Option<bool>,
    isPublic: Option<bool>,
    publishedDate: Option<string>,
    primaryImage: Option<string>,
    description: Option<string>,
    instructions: DietInstructions,
    prepTime: Num,
    cookTime: Num,
    servings: Num,
    tags: Option<string>)

  /** A legacy id as the export holds it: a JSON number or a JSON string. */
  datatype LegacyId = NumberId(n: real) | TextId(t: string)

  /** A line of a legacy ingredient list; `id` is the ingredient's legacy id. */
  datatype LegacyLine = LegacyLine(id: LegacyId, qty: Num, measurement: Option<string>)

  /** One legacy ingredient list: the recipe it belongs to, its diet, and its lines. */
  datatype LegacyList = LegacyList(recipeId: string, diet: string, data: seq<LegacyLine>)

  /** A stored ingredient as the migration sees it: `old_id` is a Number field, so it holds a number or nothing. */
  datatype IngredientRef = IngredientRef(objectId: string, oldId: Num)

  /** `old_id === id`: strict equality, so a number never equals a string and an absent `old_id` equals nothing. */
  predicate SameOldId(oldId: Num, id: LegacyId) {
    id.NumberId? && oldId == Some(id.n)
  }

  /** A migrated line: the line with its id replaced by the stored ingredient's object id, if any. */
  datatype MigratedLine = MigratedLine(id: Option<string>, qty: Num, measurement: Option<string>)

  datatype MigratedRecipe = MigratedRecipe(
    id: string,
    title: string,
    isReviewed: Option<bool>,
    isDraft: Option<bool>,
    isPublic: Option<bool>,
    publishDate: Option<string>,
    primaryImage: Option<string>,
    description: string,
    instructions: DietInstructions,
    averageRating: real,
    totalRatings: nat,
    lists: map<string, seq<MigratedLine>>,
    prepTime: Num,
    cookTime: Num,
    servings: Num,
    tags: Option<seq<string>>)

  /** The ingredient-list field each legacy diet name fills. */
  function DietField(diet: string): Option<string> {
    if diet == "dairyFree" then Some("dairy_free_ingredients")
    else if diet == "omnivore" then Some("omnivore_ingredients")
    else if diet == "vegan" then Some("vegan_ingredients")
    else if diet == "vegetarian" then Some("vegetarian_ingredients")
    else None
  }

  const ListFields: seq<string> :=
    ["dairy_free_ingredients", "omnivore_ingredients", "vegan_ingredients", "vegetarian_ingredients"]

  /** `allIngredients.find(i => i.old_id === id)?._id`. */
  function FindByOldId(ingredients: seq<IngredientRef>, id: LegacyId): (r: Option<string>)
    ensures r.Some? ==> exists g :: g in ingredients && SameOldId(g.oldId, id) && g.objectId == r.value
    ensures r.None? ==> forall g :: g in ingredients ==> !SameOldId(g.oldId, id)
    ensures id.TextId? ==> r.None?
  {
    if |ingredients| == 0 then None
    else if SameOldId(ingredients[0].oldId, id) then Some(ingredients[0].objectId)
    else FindByOldId(ingredients[1..], id)
  }

  function MigrateLines(ingredients: seq<IngredientRef>, data: seq<LegacyLine>): (r: seq<MigratedLine>)
    ensures |r| == |data|
    ensures forall i :: 0 <= i < |data| ==>
      r[i] == MigratedLine(FindByOldId(ingredients, data[i].id), data[i].qty, data[i].measurement)
  {
    seq(|data|, i requires 0 <= i < |data| => MigratedLine(FindByOldId(ingredients, data[i].id), data[i].qty, data[i].measurement))
  }

  /**
   * The lists of one recipe: every list of the recipe whose diet names a field
   * overwrites that field, so the last such list of each diet wins; the other
   * fields stay empty.
   */
  function ListsOf(recipeId: string, lists: seq<LegacyList>, ingredients: seq<IngredientRef>)
    : (r: map<string, seq<MigratedLine>>)
    ensures r.Keys == set f | f in ListFields
  {
    if |lists| == 0 then map f | f in ListFields :: []
    else
      var r := ListsOf(recipeId, lists[..|lists| - 1], ingredients);
      var l := lists[|lists| - 1];
      if l.recipeId == recipeId && DietField(l.diet).Some? then
        assert DietField(l.diet).value in ListFields;
        r[DietField(l.diet).value := MigrateLines(ingredients, l.data)]
      else r
  }

  /** The field of one diet after migration: the last list of that recipe and diet, or empty. */
  lemma {:induction false} LastListWins(recipeId: string, lists: seq<LegacyList>, ingredients: seq<IngredientRef>, diet: string)
    requires DietField(diet).Some?
    ensures var field := DietField(diet).value;
      field in ListsOf(recipeId, lists, ingredients) &&
      (forall i :: 0 <= i < |lists| ==> !(lists[i].recipeId == recipeId && lists[i].diet == diet)) ==>
        ListsOf(recipeId, lists, ingredients)[field] == []
    ensures forall k :: (0 <= k < |lists| && lists[k].recipeId == recipeId && lists[k].diet == diet &&
      (forall j :: k < j < |lists| ==> !(lists[j].recipeId == recipeId && lists[j].diet == diet))) ==>
        ListsOf(recipeId, lists, ingredients)[DietField(diet).value] == MigrateLines(ingredients, lists[k].data)
  {
    if |lists| > 0 {
      var p := lists[..|lists| - 1];
      LastListWins(recipeId, p, ingredients, diet);
      var l := lists[|lists| - 1];
      forall k | 0 <= k < |lists| - 1
        ensures p[k] == lists[k]
      {
      }
      if l.recipeId == recipeId && DietField(l.diet).Some? && l.diet != diet {
        DietFieldsDiffer(l.diet, diet);
      }
    }
  }

  lemma DietFieldsDiffer(a: string, b: string)
    requires DietField(a).Some? && DietField(b).Some? && a != b
    ensures DietField(a).value != DietField(b).value
  {
  }

  /**
   * `migrateRecipes` for one recipe: tags split on ',' and trimmed, the default
   * description, cook time 15 and one serving when absent or zero, and the fixed
   * rating placeholders.
   */
  function MigrateRecipe(item: LegacyRecipe, lists: seq<LegacyList>, ingredients: seq<IngredientRef>)
    : (r: MigratedRecipe)
    ensures r.id == item.id && r.title == item.title
    ensures r.isReviewed == item.reviewed && r.isDraft == item.isDraft && r.isPublic == item.isPublic
    ensures r.publishDate == item.publishedDate && r.primaryImage == item.primaryImage
    ensures r.instructions == item.instructions
    ensures r.description == (if StrTruthy(item.description) then item.description.value else "No description available")
    ensures r.cookTime == (if Truthy(item.cookTime) then item.cookTime else Some(15.0))
    ensures r.servings == (if Truthy(item.servings) then item.servings else Some(1.0))
    ensures r.averageRating == 4.5 && r.totalRatings == 10
    ensures item.tags.None? <==> r.tags.None?
    ensures item.tags.Some? ==> |r.tags.value| == |Text.Split(item.tags.value, ',')|
    ensures item.tags.Some? ==> forall i :: 0 <= i < |r.tags.value| ==>
      r.tags.value[i] == Text.Trim(Text.Split(item.tags.value, ',')[i])
    ensures r.lists == ListsOf(item.id, lists, ingredients)
    ensures r.lists.Keys == set f | f in ListFields
    ensures r.prepTime == item.prepTime
  {
    var tags := if item.tags.None? then None
      else
        var parts := Text.Split(item.tags.value, ',');
        Some(seq(|parts|, i requires 0 <= i < |parts| => Text.Trim(parts[i])));
    MigratedRecipe(item.id, item.title, item.reviewed, item.isDraft, item.isPublic, item.publishedDate, item.primaryImage,
      StrOr(item.description, "No description available"), item.instructions, 4.5, 10,
      ListsOf(item.id, lists, ingredients), item.prepTime, Or(item.cookTime, Some(15.0)), Or(item.servings, Some(1.0)), tags)
  }
}

=== FILE: s3.dfy ===
/**
 * `uploadImage` (middleware/s3.js): the object key derived from the file name
 * and the public address returned once the object is stored. The storage call
 * itself is a parameter: the error it reports, if any.
 */
module S3 {
  import opened Wrappers
  import opened Js

  /** Characters a key may not keep: the space and the dot. */
  predicate Replaced(c: char) {
    c == ' ' || c == '.'
  }

  /** Every space and every dot becomes an underscore; nothing else changes. */
  function Sanitize(name: string): (r: string)
    ensures |r| == |name|
    ensures forall i :: 0 <= i < |name| ==> (Replaced(name[i]) ==> r[i] == '_') && (!Replaced(name[i]) ==> r[i] == name[i])
    ensures forall c :: c in r ==> !Replaced(c)
  {
    seq(|name|, i requires 0 <= i < |name| => if Replaced(name[i]) then '_' else name[i])
  }

  /** Sanitizing a key again leaves it as it is. */
  lemma SanitizeIdempotent(name: string)
    ensures Sanitize(Sanitize(name)) == Sanitize(name)
  {
  }

  /** A name is its own key exactly when it has no space and no dot. */
  lemma SanitizeFixesClean(name: string)
    ensures Sanitize(name) == name <==> forall c :: c in name ==> !Replaced(c)
  {
    if Sanitize(name) == name {
      forall c | c in name
        ensures !Replaced(c)
      {
        var i :| 0 <= i < |name| && name[i] == c;
        assert Sanitize(name)[i] == c;
      }
    }
  }

  /** `name?.replace(...)`: a file without a name has no key. */
  function FileKey(name: Option<string>): (r: Option<string>)
    ensures r.Some? <==> name.Some?
    ensures name.Some? ==> r.value == Sanitize(name.value)
  {
    if name.Some? then Some(Sanitize(name.value)) else None
  }

  const UrlPrefix: string := "https://"
  const UrlHost: string := ".s3-us-west-2.amazonaws.com/"

  /** The public address of an object: the bucket's host in us-west-2, then the key. */
  function PublicUrl(bucket: string, key: Option<string>): (r: string)
    ensures |r| == |UrlPrefix| + |bucket| + |UrlHost| + |Show(key)|
    ensures r[..|UrlPrefix|] == UrlPrefix
    ensures r[|UrlPrefix|..|UrlPrefix| + |bucket|] == bucket
    ensures r[|UrlPrefix| + |bucket|..|UrlPrefix| + |bucket| + |UrlHost|] == UrlHost
    ensures r[|UrlPrefix| + |bucket| + |UrlHost|..] == Show(key)
  {
    UrlPrefix + bucket + UrlHost + Show(key)
  }

  /** What the storage call is sent: the bucket, the sanitized key and a public-read grant. */
  datatype PutRequest = PutRequest(bucket: string, key: Option<string>, contentType: Option<string>, acl: string)

  function PutConfig(bucket: string, name: Option<string>, contentType: Option<string>): (r: PutRequest)
    ensures r.bucket == bucket && r.key == FileKey(name) && r.contentType == contentType
    ensures r.acl == "public-read"
  {
    PutRequest(bucket, FileKey(name), contentType, "public-read")
  }

  /**
   * `uploadImage`: rejects with the storage error, or resolves to the public
   * address of the key the object was stored under.
   */
  function UploadImage(name: Option<string>, bucket: string, putError: Option<string>): (r: Result<string, string>)
    ensures putError.Some? <==> r.Failure?
    ensures putError.Some? ==> r.error == putError.value
    ensures r.Success? ==> r.value == PublicUrl(bucket, PutConfig(bucket, name, None).key)
  {
    if putError.Some? then Failure(putError.value) else Success(PublicUrl(bucket, FileKey(name)))
  }

  /**
   * The address of an upload ends with the sanitized name, so it has no space
   * after the host and no dot in its last part.
   */
  lemma UrlEndsWithKey(name: string, bucket: string)
    ensures var r := UploadImage(Some(name), bucket, None);
      r.Success? && |r.value| >= |name| &&
      r.value[|r.value| - |name|..] == Sanitize(name) &&
      forall i :: |r.value| - |name| <= i < |r.value| ==> !Replaced(r.value[i])
  {
    var url := PublicUrl(bucket, Some(Sanitize(name)));
    assert url[|UrlPrefix| + |bucket| + |UrlHost|..] == Sanitize(name);
    forall i | |url| - |name| <= i < |url|
      ensures !Replaced(url[i])
    {
      assert url[i] == Sanitize(name)[i - (|url| - |name|)];
    }
  }
}

=== FILE: seqs.dfy ===
/**
 * Two de-duplication rules the source uses on arrays:
 * `[...new Set(xs)]` / `xs.filter((v, i, a) => a.indexOf(v) === i)` keep the FIRST
 * occurrence of every value, while `xs.filter((v, i, a) => !a.slice(i + 1).some(eq))`
 * keeps the LAST occurrence.
 */
module Seqs {

  /** No value occurs twice. */
  predicate NoDup<T(==)>(xs: seq<T>) {
    forall i, j :: 0 <= i < j < |xs| ==> xs[i] != xs[j]
  }

  /** Index of the first occurrence of `x`. */
  function FirstIndex<T(==)>(xs: seq<T>, x: T): (r: nat)
    requires x in xs
    ensures r < |xs| && xs[r] == x && x !in xs[..r]
  {
    if xs[0] == x then 0 else 1 + FirstIndex(xs[1..], x)
  }

  /** Index of the last occurrence of `x`. */
  function LastIndex<T(==)>(xs: seq<T>, x: T): (r: nat)
    requires x in xs
    ensures r < |xs| && xs[r] == x
    ensures forall k :: r < k < |xs| ==> xs[k] != x
  {
    var n := |xs| - 1;
    if xs[n] == x then n else LastIndex(xs[..n], x)
  }

  /** Distinct values in order of first occurrence (`Array.from(new Set(xs))`). */
  function Distinct<T(==)>(xs: seq<T>): (r: seq<T>)
    ensures NoDup(r)
    ensures forall i :: 0 <= i < |r| ==> r[i] in xs
    ensures forall i :: 0 <= i < |xs| ==> xs[i] in r
  {
    if |xs| == 0 then []
    else
      var d := Distinct(xs[..|xs| - 1]);
      if xs[|xs| - 1] in d then d else d + [xs[|xs| - 1]]
  }

  /** `Distinct` keeps exactly the values of `xs`. */
  lemma DistinctMembers<T>(xs: seq<T>)
    ensures forall x :: x in Distinct(xs) <==> x in xs
  {
    var d := Distinct(xs);
    forall x | x in xs
      ensures x in d
    {
      var i :| 0 <= i < |xs| && xs[i] == x;
    }
  }

  /** `Distinct` orders its values by first occurrence in `xs`. */
  lemma {:induction false} DistinctOrder<T>(xs: seq<T>)
    ensures forall i, j :: 0 <= i < j < |Distinct(xs)| ==>
      FirstIndex(xs, Distinct(xs)[i]) < FirstIndex(xs, Distinct(xs)[j])
  {
    if |xs| > 0 {
      var p := xs[..|xs| - 1];
      var last := xs[|xs| - 1];
      DistinctOrder(p);
      assert xs == p + [last];
      var d := Distinct(p);
      forall x | x in p
        ensures FirstIndex(xs, x) == FirstIndex(p, x)
      {
        FirstIndexPrefix(p, last, x);
      }
      if last !in d {
        assert last !in p;
        assert FirstIndex(xs, last) == |p| by {
          assert xs[|p|] == last && last !in xs[..|p|];
          FirstIndexUnique(xs, last, |p|);
        }
        forall i | 0 <= i < |d|
          ensures FirstIndex(xs, d[i]) < |p|
        {
          assert d[i] in d;
        }
      }
    }
  }

  /** A sequence without duplicates is its own `Distinct`. */
  lemma {:induction false} DistinctOfNoDup<T>(xs: seq<T>)
    requires NoDup(xs)
    ensures Distinct(xs) == xs
  {
    if |xs| > 0 {
      var p := xs[..|xs| - 1];
      assert NoDup(p);
      DistinctOfNoDup(p);
      assert xs == p + [xs[|xs| - 1]];
    }
  }

  /**
   * De-duplicating after every batch gives what de-duplicating once at the end
   * gives: `Distinct(Distinct(a) + b) == Distinct(a + b)`.
   */
  lemma {:induction false} DistinctAppend<T>(a: seq<T>, b: seq<T>)
    ensures Distinct(Distinct(a) + b) == Distinct(a + b)
  {
    if |b| == 0 {
      DistinctOfNoDup(Distinct(a));
      assert Distinct(a) + b == Distinct(a) && a + b == a;
    } else {
      var b' := b[..|b| - 1];
      DistinctAppend(a, b');
      assert (Distinct(a) + b)[..|Distinct(a) + b| - 1] == Distinct(a) + b';
      assert (a + b)[..|a + b| - 1] == a + b';
    }
  }

  lemma FirstIndexPrefix<T>(p: seq<T>, last: T, x: T)
    requires x in p
    ensures FirstIndex(p + [last], x) == FirstIndex(p, x)
  {
    var k := FirstIndex(p, x);
    assert (p + [last])[..k] == p[..k];
    FirstIndexUnique(p + [last], x, k);
  }

  lemma {:induction false} FirstIndexUnique<T>(xs: seq<T>, x: T, k: nat)
    requires k < |xs| && xs[k] == x && x !in xs[..k]
    ensures FirstIndex(xs, x) == k
  {
    if k > 0 {
      assert xs[0] in xs[..k];
      assert xs[1..][..k - 1] == xs[1..k];
      FirstIndexUnique(xs[1..], x, k - 1);
    }
  }

  /** Keeps an element only when no later element equals it. */
  function KeepLast<T(==)>(xs: seq<T>): seq<T>
  {
    if |xs| == 0 then []
    else if xs[0] in xs[1..] then KeepLast(xs[1..])
    else [xs[0]] + KeepLast(xs[1..])
  }

  /** Every element `KeepLast` keeps comes from `xs`. */
  lemma {:induction false} KeepLastFrom<T>(xs: seq<T>, i: nat)
    requires i < |KeepLast(xs)|
    ensures KeepLast(xs)[i] in xs
  {
    if xs[0] in xs[1..] {
      KeepLastFrom(xs[1..], i);
    } else if i > 0 {
      KeepLastFrom(xs[1..], i - 1);
    }
  }

  /** Every value of `xs` survives `KeepLast`. */
  lemma {:induction false} KeepLastKeeps<T>(xs: seq<T>, x: T)
    requires x in xs
    ensures x in KeepLast(xs)
  {
    if x != xs[0] || xs[0] in xs[1..] {
      KeepLastKeeps(xs[1..], x);
    }
  }

  /** `KeepLast` keeps exactly the values of `xs`, each once. */
  lemma {:induction false} KeepLastMembers<T>(xs: seq<T>)
    ensures NoDup(KeepLast(xs))
    ensures forall i :: 0 <= i < |KeepLast(xs)| ==> KeepLast(xs)[i] in xs
    ensures forall x :: x in xs ==> x in KeepLast(xs)
  {
    forall i | 0 <= i < |KeepLast(xs)|
      ensures KeepLast(xs)[i] in xs
    {
      KeepLastFrom(xs, i);
    }
    forall x | x in xs
      ensures x in KeepLast(xs)
    {
      KeepLastKeeps(xs, x);
    }
    if |xs| > 0 {
      KeepLastMembers(xs[1..]);
      var k := KeepLast(xs[1..]);
      if xs[0] !in xs[1..] {
        assert KeepLast(xs) == [xs[0]] + k;
        forall j | 0 <= j < |k|
          ensures k[j] != xs[0]
        {
          KeepLastFrom(xs[1..], j);
        }
      }
    }
  }

  /** `KeepLast` orders its values by last occurrence in `xs`. */
  lemma KeepLastOrder<T>(xs: seq<T>, i: nat, j: nat)
    requires i < j < |KeepLast(xs)|
    ensures KeepLast(xs)[i] in xs && KeepLast(xs)[j] in xs
    ensures LastIndex(xs, KeepLast(xs)[i]) < LastIndex(xs, KeepLast(xs)[j])
  {
    KeepLastOrderAt(xs, i, j);
  }

  lemma {:induction false} KeepLastOrderAt<T>(xs: seq<T>, i: nat, j: nat)
    requires i < j < |KeepLast(xs)|
    ensures KeepLast(xs)[i] in xs && KeepLast(xs)[j] in xs
    ensures LastIndex(xs, KeepLast(xs)[i]) < LastIndex(xs, KeepLast(xs)[j])
  {
    KeepLastFrom(xs, i);
    KeepLastFrom(xs, j);
    if xs[0] in xs[1..] {
      KeepLastOrderAt(xs[1..], i, j);
      KeepLastSkip(xs, i, j);
    } else if i == 0 {
      KeepLastFrom(xs[1..], j - 1);
      KeepLastFirst(xs, j);
    } else {
      KeepLastOrderAt(xs[1..], i - 1, j - 1);
      KeepLastKeep(xs, i, j);
    }
  }

  lemma KeepLastSkip<T>(xs: seq<T>, i: nat, j: nat)
    requires |xs| > 0 && xs[0] in xs[1..]
    requires i < j < |KeepLast(xs[1..])|
    requires KeepLast(xs[1..])[i] in xs[1..] && KeepLast(xs[1..])[j] in xs[1..]
    requires LastIndex(xs[1..], KeepLast(xs[1..])[i]) < LastIndex(xs[1..], KeepLast(xs[1..])[j])
    ensures KeepLast(xs)[i] in xs && KeepLast(xs)[j] in xs
    ensures LastIndex(xs, KeepLast(xs)[i]) < LastIndex(xs, KeepLast(xs)[j])
  {
    var k := KeepLast(xs[1..]);
    assert KeepLast(xs) == k;
    LastIndexTail(xs, k[i]);
    LastIndexTail(xs, k[j]);
  }

  lemma KeepLastFirst<T>(xs: seq<T>, j: nat)
    requires |xs| > 0 && xs[0] !in xs[1..]
    requires 0 < j < |KeepLast(xs)|
    requires KeepLast(xs[1..])[j - 1] in xs[1..]
    ensures KeepLast(xs)[0] in xs && KeepLast(xs)[j] in xs
    ensures LastIndex(xs, KeepLast(xs)[0]) < LastIndex(xs, KeepLast(xs)[j])
  {
    var k := KeepLast(xs[1..]);
    assert KeepLast(xs) == [xs[0]] + k;
    LastIndexTail(xs, k[j - 1]);
    LastIndexUnique(xs, xs[0], 0);
  }

  lemma KeepLastKeep<T>(xs: seq<T>, i: nat, j: nat)
    requires |xs| > 0 && xs[0] !in xs[1..]
    requires 0 < i < j < |KeepLast(xs)|
    requires KeepLast(xs[1..])[i - 1] in xs[1..] && KeepLast(xs[1..])[j - 1] in xs[1..]
    requires LastIndex(xs[1..], KeepLast(xs[1..])[i - 1]) < LastIndex(xs[1..], KeepLast(xs[1..])[j - 1])
    ensures KeepLast(xs)[i] in xs && KeepLast(xs)[j] in xs
    ensures LastIndex(xs, KeepLast(xs)[i]) < LastIndex(xs, KeepLast(xs)[j])
  {
    var k := KeepLast(xs[1..]);
    assert KeepLast(xs) == [xs[0]] + k;
    assert KeepLast(xs)[i] == k[i - 1] && KeepLast(xs)[j] == k[j - 1];
    LastIndexShift(xs, k[i - 1], k[j - 1]);
  }

  /** Last positions in the tail keep their order in the whole sequence. */
  lemma LastIndexShift<T>(xs: seq<T>, a: T, b: T)
    requires |xs| > 0 && a in xs[1..] && b in xs[1..]
    requires LastIndex(xs[1..], a) < LastIndex(xs[1..], b)
    ensures a in xs && b in xs && LastIndex(xs, a) < LastIndex(xs, b)
  {
    LastIndexTail(xs, a);
    LastIndexTail(xs, b);
  }

  lemma LastIndexTail<T>(xs: seq<T>, x: T)
    requires |xs| > 0 && x in xs[1..]
    ensures x in xs && LastIndex(xs, x) == LastIndex(xs[1..], x) + 1
  {
    var k := LastIndex(xs[1..], x);
    LastIndexUnique(xs, x, k + 1);
  }

  lemma {:induction false} LastIndexUnique<T>(xs: seq<T>, x: T, k: nat)
    requires k < |xs| && xs[k] == x
    requires forall m :: k < m < |xs| ==> xs[m] != x
    ensures LastIndex(xs, x) == k
    decreases |xs|
  {
    var n := |xs| - 1;
    if k < n {
      LastIndexUnique(xs[..n], x, k);
    }
  }

  /** `xs.filter(p)`: the elements `p` accepts, in order. */
  function Filter<T(!new)>(xs: seq<T>, p: T -> bool): (r: seq<T>)
    ensures |r| <= |xs|
    ensures forall x :: x in r <==> x in xs && p(x)
  {
    if |xs| == 0 then []
    else
      var rest := Filter(xs[..|xs| - 1], p);
      assert xs == xs[..|xs| - 1] + [xs[|xs| - 1]];
      if p(xs[|xs| - 1]) then rest + [xs[|xs| - 1]] else rest
  }

  /** Where an element of the filtered sequence came from. */
  lemma {:induction false} FilterIndex<T(!new)>(xs: seq<T>, p: T -> bool, i: nat) returns (a: nat)
    requires i < |Filter(xs, p)|
    ensures a < |xs| && xs[a] == Filter(xs, p)[i]
  {
    var n := |xs| - 1;
    var rest := Filter(xs[..n], p);
    if i < |rest| {
      a := FilterIndex(xs[..n], p, i);
    } else {
      a := n;
    }
  }

  /** Filtering keeps the relative order of the elements it keeps. */
  lemma {:induction false} FilterOrder<T(!new)>(xs: seq<T>, p: T -> bool, i: nat, j: nat) returns (a: nat, b: nat)
    requires i < j < |Filter(xs, p)|
    ensures a < b < |xs| && xs[a] == Filter(xs, p)[i] && xs[b] == Filter(xs, p)[j]
  {
    var n := |xs| - 1;
    var rest := Filter(xs[..n], p);
    if j < |rest| {
      a, b := FilterOrder(xs[..n], p, i, j);
    } else {
      a := FilterIndex(xs[..n], p, i);
      b := n;
    }
  }

  /** Filtering a sequence without duplicates leaves none. */
  lemma FilterNoDup<T(!new)>(xs: seq<T>, p: T -> bool)
    requires NoDup(xs)
    ensures NoDup(Filter(xs, p))
  {
    var r := Filter(xs, p);
    forall i, j | 0 <= i < j < |r|
      ensures r[i] != r[j]
    {
      var a, b := FilterOrder(xs, p, i, j);
    }
  }
}

=== FILE: shopping_endpoint.dfy ===
/**
 * `getMealPlanShoppingList` (controllers/shoppinglistController.js): the whole
 * pipeline from a stored plan to the list shown, in the sections of the standard
 * format.
 */
module ShoppingEndpoint {
  import opened Wrappers
  import opened Js
  import Text
  import Seqs
  import KeyedFold
  import opened Models
  import opened MealPlanRecipes
  import opened ShoppingList
  import opened StandardFormat
  import opened Errors

  /** The ingredient ids of shown entries. */
  function EntryIds(es: seq<Entry>): (r: seq<string>)
    ensures |r| == |es|
    ensures forall i :: 0 <= i < |es| ==> r[i] == es[i].id
  {
    seq(|es|, i requires 0 <= i < |es| => es[i].id)
  }

  /** The ingredient ids of lines after step 5. */
  function ShoppedIds(lines: seq<Shopped>): (r: seq<string>)
    ensures |r| == |lines|
    ensures forall i :: 0 <= i < |lines| ==> r[i] == lines[i].base.line.item.doc.id
  {
    seq(|lines|, i requires 0 <= i < |lines| => lines[i].base.line.item.doc.id)
  }

  /**
   * `req?.user?.unit_preference.toLowerCase()`: `user` is `req.user`, itself
   * carrying an optional preference. Without a user the whole chain is
   * `undefined`, which the field names later spell as "undefined"; a user
   * without a preference throws.
   */
  function Preference(user: Option<Option<string>>): (r: Result<string, Crash>)
    ensures r.Failure? <==> user == Some(None)
    ensures user.None? ==> r == Success("undefined")
    ensures user.Some? && user.value.Some? ==> r == Success(Text.Lower(user.value.value))
  {
    match user
    case None => Success("undefined")
    case Some(None) => Failure(TypeError("toLowerCase of undefined"))
    case Some(Some(p)) => Success(Text.Lower(p))
  }

  /** `next(new AppError(error.message, 400))`. */
  function Caught(c: Crash): (t: Thrown)
    ensures t == App(c.what, 400)
  {
    App(c.what, 400)
  }

  /**
   * The whole request: the preference is read first, then the plan's lines are
   * built, merged by ingredient id, converted to base and shopping amounts and
   * sorted into sections. Whatever fails is passed on as a 400 `AppError`
   * carrying the failure's message.
   */
  function GetMealPlanShoppingList(
    user: Option<Option<string>>,
    plan: Option<seq<Option<Meal>>>,
    byId: map<string, IngredientDoc>,
    byOldId: map<string, IngredientDoc>,
    planTitle: Option<string>,
    numberText: real -> string)
    : (r: Result<StandardList, Thrown>)
    ensures r.Failure? ==> r.error.App? && r.error.statusCode == 400
    ensures user == Some(None) ==> r == Failure(App("toLowerCase of undefined", 400))
    ensures user != Some(None) && PlanLines(plan, byId, byOldId).Failure? ==>
      r == Failure(App(PlanLines(plan, byId, byOldId).error.what, 400))
    ensures r.Success? ==> PlanLines(plan, byId, byOldId).Success? && planTitle.Some?
    ensures r.Success? ==> |r.value.data| == 3 && forall k :: 0 <= k < 3 ==> Seqs.NoDup(EntryIds(r.value.data[k].ingredients))
    ensures r.Success? ==> forall k :: 0 <= k < 3 ==> forall e :: e in r.value.data[k].ingredients ==>
      exists s :: e == EntryOf(s, Preference(user).value, numberText)
  {
    match Preference(user)
    case Failure(c) => Failure(Caught(c))
    case Success(preference) =>
      match PlanLines(plan, byId, byOldId)
      case Failure(c) => Failure(Caught(c))
      case Success(lines) =>
        var shopped := Stages(MergeById(lines));
        match ToStandardFormat(shopped, preference, numberText, planTitle)
        case Failure(c) => Failure(Caught(c))
        case Success(r) =>
          StagesKeepIds(MergeById(lines));
          forall k | 0 <= k < 3 {
            SectionIdsDistinct(shopped, Categories[k], preference, numberText);
          }
          Success(r)
  }

  /**
   * The handler called on its own without a user reads the preference as
   * `undefined`: a list it builds then has neither a quantity nor a unit on any
   * entry, since the fields it reads are named after "undefined".
   */
  lemma HandlerWithoutUserShowsNoAmounts(plan: Option<seq<Option<Meal>>>, byId: map<string, IngredientDoc>,
                                         byOldId: map<string, IngredientDoc>, planTitle: Option<string>,
                                         numberText: real -> string, k: nat, e: Entry)
    requires GetMealPlanShoppingList(None, plan, byId, byOldId, planTitle, numberText).Success?
    requires k < 3 && e in GetMealPlanShoppingList(None, plan, byId, byOldId, planTitle, numberText).value.data[k].ingredients
    ensures e.qty.None? && e.measurement.None?
  {
    var s :| e == EntryOf(s, "undefined", numberText);
  }

  /** The signed-in user as the route reads it: the id and the unit preference. */
  datatype RequestUser = RequestUser(id: string, unitPreference: Option<string>)

  /**
   * The route `GET /get_mealplan_shoppinglist/:id`: `deleteShoppingListOnReset`,
   * then `getMealPlanShoppingList`, with no authentication in front. The result
   * is the store after the middleware and the list sent. A request without a
   * user throws in the middleware, before any list is built; the handler's own
   * failures are its 400 `AppError`s.
   */
  function ShoppingListRoute(
    store: seq<StoredList>,
    user: Option<RequestUser>,
    planId: string,
    reset: Option<string>,
    plan: Option<seq<Option<Meal>>>,
    byId: map<string, IngredientDoc>,
    byOldId: map<string, IngredientDoc>,
    planTitle: Option<string>,
    numberText: real -> string)
    : (r: Result<(seq<StoredList>, StandardList), Thrown>)
    ensures user.None? ==> r == Failure(Crashed(TypeError("_id of undefined")))
    ensures user.Some? ==>
      var sent := GetMealPlanShoppingList(Some(user.value.unitPreference), plan, byId, byOldId, planTitle, numberText);
      (r.Success? <==> sent.Success?) &&
      (sent.Failure? ==> r == Failure(sent.error)) &&
      (r.Success? ==>
        r.value.1 == sent.value &&
        r.value.0 == (if StrTruthy(reset) then DeleteOne(store, user.value.id, planId) else store))
  {
    var userId := if user.Some? then Some(user.value.id) else None;
    match DeleteOnReset(store, userId, planId, reset)
    case Failure(c) => Failure(Crashed(c))
    case Success(kept) =>
      var preference := if user.Some? then Some(user.value.unitPreference) else None;
      match GetMealPlanShoppingList(preference, plan, byId, byOldId, planTitle, numberText)
      case Failure(e) => Failure(e)
      case Success(list) => Success((kept, list))
  }

  /**
   * Since the route sets no user, every request to it ends in the middleware's
   * `TypeError`, which production answers with the generic 500.
   */
  lemma RouteAnswers500WithoutUser(store: seq<StoredList>, planId: string, reset: Option<string>,
                                   plan: Option<seq<Option<Meal>>>, byId: map<string, IngredientDoc>,
                                   byOldId: map<string, IngredientDoc>, planTitle: Option<string>,
                                   numberText: real -> string, statusOf: int -> string)
    ensures var r := ShoppingListRoute(store, None, planId, reset, plan, byId, byOldId, planTitle, numberText);
      r.Failure? &&
      GlobalErrorHandler(ObjectOf(r.error, statusOf), Some("production"), statusOf) ==
        Sent(500, ProdBody("error", GenericMessage))
  {
    var r := ShoppingListRoute(store, None, planId, reset, plan, byId, byOldId, planTitle, numberText);
    ProductionHidesInternalErrors(ObjectOf(r.error, statusOf), statusOf);
  }

  /** Steps 4 and 5 keep each line's ingredient, so distinct merged ids stay distinct. */
  lemma StagesKeepIds(merged: seq<Scaled>)
    requires Seqs.NoDup(KeyedFold.Keys(merged, LineKey))
    ensures Seqs.NoDup(ShoppedIds(Stages(merged)))
  {
    assert ShoppedIds(Stages(merged)) == KeyedFold.Keys(merged, LineKey);
  }

  /**
   * A section lists each ingredient at most once when the lines it is drawn from
   * do: a section only drops lines, never repeats one.
   */
  lemma {:induction false} SectionIdsDistinct(lines: seq<Shopped>, category: string, preference: string, numberText: real -> string)
    requires Seqs.NoDup(ShoppedIds(lines))
    ensures Seqs.NoDup(EntryIds(SectionEntries(lines, category, preference, numberText)))
  {
    if |lines| > 0 {
      var p := lines[..|lines| - 1];
      var s := lines[|lines| - 1];
      assert ShoppedIds(p) == ShoppedIds(lines)[..|lines| - 1];
      SectionIdsDistinct(p, category, preference, numberText);
      var rest := SectionEntries(p, category, preference, numberText);
      if InSection(s, category) {
        var ids := EntryIds(rest + [EntryOf(s, preference, numberText)]);
        forall i | 0 <= i < |rest|
          ensures ids[i] != ids[|rest|]
        {
          assert rest[i] in rest;
          var t :| t in p && InSection(t, category) && rest[i] == EntryOf(t, preference, numberText);
          var j :| 0 <= j < |p| && p[j] == t;
          assert ShoppedIds(lines)[j] != ShoppedIds(lines)[|lines| - 1];
        }
      }
    }
  }
}

=== FILE: shopping_list.dfy ===
/**
 * The inline stages of `getMealPlanShoppingList` (controllers/shoppinglistController.js)
 * after the plan's lines are built: merge by ingredient id, notes clean-up,
 * conversion from mL/g to each ingredient's base unit, and projection to shopping
 * amounts. Also the store rule of `createNewShoppingList` and
 * `deleteShoppingListOnReset`.
 */
module ShoppingList {
  import opened Wrappers
  import opened Js
  import Text
  import Seqs
  import KeyedFold
  import Units
  import General
  import opened Models
  import opened MealPlanRecipes

  // ---- Step 3: one line per ingredient id ----

  function LineKey(s: Scaled): string {
    s.item.doc.id
  }

  function ImperialQty(s: Scaled): Num {
    s.mealPlanImperialQty
  }

  function MetricQty(s: Scaled): Num {
    s.mealPlanMetricQty
  }

  function NotesOf(s: Scaled): Option<string> {
    s.item.notes
  }

  /** `notes?.trim()`. */
  function TrimNotes(n: Option<string>): Option<string> {
    if n.Some? then Some(Text.Trim(n.value)) else None
  }

  /** `a += `,${b?.trim()}``: string concatenation, so an absent side prints as "undefined". */
  function AppendNotes(a: Option<string>, b: Option<string>): (r: Option<string>)
    ensures r.Some? && Show(a) <= r.value
  {
    Some(Show(a) + "," + Show(TrimNotes(b)))
  }

  /** A later line of the same ingredient adds both amounts and its trimmed notes to the first. */
  function MergeLines(a: Scaled, b: Scaled): (r: Scaled)
    ensures LineKey(r) == LineKey(a)
  {
    a.(item := a.item.(notes := AppendNotes(a.item.notes, b.item.notes)),
       mealPlanImperialQty := Add(a.mealPlanImperialQty, b.mealPlanImperialQty),
       mealPlanMetricQty := Add(a.mealPlanMetricQty, b.mealPlanMetricQty))
  }

  /** The merge of step 3: exactly one line per ingredient id, at the place the id first occurs. */
  function MergeById(lines: seq<Scaled>): (r: seq<Scaled>)
    ensures KeyedFold.Keys(r, LineKey) == Seqs.Distinct(KeyedFold.Keys(lines, LineKey))
  {
    KeyedFold.FoldKeys(lines, LineKey, MergeLines);
    KeyedFold.Fold(lines, LineKey, MergeLines)
  }

  /**
   * Each merged line carries the sums, over all lines with its id and in list order,
   * of both meal-plan amounts, and the first line's notes followed by ",<trimmed
   * notes>" of every later one.
   */
  lemma MergeTotals(lines: seq<Scaled>, i: nat)
    requires i < |MergeById(lines)|
    ensures var g := KeyedFold.Group(lines, LineKey, LineKey(MergeById(lines)[i]));
      |g| > 0 &&
      MergeById(lines)[i].mealPlanImperialQty == KeyedFold.Total(g, ImperialQty, Add) &&
      MergeById(lines)[i].mealPlanMetricQty == KeyedFold.Total(g, MetricQty, Add) &&
      MergeById(lines)[i].item.notes == KeyedFold.Total(g, NotesOf, AppendNotes)
  {
    KeyedFold.FoldTotals(lines, LineKey, MergeLines, ImperialQty, Add, i);
    KeyedFold.FoldTotals(lines, LineKey, MergeLines, MetricQty, Add, i);
    KeyedFold.FoldTotals(lines, LineKey, MergeLines, NotesOf, AppendNotes, i);
  }

  /** Merging loses no amount: both grand totals of the list are unchanged. */
  lemma MergeKeepsTotals(lines: seq<Scaled>)
    ensures KeyedFold.Sum(MergeById(lines), ImperialQty, Add, Some(0.0)) == KeyedFold.Sum(lines, ImperialQty, Add, Some(0.0))
    ensures KeyedFold.Sum(MergeById(lines), MetricQty, Add, Some(0.0)) == KeyedFold.Sum(lines, MetricQty, Add, Some(0.0))
  {
    AddCommutative();
    KeyedFold.FoldSum(lines, LineKey, MergeLines, ImperialQty, Add, Some(0.0));
    KeyedFold.FoldSum(lines, LineKey, MergeLines, MetricQty, Add, Some(0.0));
  }

  // ---- Step 4: notes ----

  /** The tokens the clean-up throws away. */
  predicate BadNote(t: string) {
    t == "" || t == "undefined" || t == "null"
  }

  /** Keeps the tokens that are not bad, in order. */
  function DropBad(xs: seq<string>): (r: seq<string>)
    ensures forall t :: t in r <==> t in xs && !BadNote(t)
    ensures Seqs.NoDup(xs) ==> Seqs.NoDup(r)
  {
    if |xs| == 0 then []
    else
      var p := xs[..|xs| - 1];
      var x := xs[|xs| - 1];
      assert xs == p + [x];
      var rest := DropBad(p);
      if BadNote(x) then rest else rest + [x]
  }

  /**
   * `[...new Set(notes.split(','))].filter(...)` for truthy notes, `[]` otherwise:
   * the distinct non-empty tokens other than "undefined" and "null".
   */
  function CleanNotes(notes: Option<string>): (r: seq<string>)
    ensures !StrTruthy(notes) ==> r == []
    ensures Seqs.NoDup(r)
    ensures forall t :: t in r ==> StrTruthy(notes) && !BadNote(t) && ',' !in t
    ensures StrTruthy(notes) ==> forall t :: t in r <==> t in Text.Split(notes.value, ',') && !BadNote(t)
  {
    if StrTruthy(notes) then
      var tokens := Text.Split(notes.value, ',');
      Seqs.DistinctMembers(tokens);
      DropBad(Seqs.Distinct(tokens))
    else []
  }

  /** The kept tokens appear in the order of their first occurrence in the notes. */
  lemma CleanNotesOrder(notes: string)
    requires notes != ""
    ensures var r := CleanNotes(Some(notes));
      var tokens := Text.Split(notes, ',');
      forall i, j :: 0 <= i < j < |r| ==> Seqs.FirstIndex(tokens, r[i]) < Seqs.FirstIndex(tokens, r[j])
  {
    var tokens := Text.Split(notes, ',');
    Seqs.DistinctMembers(tokens);
    Seqs.DistinctOrder(tokens);
    DropBadOrder(Seqs.Distinct(tokens), tokens);
  }

  lemma {:induction false} DropBadOrder(xs: seq<string>, tokens: seq<string>)
    requires forall t :: t in xs ==> t in tokens
    requires forall i, j :: 0 <= i < j < |xs| ==> Seqs.FirstIndex(tokens, xs[i]) < Seqs.FirstIndex(tokens, xs[j])
    ensures forall t :: t in DropBad(xs) ==> t in tokens
    ensures forall i, j :: 0 <= i < j < |DropBad(xs)| ==>
      Seqs.FirstIndex(tokens, DropBad(xs)[i]) < Seqs.FirstIndex(tokens, DropBad(xs)[j])
  {
    if |xs| > 0 {
      var p := xs[..|xs| - 1];
      var x := xs[|xs| - 1];
      assert forall t :: t in p ==> t in xs;
      DropBadOrder(p, tokens);
      var rest := DropBad(p);
      if !BadNote(x) {
        forall k | 0 <= k < |rest|
          ensures Seqs.FirstIndex(tokens, rest[k]) < Seqs.FirstIndex(tokens, x)
        {
          assert rest[k] in p;
          var m :| 0 <= m < |p| && p[m] == rest[k];
          assert xs[m] == rest[k];
        }
      }
    }
  }

  // ---- Step 4: base units ----

  /** A line after step 4. */
  datatype Based = Based(
    line: Scaled,
    notes: seq<string>,
    finalImperialBaseQty: Num,
    finalImperialBaseUnit: Option<string>,
    finalMetricBaseQty: Num,
    finalMetricBaseUnit: Option<string>)

  /**
   * The guard of the conversion: not literally "count" (the comparison is
   * case-sensitive) and all four of both meal-plan amounts and both base units
   * truthy.
   */
  predicate Convertible(s: Scaled) {
    s.item.measurementType != "count" && Truthy(s.mealPlanImperialQty) && StrTruthy(s.item.doc.imperialBaseUnit)
      && Truthy(s.mealPlanMetricQty) && StrTruthy(s.item.doc.metricBaseUnit)
  }

  /** The unit the meal-plan amounts are in: g for weight, mL for anything else. */
  function SourceUnit(measurementType: string): string {
    if Text.Lower(measurementType) == "weight" then "g" else "mL"
  }

  /** The aliases of the two targets: "Milliliter(s)" is asked for as "mL", "Gram(s)" as "g". */
  function ImperialTarget(u: string): string {
    if u == "Milliliter(s)" then "mL" else u
  }

  function MetricTarget(u: string): string {
    if u == "Gram(s)" then "g" else u
  }

  /** Step 4 for one merged line. */
  function ToBase(s: Scaled): (r: Based)
    ensures r.line == s && r.notes == CleanNotes(s.item.notes)
    ensures !Convertible(s) ==>
      r.finalImperialBaseQty == Or(s.mealPlanImperialQty, Some(1.0)) && r.finalImperialBaseUnit == Some("Item(s)") &&
      r.finalMetricBaseQty == Or(s.mealPlanMetricQty, Some(1.0)) && r.finalMetricBaseUnit == Some("Item(s)")
    ensures !Convertible(s) ==> Truthy(r.finalImperialBaseQty) && Truthy(r.finalMetricBaseQty)
  {
    var notes := CleanNotes(s.item.notes);
    if Convertible(s) then
      var mt := s.item.measurementType;
      var imperial := Units.FromFundamental(mt, SourceUnit(mt), s.mealPlanImperialQty, ImperialTarget(s.item.doc.imperialBaseUnit.value));
      var metric := Units.FromFundamental(mt, SourceUnit(mt), s.mealPlanMetricQty, MetricTarget(s.item.doc.metricBaseUnit.value));
      Based(s, notes, Units.ValueOf(imperial), UnitOf(imperial), Units.ValueOf(metric), UnitOf(metric))
    else
      Based(s, notes, Or(s.mealPlanImperialQty, Some(1.0)), Some("Item(s)"), Or(s.mealPlanMetricQty, Some(1.0)), Some("Item(s)"))
  }

  /** Asking for a base unit that is an alias of the source unit converts nothing. */
  lemma BaseAliasIsIdentity(s: Scaled)
    requires Convertible(s)
    ensures Text.Lower(s.item.measurementType) != "weight" && s.item.doc.imperialBaseUnit == Some("Milliliter(s)") ==>
      ToBase(s).finalImperialBaseQty == s.mealPlanImperialQty && ToBase(s).finalImperialBaseUnit == Some("mL")
    ensures Text.Lower(s.item.measurementType) == "weight" && s.item.doc.metricBaseUnit == Some("Gram(s)") ==>
      ToBase(s).finalMetricBaseQty == s.mealPlanMetricQty && ToBase(s).finalMetricBaseUnit == Some("g")
  {
  }

  /**
   * Step 4 undoes the recipe-side conversion: an imperial meal-plan amount that is
   * `q` of the ingredient's registered imperial base unit, expressed in mL or g,
   * comes back as exactly `q` of that unit.
   */
  lemma BaseInvertsFundamental(s: Scaled, q: Num)
    requires Convertible(s)
    requires Truthy(q) && s.item.doc.imperialBaseUnit.value != "Milliliter(s)"
    requires Units.CheckIfValidUnit(s.item.measurementType, s.item.doc.imperialBaseUnit.value).Success?
    requires s.mealPlanImperialQty == Units.ValueOf(Units.ToFundamental(s.item.measurementType, s.item.doc.imperialBaseUnit.value, q))
    ensures ToBase(s).finalImperialBaseQty == q
    ensures ToBase(s).finalImperialBaseUnit == s.item.doc.imperialBaseUnit
  {
    var mt := s.item.measurementType;
    var u := s.item.doc.imperialBaseUnit.value;
    Units.RoundTrip(mt, u, q);
    var t := Units.CheckIfValidUnit(mt, u).value.0;
    assert SourceUnit(mt) == Units.FundamentalName(t);
  }

  // ---- Step 5: shopping amounts ----

  /** A line after step 5. */
  datatype Shopped = Shopped(base: Based, finalImperialShoppingQty: Num, finalMetricShoppingQty: Num)

  /** The guard of step 5: both shopping amounts truthy and both base amounts positive. */
  predicate HasShoppingRatio(d: IngredientDoc) {
    Truthy(d.imperialShoppingQty) && Positive(d.imperialBaseQty) && Truthy(d.metricShoppingQty) && Positive(d.metricBaseQty)
  }

  /**
   * `roundToNearestHalf((shopping / base) * finalBase) || shopping`: the need,
   * expressed in shopping amounts, rounded up to a half; the raw shopping amount
   * when the base amount is missing (a failed base conversion) or when the need
   * rounds to 0, that is lies in (-0.5, 0].
   */
  function ScaledShopping(shopping: Num, base: Num, finalBase: Num): (r: Num)
    requires Truthy(shopping) && Positive(base)
    ensures Truthy(r)
    ensures r != shopping ==> r == General.RoundNum(Mul(Div(shopping, base), finalBase))
    ensures finalBase.None? ==> r == shopping
    ensures finalBase.Some? ==> var need := shopping.value / base.value * finalBase.value;
      (need > 0.0 || need <= -0.5 ==> r == Some(General.RoundToNearestHalf(need))) &&
      (-0.5 < need <= 0.0 ==> r == shopping)
  {
    assert Div(shopping, base) == Some(shopping.value / base.value);
    var need := Mul(Div(shopping, base), finalBase);
    General.RoundFalsy(if need.Some? then need.value else 0.0);
    assert finalBase.Some? ==> need.Some? && need.value == shopping.value / base.value * finalBase.value;
    assert need.Some? ==> General.RoundNum(need) == Some(General.RoundToNearestHalf(need.value));
    Or(General.RoundNum(need), shopping)
  }

  /**
   * `roundToNearestHalf(shopping) || -1`: the shopping amount rounded up to a
   * half, or the marker -1 when it is missing or rounds to 0.
   */
  function FallbackShopping(shopping: Num): (r: Num)
    ensures r == Some(-1.0) || (shopping.Some? && r.Some? && General.IsHalfStep(r.value) && r.value - 0.5 < shopping.value <= r.value)
    ensures Positive(shopping) ==> r.Some? && r.value >= shopping.value
    ensures shopping.None? || -0.5 < shopping.value <= 0.0 ==> r == Some(-1.0)
    ensures shopping.Some? && (shopping.value > 0.0 || shopping.value <= -0.5) ==>
      r == Some(General.RoundToNearestHalf(shopping.value))
  {
    General.RoundFalsy(if shopping.Some? then shopping.value else 0.0);
    Or(General.RoundNum(shopping), Some(-1.0))
  }

  /**
   * Step 5 for one line: with a usable shopping ratio in the ingredient document
   * both amounts are scaled from the line's base amounts, otherwise both fall
   * back to the document's own shopping amounts.
   */
  function ToShopping(b: Based): (r: Shopped)
    ensures r.base == b
    ensures HasShoppingRatio(b.line.item.doc) ==> Truthy(r.finalImperialShoppingQty) && Truthy(r.finalMetricShoppingQty)
    ensures var d := b.line.item.doc;
      HasShoppingRatio(d) ==>
        r.finalImperialShoppingQty == ScaledShopping(d.imperialShoppingQty, d.imperialBaseQty, b.finalImperialBaseQty) &&
        r.finalMetricShoppingQty == ScaledShopping(d.metricShoppingQty, d.metricBaseQty, b.finalMetricBaseQty)
    ensures var d := b.line.item.doc;
      !HasShoppingRatio(d) ==>
        r.finalImperialShoppingQty == FallbackShopping(d.imperialShoppingQty) &&
        r.finalMetricShoppingQty == FallbackShopping(d.metricShoppingQty)
  {
    var d := b.line.item.doc;
    if HasShoppingRatio(d) then
      Shopped(b, ScaledShopping(d.imperialShoppingQty, d.imperialBaseQty, b.finalImperialBaseQty),
        ScaledShopping(d.metricShoppingQty, d.metricBaseQty, b.finalMetricBaseQty))
    else
      Shopped(b, FallbackShopping(d.imperialShoppingQty), FallbackShopping(d.metricShoppingQty))
  }

  /**
   * A line without a base amount (its base conversion failed) keeps the
   * document's shopping amounts when the ratio is usable; the -1 marker appears
   * only in the fallback branch, for a missing or non-positive amount.
   */
  lemma ShoppingWithoutBase(b: Based)
    requires b.finalImperialBaseQty.None? && b.finalMetricBaseQty.None?
    requires HasShoppingRatio(b.line.item.doc)
    ensures ToShopping(b).finalImperialShoppingQty == b.line.item.doc.imperialShoppingQty
    ensures ToShopping(b).finalMetricShoppingQty == b.line.item.doc.metricShoppingQty
  {
  }

  /**
   * A positive need is bought in whole halves of the shopping unit and never less
   * than needed; needing exactly one base amount buys (the rounding of) exactly one
   * shopping amount.
   */
  lemma ShoppingCoversNeed(shopping: Num, base: Num, finalBase: Num)
    requires Truthy(shopping) && Positive(base) && finalBase.Some?
    ensures var need := Mul(Div(shopping, base), finalBase);
      need.Some? && need.value > 0.0 ==>
        ScaledShopping(shopping, base, finalBase) == Some(General.RoundToNearestHalf(need.value)) &&
        ScaledShopping(shopping, base, finalBase).value >= need.value
    ensures finalBase == base && shopping.value > 0.0 ==>
      ScaledShopping(shopping, base, finalBase) == Some(General.RoundToNearestHalf(shopping.value))
  {
    if finalBase == base {
      assert (shopping.value / base.value) * base.value == shopping.value;
      assert Mul(Div(shopping, base), finalBase) == shopping;
    }
  }

  /** Steps 4 and 5 for a whole merged list: one line out per line in, in order. */
  function Stages(merged: seq<Scaled>): (r: seq<Shopped>)
    ensures |r| == |merged|
    ensures forall i :: 0 <= i < |r| ==> r[i] == ToShopping(ToBase(merged[i]))
  {
    seq(|merged|, i requires 0 <= i < |merged| => ToShopping(ToBase(merged[i])))
  }

  // ---- The store rule ----

  /** A stored shopping list; only its owner and plan matter to the store rule. */
  datatype StoredList = StoredList(owner: string, plan: string, title: Option<string>, ingredients: seq<string>)

  predicate ForPair(l: StoredList, owner: string, plan: string) {
    l.owner == owner && l.plan == plan
  }

  /** `deleteOne({owner, parent_meal_plan})`: removes the first list of the pair, if any. */
  function DeleteOne(store: seq<StoredList>, owner: string, plan: string): (r: seq<StoredList>)
    ensures |r| == |store| || |r| == |store| - 1
    ensures forall l :: l in r ==> l in store
    ensures forall l :: l in store && !ForPair(l, owner, plan) ==> l in r
  {
    if |store| == 0 then []
    else if ForPair(store[0], owner, plan) then store[1..]
    else [store[0]] + DeleteOne(store[1..], owner, plan)
  }

  /** How many stored lists belong to the pair. */
  function CountPair(store: seq<StoredList>, owner: string, plan: string): nat {
    if |store| == 0 then 0
    else (if ForPair(store[0], owner, plan) then 1 else 0) + CountPair(store[1..], owner, plan)
  }

  lemma {:induction false} DeleteOneCount(store: seq<StoredList>, owner: string, plan: string, o: string, p: string)
    ensures CountPair(store, owner, plan) > 0 ==>
      CountPair(DeleteOne(store, owner, plan), owner, plan) == CountPair(store, owner, plan) - 1 &&
      |DeleteOne(store, owner, plan)| == |store| - 1
    ensures CountPair(store, owner, plan) == 0 ==> DeleteOne(store, owner, plan) == store
    ensures (o, p) != (owner, plan) ==> CountPair(DeleteOne(store, owner, plan), o, p) == CountPair(store, o, p)
  {
    if |store| > 0 && !ForPair(store[0], owner, plan) {
      DeleteOneCount(store[1..], owner, plan, o, p);
      assert ([store[0]] + DeleteOne(store[1..], owner, plan))[1..] == DeleteOne(store[1..], owner, plan);
    }
  }

  lemma {:induction false} CountAppend(store: seq<StoredList>, l: StoredList, owner: string, plan: string)
    ensures CountPair(store + [l], owner, plan) == CountPair(store, owner, plan) + (if ForPair(l, owner, plan) then 1 else 0)
  {
    if |store| > 0 {
      CountAppend(store[1..], l, owner, plan);
      assert (store + [l])[1..] == store[1..] + [l];
    } else {
      assert [l][1..] == [];
    }
  }

  /** `createNewShoppingList`: delete the pair's list, then add the new one at the end. */
  function CreateList(store: seq<StoredList>, l: StoredList): (r: seq<StoredList>)
    ensures |r| > 0 && r[|r| - 1] == l
  {
    DeleteOne(store, l.owner, l.plan) + [l]
  }

  /**
   * Creating keeps the store at most one list per (owner, plan) pair: if every pair
   * had at most one list before, every pair has at most one after, and the new
   * list's pair has exactly one.
   */
  lemma CreateKeepsOnePerPair(store: seq<StoredList>, l: StoredList, owner: string, plan: string)
    requires CountPair(store, owner, plan) <= 1
    ensures CountPair(CreateList(store, l), owner, plan) <= 1
    ensures (owner, plan) == (l.owner, l.plan) ==> CountPair(CreateList(store, l), owner, plan) == 1
  {
    DeleteOneCount(store, l.owner, l.plan, owner, plan);
    CountAppend(DeleteOne(store, l.owner, l.plan), l, owner, plan);
  }

  /**
   * `deleteShoppingListOnReset`: the requesting user's id is read first, so a
   * request without a user throws whatever `reset` is; then the `reset` query
   * string decides by truthiness, so "false" deletes too.
   */
  function DeleteOnReset(store: seq<StoredList>, user: Option<string>, plan: string, reset: Option<string>)
    : (r: Result<seq<StoredList>, Crash>)
    ensures r.Failure? <==> user.None?
    ensures user.Some? && !StrTruthy(reset) ==> r == Success(store)
    ensures user.Some? && StrTruthy(reset) ==> r == Success(DeleteOne(store, user.value, plan))
    ensures user.Some? && reset == Some("false") && CountPair(store, user.value, plan) > 0 ==> |r.value| == |store| - 1
  {
    match user
    case None => Failure(TypeError("_id of undefined"))
    case Some(owner) =>
      DeleteOneCount(store, owner, plan, owner, plan);
      Success(if StrTruthy(reset) then DeleteOne(store, owner, plan) else store)
  }
}

=== FILE: standard_format.dfy ===
/**
 * `convertShoppingListToStandardFormat`: the shopping lines sorted into the three
 * store sections, each line shown in the user's preferred unit system.
 */
module StandardFormat {
  import opened Wrappers
  import opened Js
  import Text
  import opened MealPlanRecipes
  import opened ShoppingList

  /** One line of the list as shown. */
  datatype Entry = Entry(
    id: string,
    desiredTitle: string,
    title: string,
    qty: Num,
    measurement: Option<string>,
    notes: string,
    checked: bool)

  datatype Bucket = Bucket(category: string, ingredients: seq<Entry>)

  datatype StandardList = StandardList(title: string, data: seq<Bucket>)

  /** The three sections, in order. */
  const Categories: seq<string> := ["Pantry", "Produce", "Refrigerated"]

  /** `final_${preference}_shopping_qty`: only "imperial" and "metric" name a field. */
  function PreferredQty(s: Shopped, preference: string): Num {
    if preference == "imperial" then s.finalImperialShoppingQty
    else if preference == "metric" then s.finalMetricShoppingQty
    else None
  }

  /** `${preference}_shopping_unit`. */
  function PreferredUnit(s: Shopped, preference: string): Option<string> {
    if preference == "imperial" then s.base.line.item.doc.imperialShoppingUnit
    else if preference == "metric" then s.base.line.item.doc.metricShoppingUnit
    else None
  }

  /**
   * The shown form of a line: "<qty> <unit> of <title>", the unit 'g' shown as
   * "Gram(s)" (the title keeps the raw unit), the notes joined with commas, and
   * not yet checked.
   */
  function EntryOf(s: Shopped, preference: string, numberText: real -> string): (r: Entry)
    ensures r.checked == false
    ensures r.id == s.base.line.item.doc.id && r.title == s.base.line.item.doc.title
    ensures r.qty == PreferredQty(s, preference)
    ensures PreferredUnit(s, preference) == Some("g") ==> r.measurement == Some("Gram(s)")
    ensures PreferredUnit(s, preference) != Some("g") ==> r.measurement == PreferredUnit(s, preference)
    ensures r.desiredTitle ==
      ShowNum(PreferredQty(s, preference), numberText) + " " + Show(PreferredUnit(s, preference)) + " of " + r.title
    ensures r.notes == Text.Join(s.base.notes, ",")
  {
    var doc := s.base.line.item.doc;
    var qty := PreferredQty(s, preference);
    var unit := PreferredUnit(s, preference);
    Entry(doc.id, ShowNum(qty, numberText) + " " + Show(unit) + " of " + doc.title, doc.title, qty,
      if unit == Some("g") then Some("Gram(s)") else unit, Text.Join(s.base.notes, ","), false)
  }

  /** A line belongs to a section when its category equals the section name ignoring case. */
  predicate InSection(s: Shopped, category: string) {
    Text.Lower(s.base.line.item.doc.category) == Text.Lower(category)
  }

  /** The shown lines of one section, in list order. */
  function SectionEntries(lines: seq<Shopped>, category: string, preference: string, numberText: real -> string)
    : (r: seq<Entry>)
    ensures |r| == CountIn(lines, category)
    ensures forall e :: e in r <==> exists s :: s in lines && InSection(s, category) && e == EntryOf(s, preference, numberText)
  {
    if |lines| == 0 then []
    else
      var p := lines[..|lines| - 1];
      var s := lines[|lines| - 1];
      assert lines == p + [s];
      var rest := SectionEntries(p, category, preference, numberText);
      if InSection(s, category) then rest + [EntryOf(s, preference, numberText)] else rest
  }

  /** How many lines belong to a section. */
  function CountIn(lines: seq<Shopped>, category: string): nat {
    if |lines| == 0 then 0
    else CountIn(lines[..|lines| - 1], category) + (if InSection(lines[|lines| - 1], category) then 1 else 0)
  }

  /** How many lines belong to no section (these are dropped). */
  function CountNowhere(lines: seq<Shopped>): nat {
    if |lines| == 0 then 0
    else
      CountNowhere(lines[..|lines| - 1]) +
      (if forall k :: 0 <= k < |Categories| ==> !InSection(lines[|lines| - 1], Categories[k]) then 1 else 0)
  }

  /**
   * `convertShoppingListToStandardFormat`: always the three sections in order, each
   * holding the shown lines of its category. The plan title is read from the
   * stored plan, and a missing plan throws.
   */
  function ToStandardFormat(lines: seq<Shopped>, preference: string, numberText: real -> string, planTitle: Option<string>)
    : (r: Result<StandardList, Crash>)
    ensures r.Success? <==> planTitle.Some?
    ensures r.Success? ==> r.value.title == planTitle.value && |r.value.data| == 3
    ensures r.Success? ==> forall k :: 0 <= k < 3 ==>
      (r.value.data[k].category == Categories[k] &&
       r.value.data[k].ingredients == SectionEntries(lines, Categories[k], preference, numberText))
  {
    if planTitle.None? then Failure(TypeError("title of a missing meal plan"))
    else
      Success(StandardList(planTitle.value,
        seq(3, k requires 0 <= k < 3 => Bucket(Categories[k], SectionEntries(lines, Categories[k], preference, numberText)))))
  }

  /** The lower-cased section names differ, so no line is in two sections. */
  lemma SectionsExclusive(s: Shopped, j: nat, k: nat)
    requires j < k < 3
    ensures !(InSection(s, Categories[j]) && InSection(s, Categories[k]))
  {
    var l := [Text.Lower("Pantry"), Text.Lower("Produce"), Text.Lower("Refrigerated")];
    assert l[0][1] == 'a' && l[1][1] == 'r';
    assert |l[2]| != |l[0]| && |l[2]| != |l[1]|;
  }

  /** Every line is in exactly one section or dropped: the sections and the dropped lines account for all lines. */
  lemma {:induction false} SectionsPartition(lines: seq<Shopped>)
    ensures CountIn(lines, Categories[0]) + CountIn(lines, Categories[1]) + CountIn(lines, Categories[2])
      + CountNowhere(lines) == |lines|
  {
    if |lines| > 0 {
      var s := lines[|lines| - 1];
      SectionsPartition(lines[..|lines| - 1]);
      SectionsExclusive(s, 0, 1);
      SectionsExclusive(s, 0, 2);
      SectionsExclusive(s, 1, 2);
    }
  }
}

=== FILE: tags.dfy ===
/**
 * `createTagsArray` (controllers/tagController.js): the tag list offered to
 * search, built from every ingredient title and every recipe, meal-plan and
 * ingredient tag, lower-cased, de-duplicated on (tag, type) keeping the last
 * occurrence, and stored only when a search for it finds a recipe.
 */
module Tags {
  import Text
  import Seqs

  /** A stored tag: its text and the kind of record it came from. */
  datatype TagEntry = TagEntry(tag: string, kind: string)

  /** An ingredient as the tag builder reads it. */
  datatype TaggedIngredient = TaggedIngredient(title: string, tags: seq<string>)

  /** `flatMap(x => x)`: the lists one after another. */
  function Flatten(xss: seq<seq<string>>): (r: seq<string>)
    ensures forall x :: x in r <==> exists k :: 0 <= k < |xss| && x in xss[k]
  {
    if |xss| == 0 then []
    else
      var p := xss[..|xss| - 1];
      var r := Flatten(p);
      assert forall k :: 0 <= k < |p| ==> p[k] == xss[k];
      r + xss[|xss| - 1]
  }

  /** Each tag lower-cased and paired with a kind, in order. */
  function Typed(tags: seq<string>, kind: string): (r: seq<TagEntry>)
    ensures |r| == |tags|
    ensures forall i :: 0 <= i < |tags| ==> r[i] == TagEntry(Text.Lower(tags[i]), kind)
  {
    seq(|tags|, i requires 0 <= i < |tags| => TagEntry(Text.Lower(tags[i]), kind))
  }

  function IngredientTags(ingredients: seq<TaggedIngredient>): (r: seq<seq<string>>)
    ensures |r| == |ingredients|
    ensures forall i :: 0 <= i < |ingredients| ==> r[i] == ingredients[i].tags
  {
    seq(|ingredients|, i requires 0 <= i < |ingredients| => ingredients[i].tags)
  }

  /**
   * The candidates, in order: the ingredient titles, the meal-plan tags, the
   * recipe tags, then the ingredient tags. Empty recipe and meal-plan tags are
   * dropped; empty ingredient tags are kept.
   */
  function AllTags(recipeTags: seq<seq<string>>, planTags: seq<seq<string>>, ingredients: seq<TaggedIngredient>)
    : (r: seq<TagEntry>)
    ensures |r| == |ingredients| + |Text.NonBlank(Flatten(planTags))| + |Text.NonBlank(Flatten(recipeTags))|
      + |Flatten(IngredientTags(ingredients))|
    ensures forall i :: 0 <= i < |ingredients| ==> r[i] == TagEntry(Text.Lower(ingredients[i].title), "ingredient")
    ensures var a := |ingredients|;
      var b := a + |Text.NonBlank(Flatten(planTags))|;
      var c := b + |Text.NonBlank(Flatten(recipeTags))|;
      r[a..b] == Typed(Text.NonBlank(Flatten(planTags)), "mealplan") &&
      r[b..c] == Typed(Text.NonBlank(Flatten(recipeTags)), "recipe") &&
      r[c..] == Typed(Flatten(IngredientTags(ingredients)), "ingredient")
  {
    var titles := Typed(seq(|ingredients|, i requires 0 <= i < |ingredients| => ingredients[i].title), "ingredient");
    var plans := Typed(Text.NonBlank(Flatten(planTags)), "mealplan");
    var recipes := Typed(Text.NonBlank(Flatten(recipeTags)), "recipe");
    var tagged := Typed(Flatten(IngredientTags(ingredients)), "ingredient");
    assert (titles + plans + recipes + tagged)[|titles|..|titles| + |plans|] == plans;
    assert (titles + plans + recipes + tagged)[|titles| + |plans|..|titles| + |plans| + |recipes|] == recipes;
    assert (titles + plans + recipes + tagged)[|titles| + |plans| + |recipes|..] == tagged;
    titles + plans + recipes + tagged
  }

  /**
   * A (tag, "mealplan") pair is a candidate exactly when some non-empty meal-plan
   * tag lower-cases to it, and likewise for "recipe"; no other part of the list
   * carries those types.
   */
  lemma {:induction false} CandidatesOfKind(recipeTags: seq<seq<string>>, planTags: seq<seq<string>>,
                                            ingredients: seq<TaggedIngredient>, x: string)
    ensures TagEntry(x, "mealplan") in AllTags(recipeTags, planTags, ingredients) <==>
      exists t :: t in Flatten(planTags) && t != "" && Text.Lower(t) == x
    ensures TagEntry(x, "recipe") in AllTags(recipeTags, planTags, ingredients) <==>
      exists t :: t in Flatten(recipeTags) && t != "" && Text.Lower(t) == x
  {
    var all := AllTags(recipeTags, planTags, ingredients);
    var plans := Text.NonBlank(Flatten(planTags));
    var recipes := Text.NonBlank(Flatten(recipeTags));
    var a := |ingredients|;
    var b := a + |plans|;
    var c := b + |recipes|;
    OfKind(all, a, b, "mealplan", Typed(plans, "mealplan"), x);
    OfKind(all, b, c, "recipe", Typed(recipes, "recipe"), x);
    TypedMembers(plans, "mealplan", x);
    TypedMembers(recipes, "recipe", x);
  }

  /** The entries of one kind lie in one segment `all[lo..hi]`. */
  lemma OfKind(all: seq<TagEntry>, lo: nat, hi: nat, kind: string, segment: seq<TagEntry>, x: string)
    requires lo <= hi <= |all| && all[lo..hi] == segment
    requires forall i :: 0 <= i < |all| && !(lo <= i < hi) ==> all[i].kind != kind
    ensures TagEntry(x, kind) in all <==> TagEntry(x, kind) in segment
  {
    if TagEntry(x, kind) in all {
      var i :| 0 <= i < |all| && all[i] == TagEntry(x, kind);
      assert segment[i - lo] == all[i];
    }
  }

  lemma TypedMembers(tags: seq<string>, kind: string, x: string)
    ensures TagEntry(x, kind) in Typed(tags, kind) <==> exists t :: t in tags && Text.Lower(t) == x
  {
    var r := Typed(tags, kind);
    if exists t :: t in tags && Text.Lower(t) == x {
      var t :| t in tags && Text.Lower(t) == x;
      var i :| 0 <= i < |tags| && tags[i] == t;
      assert r[i] == TagEntry(x, kind);
    }
  }

  /**
   * `createTagsArray`: the candidates de-duplicated on (tag, type), keeping each
   * pair's last occurrence, then only those whose search finds a recipe.
   */
  function CreateTags(recipeTags: seq<seq<string>>, planTags: seq<seq<string>>, ingredients: seq<TaggedIngredient>,
                      findsRecipe: TagEntry -> bool): (r: seq<TagEntry>)
    ensures Seqs.NoDup(r)
    ensures forall e :: e in r <==> e in AllTags(recipeTags, planTags, ingredients) && findsRecipe(e)
  {
    var all := AllTags(recipeTags, planTags, ingredients);
    Seqs.KeepLastMembers(all);
    Seqs.FilterNoDup(Seqs.KeepLast(all), findsRecipe);
    Seqs.Filter(Seqs.KeepLast(all), findsRecipe)
  }

  /** The stored tags keep the order of their last occurrences among the candidates. */
  lemma StoredInLastOrder(recipeTags: seq<seq<string>>, planTags: seq<seq<string>>, ingredients: seq<TaggedIngredient>,
                          findsRecipe: TagEntry -> bool, i: nat, j: nat)
    requires i < j < |CreateTags(recipeTags, planTags, ingredients, findsRecipe)|
    ensures var all := AllTags(recipeTags, planTags, ingredients);
      var r := CreateTags(recipeTags, planTags, ingredients, findsRecipe);
      r[i] in all && r[j] in all && Seqs.LastIndex(all, r[i]) < Seqs.LastIndex(all, r[j])
  {
    var all := AllTags(recipeTags, planTags, ingredients);
    var a, b := Seqs.FilterOrder(Seqs.KeepLast(all), findsRecipe, i, j);
    Seqs.KeepLastOrder(all, a, b);
  }

  /** Every ingredient title is a candidate, lower-cased, whatever tags the records carry. */
  lemma TitlesAreCandidates(recipeTags: seq<seq<string>>, planTags: seq<seq<string>>, ingredients: seq<TaggedIngredient>,
                            findsRecipe: TagEntry -> bool, k: nat)
    requires k < |ingredients|
    requires findsRecipe(TagEntry(Text.Lower(ingredients[k].title), "ingredient"))
    ensures TagEntry(Text.Lower(ingredients[k].title), "ingredient") in CreateTags(recipeTags, planTags, ingredients, findsRecipe)
  {
    assert AllTags(recipeTags, planTags, ingredients)[k] == TagEntry(Text.Lower(ingredients[k].title), "ingredient");
  }

  /** An empty recipe or meal-plan tag never becomes a candidate of that kind. */
  lemma {:induction false} BlankTagsDropped(recipeTags: seq<seq<string>>, planTags: seq<seq<string>>,
                                            ingredients: seq<TaggedIngredient>)
    ensures TagEntry("", "recipe") !in AllTags(recipeTags, planTags, ingredients)
    ensures TagEntry("", "mealplan") !in AllTags(recipeTags, planTags, ingredients)
  {
    var plans := Text.NonBlank(Flatten(planTags));
    var recipes := Text.NonBlank(Flatten(recipeTags));
    forall i | 0 <= i < |plans|
      ensures Text.Lower(plans[i]) != ""
    {
      assert plans[i] in plans;
    }
    forall i | 0 <= i < |recipes|
      ensures Text.Lower(recipes[i]) != ""
    {
      assert recipes[i] in recipes;
    }
  }
}

=== FILE: text.dfy ===
/**
 * String operations the source calls on JavaScript strings: case mapping,
 * `includes`, `split`, `join` and `trim`.
 * Case mapping covers the ASCII letters only; `toLowerCase` and `toUpperCase`
 * map every Unicode letter.
 */
module Text {

  function LowerChar(c: char): char {
    if 'A' <= c <= 'Z' then (c as int + 32) as char else c
  }

  function UpperChar(c: char): char {
    if 'a' <= c <= 'z' then (c as int - 32) as char else c
  }

  /** `s.toLowerCase()`. */
  function Lower(s: string): (r: string)
    ensures |r| == |s|
    ensures forall i :: 0 <= i < |s| ==> r[i] == LowerChar(s[i])
  {
    seq(|s|, i requires 0 <= i < |s| => LowerChar(s[i]))
  }

  /** Lower-casing twice is lower-casing once. */
  lemma LowerIdempotent(s: string)
    ensures Lower(Lower(s)) == Lower(s)
  {
  }

  /** `hay.includes(needle)`: some window of `hay` equals `needle`. */
  predicate Contains(hay: string, needle: string)
    decreases |hay|
  {
    |needle| <= |hay| && (hay[..|needle|] == needle || Contains(hay[1..], needle))
  }

  /** `s` holds `part` starting at index `i`. */
  predicate SliceAt(s: string, i: int, part: string) {
    0 <= i && i + |part| <= |s| && s[i..i + |part|] == part
  }

  /** `s.endsWith(suffix)`. */
  predicate EndsWith(s: string, suffix: string) {
    |suffix| <= |s| && s[|s| - |suffix|..] == suffix
  }

  /** What a string ends with, so does anything that ends with that string. */
  lemma EndsWithAppend(x: string, y: string, suffix: string)
    requires EndsWith(y, suffix)
    ensures EndsWith(x + y, suffix)
  {
    assert (x + y)[|x + y| - |suffix|..] == y[|y| - |suffix|..];
  }

  /** `Contains` agrees with the window definition of `includes`. */
  lemma {:induction false} ContainsWindow(hay: string, needle: string)
    ensures Contains(hay, needle) <==> exists i :: SliceAt(hay, i, needle)
    decreases |hay|
  {
    if |needle| <= |hay| && hay[..|needle|] != needle {
      ContainsWindow(hay[1..], needle);
      if Contains(hay[1..], needle) {
        var i :| SliceAt(hay[1..], i, needle);
        assert hay[i + 1..i + 1 + |needle|] == needle;
        assert SliceAt(hay, i + 1, needle);
      }
      if exists i :: SliceAt(hay, i, needle) {
        var i :| SliceAt(hay, i, needle);
        assert i != 0;
        assert hay[1..][i - 1..i - 1 + |needle|] == needle;
        assert SliceAt(hay[1..], i - 1, needle);
      }
    } else if |needle| <= |hay| {
      assert SliceAt(hay, 0, needle);
    }
  }

  /** A string can only contain a non-empty needle if it contains the needle's first character. */
  lemma {:induction false} ContainsFirst(hay: string, needle: string)
    requires |needle| > 0 && Contains(hay, needle)
    ensures needle[0] in hay
    decreases |hay|
  {
    if hay[..|needle|] == needle {
      assert hay[0] == needle[0];
    } else {
      ContainsFirst(hay[1..], needle);
    }
  }

  /** A string with no `a` immediately followed by `b` does not contain `[a, b]`. */
  lemma NotContainsPair(hay: string, a: char, b: char)
    requires forall i :: 0 <= i < |hay| - 1 ==> hay[i] != a || hay[i + 1] != b
    ensures !Contains(hay, [a, b])
  {
    ContainsWindow(hay, [a, b]);
    forall i
      ensures !SliceAt(hay, i, [a, b])
    {
      if 0 <= i && i + 2 <= |hay| {
        assert hay[i..i + 2][0] == hay[i] && hay[i..i + 2][1] == hay[i + 1];
      }
    }
  }

  /** Whatever contains a needle contains each of its prefixes. */
  lemma ContainsPrefix(hay: string, needle: string, k: nat)
    requires k <= |needle| && Contains(hay, needle)
    ensures Contains(hay, needle[..k])
  {
    ContainsWindow(hay, needle);
    ContainsWindow(hay, needle[..k]);
    var i :| SliceAt(hay, i, needle);
    assert hay[i..i + k] == needle[..k];
    assert SliceAt(hay, i, needle[..k]);
  }

  /** Every string contains itself and contains the empty string. */
  lemma ContainsSelf(s: string)
    ensures Contains(s, s)
    ensures Contains(s, "")
  {
    assert s[..|s|] == s;
    assert s[..0] == "";
  }

  /** Index of the first `c` in `s`, if any. */
  function IndexOf(s: string, c: char): (r: int)
    ensures -1 <= r < |s|
    ensures r == -1 <==> c !in s
    ensures r >= 0 ==> s[r] == c && c !in s[..r]
  {
    if |s| == 0 then -1
    else if s[0] == c then 0
    else
      var k := IndexOf(s[1..], c);
      if k == -1 then -1 else k + 1
  }

  /** `s.split(sep)` for a one-character separator. */
  function Split(s: string, sep: char): (r: seq<string>)
    ensures |r| >= 1
    ensures forall i :: 0 <= i < |r| ==> sep !in r[i]
    decreases |s|
  {
    var k := IndexOf(s, sep);
    if k == -1 then [s] else [s[..k]] + Split(s[k + 1..], sep)
  }

  /** `xs.join(sep)`. */
  function Join(xs: seq<string>, sep: string): string {
    if |xs| == 0 then ""
    else if |xs| == 1 then xs[0]
    else xs[0] + sep + Join(xs[1..], sep)
  }

  /** Splitting on a character and joining on that character gives the string back. */
  lemma {:induction false} JoinSplit(s: string, sep: char)
    ensures Join(Split(s, sep), [sep]) == s
    decreases |s|
  {
    var k := IndexOf(s, sep);
    if k != -1 {
      var rest := Split(s[k + 1..], sep);
      JoinSplit(s[k + 1..], sep);
      var parts := [s[..k]] + rest;
      assert Split(s, sep) == parts;
      assert |parts| >= 2 && parts[0] == s[..k] && parts[1..] == rest;
      assert Join(parts, [sep]) == s[..k] + [sep] + Join(rest, [sep]);
      assert s == s[..k] + [sep] + s[k + 1..];
    }
  }

  /**
   * The characters `trim` removes: the white space and line terminators of
   * section 12.2 and 12.3 of ECMA-262 (tab, vertical tab, form feed, the space
   * separators of Unicode category Zs, the byte-order mark, and the four line
   * terminators).
   */
  predicate IsSpace(c: char) {
    c == '\t' || c == '\U{B}' || c == '\U{C}' || c == ' ' || c == '\U{A0}' || c == '\U{FEFF}' ||
    c == '\U{1680}' || ('\U{2000}' <= c <= '\U{200A}') || c == '\U{202F}' || c == '\U{205F}' || c == '\U{3000}' ||
    c == '\n' || c == '\r' || c == '\U{2028}' || c == '\U{2029}'
  }

  function TrimStart(s: string): (r: string)
    ensures |r| <= |s| && r == s[|s| - |r|..]
    ensures |r| > 0 ==> !IsSpace(r[0])
  {
    if |s| > 0 && IsSpace(s[0]) then TrimStart(s[1..]) else s
  }

  function TrimEnd(s: string): (r: string)
    ensures |r| <= |s| && r == s[..|r|]
    ensures |r| > 0 ==> !IsSpace(r[|r| - 1])
  {
    if |s| > 0 && IsSpace(s[|s| - 1]) then TrimEnd(s[..|s| - 1]) else s
  }

  /** `s.trim()`: a slice of `s` with no white space at either end. */
  function Trim(s: string): (r: string)
    ensures |r| <= |s|
    ensures |r| > 0 ==> !IsSpace(r[0]) && !IsSpace(r[|r| - 1])
    ensures exists i :: SliceAt(s, i, r)
  {
    var t := TrimStart(s);
    var r := TrimEnd(t);
    assert SliceAt(s, |s| - |t|, r);
    r
  }

  /** `s.charAt(0).toUpperCase() + s.slice(1)`: the first character upper-cased. */
  function Capitalize(s: string): (r: string)
    ensures |r| == |s|
    ensures |s| > 0 ==> r[0] == UpperChar(s[0])
    ensures forall i :: 1 <= i < |s| ==> r[i] == s[i]
  {
    if |s| == 0 then [] else [UpperChar(s[0])] + s[1..]
  }

  /** Capitalizing changes only the case of the first character, so case-insensitive comparison cannot tell. */
  lemma CapitalizeIgnoringCase(s: string)
    ensures Lower(Capitalize(s)) == Lower(s)
  {
    if |s| > 0 {
      assert Lower(Capitalize(s))[0] == LowerChar(UpperChar(s[0])) == LowerChar(s[0]);
    }
  }

  /** `filter(Boolean)` on strings: the empty ones are dropped. */
  function NonBlank(xs: seq<string>): (r: seq<string>)
    ensures forall x :: x in r <==> x in xs && x != ""
  {
    if |xs| == 0 then []
    else NonBlank(xs[..|xs| - 1]) + (if xs[|xs| - 1] != "" then [xs[|xs| - 1]] else [])
  }

  lemma {:induction false} NonBlankAppend(a: seq<string>, b: seq<string>)
    ensures NonBlank(a + b) == NonBlank(a) + NonBlank(b)
  {
    if |b| == 0 {
      assert a + b == a;
    } else {
      NonBlankAppend(a, b[..|b| - 1]);
      assert (a + b)[..|a + b| - 1] == a + b[..|b| - 1];
    }
  }

  lemma {:induction false} NonBlankTwice(a: seq<string>)
    ensures NonBlank(NonBlank(a)) == NonBlank(a)
  {
    if |a| > 0 {
      var p := a[..|a| - 1];
      NonBlankTwice(p);
      var tail := if a[|a| - 1] != "" then [a[|a| - 1]] else [];
      NonBlankAppend(NonBlank(p), tail);
      assert NonBlank(tail) == tail by {
        if |tail| > 0 { assert tail[..0] == []; }
      }
    }
  }
}

=== FILE: units.dfy ===
/**
 * The unit registry and the conversions between a recipe unit and the fundamental
 * unit of its measurement type: millilitres for volume, grams for weight.
 *
 * Each table entry says how many of that unit make up the table's reference amount
 * (946 mL, one quart, for volume; 453.6 g, one pound, for weight), so one unit of an
 * entry with value `v` is `946 / v` mL or `453.6 / v` g.
 */
module Units {
  import opened Wrappers
  import opened Js
  import Text

  datatype MeasurementType = Volume | Weight | Count

  datatype UnitEntry = UnitEntry(name: string, value: real)

  /** Why a lookup failed; `Message` gives the string the source returns. */
  datatype LookupError = InvalidMeasurementType | InvalidUnit

  function Message(e: LookupError): string {
    match e
    case InvalidMeasurementType => "Invalid measurement type"
    case InvalidUnit => "Invalid unit"
  }

  /**
   * What a conversion hands back: a `{unit, value}` record, one of the two error
   * strings, or nothing at all (`undefined`).
   */
  datatype Conversion = Converted(unit: string, value: Num) | Rejected(error: LookupError) | NoResult

  /** `conversion && conversion.value`: the error string and `undefined` have no value. */
  function ValueOf(c: Conversion): Num {
    if c.Converted? then c.value else None
  }

  const VolumeReference: real := 946.0
  const WeightReference: real := 453.6

  const VolumeUnits: seq<UnitEntry> := [
    UnitEntry("Cup(s)", 4.0),
    UnitEntry("Pint(s)", 2.0),
    UnitEntry("Quart(s)", 1.0),
    UnitEntry("Gallon(s)", 0.25),
    UnitEntry("Ounce(s)", 32.0),
    UnitEntry("Fluid Ounce(s)", 32.0),
    UnitEntry("Tablespoon(s)", 64.0),
    UnitEntry("Teaspoon(s)", 192.0),
    UnitEntry("Milliliter(s)", 946.0)
  ]

  const WeightUnits: seq<UnitEntry> := [
    UnitEntry("Teaspoon(s)", 96.0),
    UnitEntry("Tablespoon(s)", 32.0),
    UnitEntry("Ounce(s)", 16.0),
    UnitEntry("Pound(s)", 1.0),
    UnitEntry("Cup(s)", 2.0),
    UnitEntry("Pint(s)", 1.0)
  ]

  /** Every registered unit is a positive fraction of its reference amount. */
  lemma TablesPositive()
    ensures forall k :: 0 <= k < |VolumeUnits| ==> VolumeUnits[k].value > 0.0
    ensures forall k :: 0 <= k < |WeightUnits| ==> WeightUnits[k].value > 0.0
  {
  }

  /** The measurement type named by a string, compared after lower-casing. */
  function ParseType(measurementType: string): (r: Option<MeasurementType>)
    ensures r == Some(Volume) <==> Text.Lower(measurementType) == "volume"
    ensures r == Some(Weight) <==> Text.Lower(measurementType) == "weight"
    ensures r == Some(Count) <==> Text.Lower(measurementType) == "count"
  {
    var t := Text.Lower(measurementType);
    if t == "volume" then Some(Volume)
    else if t == "weight" then Some(Weight)
    else if t == "count" then Some(Count)
    else None
  }

  /** A table entry answers to `unit` when its lower-cased name includes or equals the lower-cased unit. */
  predicate Matches(e: UnitEntry, unit: string) {
    var name := Text.Lower(e.name);
    var u := Text.Lower(unit);
    Text.Contains(name, u) || name == u
  }

  /** `units.find(...)`: the index of the first entry that answers to `unit`. */
  function FindUnit(table: seq<UnitEntry>, unit: string): (r: Option<nat>)
    ensures r.Some? ==> r.value < |table| && Matches(table[r.value], unit)
    ensures r.Some? ==> forall j :: 0 <= j < r.value ==> !Matches(table[j], unit)
    ensures r.None? ==> forall j :: 0 <= j < |table| ==> !Matches(table[j], unit)
  {
    if |table| == 0 then None
    else if Matches(table[0], unit) then Some(0)
    else
      match FindUnit(table[1..], unit)
      case Some(k) => Some(k + 1)
      case None => None
  }

  function TableOf(t: MeasurementType): seq<UnitEntry> {
    match t
    case Volume => VolumeUnits
    case Weight => WeightUnits
    case Count => []
  }

  function ReferenceOf(t: MeasurementType): real {
    if t == Weight then WeightReference else VolumeReference
  }

  /**
   * `checkIfValidUnit`: the measurement type and the first entry of its table that
   * answers to `unit`. Count has no table, so it never yields an entry.
   */
  function CheckIfValidUnit(measurementType: string, unit: string): (r: Result<(MeasurementType, UnitEntry), LookupError>)
    ensures r == Failure(InvalidMeasurementType) <==> ParseType(measurementType).None?
    ensures ParseType(measurementType) == Some(Count) ==> r == Failure(InvalidUnit)
    ensures r.Success? ==> r.value.0 != Count && ParseType(measurementType) == Some(r.value.0)
    ensures r.Success? ==>
      var found := FindUnit(TableOf(r.value.0), unit);
      found.Some? && r.value.1 == TableOf(r.value.0)[found.value]
    ensures r.Success? ==> r.value.1.value > 0.0
  {
    match ParseType(measurementType)
    case None => Failure(InvalidMeasurementType)
    case Some(t) =>
      if t == Count then Failure(InvalidUnit)
      else
        match FindUnit(TableOf(t), unit)
        case None => Failure(InvalidUnit)
        case Some(k) =>
          TablesPositive();
          Success((t, TableOf(t)[k]))
  }

  /** The fundamental unit of a measurement type, as `convertToFundamentalUnit` names it. */
  function FundamentalName(t: MeasurementType): string {
    if t == Weight then "g" else "mL"
  }

  /**
   * `convertToFundamentalUnit`: a falsy quantity passes through untouched; otherwise
   * the unit is looked up and the quantity is expressed in mL or g.
   */
  function ToFundamental(measurementType: string, unit: string, qty: Num): (r: Conversion)
    ensures !Truthy(qty) ==> r == Converted(unit, qty)
    ensures Truthy(qty) && CheckIfValidUnit(measurementType, unit).Failure? ==>
      r == Rejected(CheckIfValidUnit(measurementType, unit).error)
    ensures Truthy(qty) && CheckIfValidUnit(measurementType, unit).Success? ==>
      var found := CheckIfValidUnit(measurementType, unit).value;
      r == Converted(FundamentalName(found.0), Some(ToAmount(ReferenceOf(found.0), found.1.value, qty.value)))
    ensures r != NoResult
  {
    if Truthy(qty) then
      match CheckIfValidUnit(measurementType, unit)
      case Failure(e) => Rejected(e)
      case Success((t, e)) =>
        if t == Count then Converted(unit, qty)
        else
          // 'volume' gives mL from 946, 'weight' gives g from 453.6
          Converted(FundamentalName(t), Some(ToAmount(ReferenceOf(t), e.value, qty.value)))
    else Converted(unit, qty)
  }

  /** The spellings of millilitres and of grams the converse conversion accepts as its source unit. */
  predicate IsMillilitres(u: string) {
    u == "mL" || u == "milliliters" || u == "millilitres" || u == "Milliliter(s)"
  }

  predicate IsGrams(u: string) {
    u == "g" || u == "grams" || u == "Gram(s)"
  }

  /**
   * `convertFundamentalUnitToTargetUnit`: identity when the units are the same
   * string; otherwise the target is looked up (in the table of `measurementType`)
   * and the source unit spelling decides which reference amount divides.
   */
  function FromFundamental(measurementType: string, current: string, qty: Num, target: string): (r: Conversion)
    ensures current == target ==> r == Converted(target, qty)
    ensures current != target && CheckIfValidUnit(measurementType, target).Failure? ==>
      r == Rejected(CheckIfValidUnit(measurementType, target).error)
    ensures current != target && CheckIfValidUnit(measurementType, target).Success? ==>
      var e := CheckIfValidUnit(measurementType, target).value.1;
      if IsMillilitres(current) || IsGrams(current) then
        var reference := if IsMillilitres(current) then VolumeReference else WeightReference;
        r.Converted? && r.unit == target && (qty.Some? <==> r.value.Some?) &&
        (qty.Some? ==> r.value.value == FromAmount(reference, e.value, qty.value))
      else if current == "count" then r == Converted(target, qty)
      else r == NoResult
  {
    if current == target then Converted(target, qty)
    else
      match CheckIfValidUnit(measurementType, target)
      case Failure(err) => Rejected(err)
      case Success((_, e)) =>
        if IsMillilitres(current) then Converted(target, if qty.Some? then Some(FromAmount(VolumeReference, e.value, qty.value)) else None)
        else if IsGrams(current) then Converted(target, if qty.Some? then Some(FromAmount(WeightReference, e.value, qty.value)) else None)
        else if current == "count" then Converted(target, qty)
        else NoResult
  }

  /** `(reference / v) * qty`: `qty` of a unit worth `v` per reference amount, in fundamental units. */
  function ToAmount(reference: real, v: real, qty: real): real
    requires v != 0.0
  {
    (reference / v) * qty
  }

  /** `(v / reference) * qty`: `qty` fundamental units in a unit worth `v` per reference amount. */
  function FromAmount(reference: real, v: real, qty: real): real
    requires reference != 0.0
  {
    (v / reference) * qty
  }

  /** `qty` units worth `v` each are `reference * qty` in units worth one reference amount; the sign is kept. */
  lemma ToAmountMeaning(reference: real, v: real, q: real)
    requires v > 0.0 && reference > 0.0
    ensures ToAmount(reference, v, q) * v == reference * q
    ensures ToAmount(reference, v, q) > 0.0 <==> q > 0.0
    ensures ToAmount(reference, v, q) == 0.0 <==> q == 0.0
  {
    assert reference / v > 0.0;
    assert (reference / v) * v == reference;
  }

  /** The two scalings undo each other. */
  lemma AmountRoundTrip(reference: real, v: real, q: real)
    requires v > 0.0 && reference > 0.0
    ensures FromAmount(reference, v, ToAmount(reference, v, q)) == q
  {
    calc {
      FromAmount(reference, v, ToAmount(reference, v, q));
      (v / reference) * ((reference / v) * q);
      ((v / reference) * (reference / v)) * q;
      { assert (v / reference) * (reference / v) == 1.0; }
      q;
    }
  }

  /**
   * Converting a quantity to the fundamental unit and back to the unit it came
   * from returns the same quantity exactly, whenever the unit is registered for
   * the measurement type (or the quantity is falsy and so never converted).
   */
  lemma RoundTrip(measurementType: string, unit: string, qty: Num)
    requires !Truthy(qty) || CheckIfValidUnit(measurementType, unit).Success?
    ensures ToFundamental(measurementType, unit, qty).Converted?
    ensures
      var f := ToFundamental(measurementType, unit, qty);
      FromFundamental(measurementType, f.unit, f.value, unit) == Converted(unit, qty)
  {
    if Truthy(qty) {
      RoundTripConverted(measurementType, unit, qty);
    }
  }

  lemma RoundTripConverted(measurementType: string, unit: string, qty: Num)
    requires Truthy(qty) && CheckIfValidUnit(measurementType, unit).Success?
    ensures ToFundamental(measurementType, unit, qty).Converted?
    ensures
      var f := ToFundamental(measurementType, unit, qty);
      FromFundamental(measurementType, f.unit, f.value, unit) == Converted(unit, qty)
  {
    var found := CheckIfValidUnit(measurementType, unit).value;
    AmountRoundTrip(ReferenceOf(found.0), found.1.value, qty.value);
    FundamentalNotRegistered(measurementType);
  }

  /**
   * A fundamental unit name is not registered in its own table, so a converted
   * quantity never carries the name of a registered unit. ("g" does answer to the
   * volume entry "Gallon(s)".)
   */
  lemma FundamentalNotRegistered(measurementType: string)
    requires ParseType(measurementType) in {Some(Volume), Some(Weight)}
    ensures CheckIfValidUnit(measurementType, FundamentalName(ParseType(measurementType).value)).Failure?
  {
    if ParseType(measurementType) == Some(Volume) {
      assert Text.Lower("mL") == "ml";
      NoVolumeEntryIsMl("mL");
    } else {
      assert Text.Lower("g") == "g";
      NoWeightEntryIsG("g");
    }
  }

  lemma NoVolumeEntryIsMl(unit: string)
    requires Text.Lower(unit) == "ml"
    ensures FindUnit(VolumeUnits, unit) == None
  {
    NoMatchFirstVolume(unit, 'm');
    NoMatchNextVolume(unit, 'm');
    MillilitreNotMl(unit);
    forall k | 0 <= k < |VolumeUnits|
      ensures !Matches(VolumeUnits[k], unit)
    {
    }
  }

  lemma NoWeightEntryIsG(unit: string)
    requires Text.Lower(unit) == "g"
    ensures FindUnit(WeightUnits, unit) == None
  {
    NoMatchFirstWeight(unit, 'g');
    NoMatchNextWeight(unit, 'g');
    forall k | 0 <= k < |WeightUnits|
      ensures !Matches(WeightUnits[k], unit)
    {
    }
  }

  lemma NoMatchFirstVolume(unit: string, c: char)
    requires |unit| > 0 && Text.LowerChar(unit[0]) == c && c == 'm'
    ensures !Matches(VolumeUnits[0], unit) && !Matches(VolumeUnits[1], unit)
    ensures !Matches(VolumeUnits[2], unit) && !Matches(VolumeUnits[3], unit)
  {
    NoMatchWithout(UnitEntry("Cup(s)", 4.0), unit, c);
    NoMatchWithout(UnitEntry("Pint(s)", 2.0), unit, c);
    NoMatchWithout(UnitEntry("Quart(s)", 1.0), unit, c);
    NoMatchWithout(UnitEntry("Gallon(s)", 0.25), unit, c);
  }

  lemma NoMatchNextVolume(unit: string, c: char)
    requires |unit| > 0 && Text.LowerChar(unit[0]) == c && c == 'm'
    ensures !Matches(VolumeUnits[4], unit) && !Matches(VolumeUnits[5], unit)
    ensures !Matches(VolumeUnits[6], unit) && !Matches(VolumeUnits[7], unit)
  {
    NoMatchWithout(UnitEntry("Ounce(s)", 32.0), unit, c);
    NoMatchWithout(UnitEntry("Fluid Ounce(s)", 32.0), unit, c);
    NoMatchWithout(UnitEntry("Tablespoon(s)", 64.0), unit, c);
    NoMatchWithout(UnitEntry("Teaspoon(s)", 192.0), unit, c);
  }

  lemma NoMatchFirstWeight(unit: string, c: char)
    requires |unit| > 0 && Text.LowerChar(unit[0]) == c && c == 'g'
    ensures !Matches(WeightUnits[0], unit) && !Matches(WeightUnits[1], unit) && !Matches(WeightUnits[2], unit)
  {
    NoMatchWithout(UnitEntry("Teaspoon(s)", 96.0), unit, c);
    NoMatchWithout(UnitEntry("Tablespoon(s)", 32.0), unit, c);
    NoMatchWithout(UnitEntry("Ounce(s)", 16.0), unit, c);
  }

  lemma NoMatchNextWeight(unit: string, c: char)
    requires |unit| > 0 && Text.LowerChar(unit[0]) == c && c == 'g'
    ensures !Matches(WeightUnits[3], unit) && !Matches(WeightUnits[4], unit) && !Matches(WeightUnits[5], unit)
  {
    NoMatchWithout(UnitEntry("Pound(s)", 1.0), unit, c);
    NoMatchWithout(UnitEntry("Cup(s)", 2.0), unit, c);
    NoMatchWithout(UnitEntry("Pint(s)", 1.0), unit, c);
  }

  /** "Milliliter(s)" spells its "m" and "l" apart, so it does not answer to "mL". */
  lemma MillilitreNotMl(unit: string)
    requires Text.Lower(unit) == "ml"
    ensures !Matches(VolumeUnits[8], unit)
  {
    var name := VolumeUnits[8].name;
    assert name == "Milliliter(s)";
    assert Text.LowerChar(name[1]) == 'i';
    assert forall i :: 1 <= i < |name| ==> name[i] != 'm' && name[i] != 'M';
    OnlyLeadingM(name);
    Text.NotContainsPair(Text.Lower(name), 'm', 'l');
    assert |Text.Lower(name)| != 2;
  }

  /** A name whose only "m" is its first character, not followed by "l", has no "ml" once lower-cased. */
  lemma OnlyLeadingM(name: string)
    requires |name| >= 2 && Text.LowerChar(name[1]) != 'l'
    requires forall i :: 1 <= i < |name| ==> name[i] != 'm' && name[i] != 'M'
    ensures forall i :: 0 <= i < |Text.Lower(name)| - 1 ==> Text.Lower(name)[i] != 'm' || Text.Lower(name)[i + 1] != 'l'
  {
    var low := Text.Lower(name);
    forall i | 0 <= i < |low| - 1
      ensures low[i] != 'm' || low[i + 1] != 'l'
    {
      if i > 0 {
        assert low[i] == Text.LowerChar(name[i]);
      }
    }
  }

  /** An entry whose lower-cased name lacks the unit's first character does not answer to it. */
  lemma NoMatchWithout(e: UnitEntry, unit: string, c: char)
    requires |unit| > 0 && Text.LowerChar(unit[0]) == c && 'a' <= c <= 'z'
    requires c !in e.name && Text.UpperChar(c) !in e.name
    ensures !Matches(e, unit)
  {
    assert c !in Text.Lower(e.name) by {
      forall i | 0 <= i < |e.name|
        ensures Text.Lower(e.name)[i] != c
      {
        assert e.name[i] != c && e.name[i] != Text.UpperChar(c);
      }
    }
    var u := Text.Lower(unit);
    if Text.Contains(Text.Lower(e.name), u) {
      Text.ContainsFirst(Text.Lower(e.name), u);
    }
    assert Text.Lower(e.name) != u by {
      if |Text.Lower(e.name)| > 0 {
        assert Text.Lower(e.name)[0] in Text.Lower(e.name);
      }
    }
  }

  /**
   * "ounce", in any capitalisation, resolves to the volume entry "Ounce(s)" (32 to
   * the quart), which precedes "Fluid Ounce(s)".
   */
  lemma OunceIsLiquidOunce(measurementType: string, unit: string)
    requires ParseType(measurementType) == Some(Volume) && Text.Lower(unit) == "ounce"
    ensures CheckIfValidUnit(measurementType, unit) == Success((Volume, UnitEntry("Ounce(s)", 32.0)))
  {
    OunceSkipsFirst(unit);
    OunceMatchesOunce(unit);
    assert FindUnit(VolumeUnits, unit) == Some(4);
  }

  lemma OunceSkipsFirst(unit: string)
    requires Text.Lower(unit) == "ounce"
    ensures !Matches(VolumeUnits[0], unit) && !Matches(VolumeUnits[1], unit)
    ensures !Matches(VolumeUnits[2], unit) && !Matches(VolumeUnits[3], unit)
  {
    assert Text.LowerChar(unit[0]) == 'o';
    NoMatchWithout(UnitEntry("Cup(s)", 4.0), unit, 'o');
    NoMatchWithout(UnitEntry("Pint(s)", 2.0), unit, 'o');
    NoMatchWithout(UnitEntry("Quart(s)", 1.0), unit, 'o');
    GallonNotOunce(unit);
  }

  lemma OunceMatchesOunce(unit: string)
    requires Text.Lower(unit) == "ounce"
    ensures Matches(VolumeUnits[4], unit)
  {
    assert Text.Lower(VolumeUnits[4].name)[..5] == "ounce";
  }

  /** "Gallon(s)" has no "o" followed by "u", so it does not answer to "ounce". */
  lemma GallonNotOunce(unit: string)
    requires Text.Lower(unit) == "ounce"
    ensures !Matches(VolumeUnits[3], unit)
  {
    var name := VolumeUnits[3].name;
    var low := Text.Lower(name);
    assert name[..4] == "Gall" && name[5..] == "n(s)";
    assert 'o' !in name[..4] && 'O' !in name[..4] && 'o' !in name[5..] && 'O' !in name[5..];
    forall i | 0 <= i < |low| - 1
      ensures low[i] != 'o' || low[i + 1] != 'u'
    {
      if i == 4 {
        assert low[5] == Text.LowerChar(name[5]) == 'n';
      } else if i < 4 {
        assert name[i] == name[..4][i];
        assert name[i] in name[..4];
      } else {
        assert name[i] == name[5..][i - 5];
        assert name[i] in name[5..];
      }
    }
    Text.NotContainsPair(low, 'o', 'u');
    assert "ounce"[..2] == ['o', 'u'];
    if Text.Contains(low, "ounce") {
      Text.ContainsPrefix(low, "ounce", 2);
    }
    assert |low| != 5;
  }

  /** The empty unit answers to the first entry of either table. */
  lemma EmptyUnitIsFirst(measurementType: string)
    requires ParseType(measurementType) in {Some(Volume), Some(Weight)}
    ensures CheckIfValidUnit(measurementType, "").Success?
    ensures CheckIfValidUnit(measurementType, "").value.1 == TableOf(ParseType(measurementType).value)[0]
  {
    var t := ParseType(measurementType).value;
    Text.ContainsSelf(Text.Lower(TableOf(t)[0].name));
    assert Text.Lower("") == "";
    assert Matches(TableOf(t)[0], "");
  }

  /** The count measurement type never resolves a unit, so its conversions always report "Invalid unit". */
  lemma CountNeverResolves(measurementType: string, unit: string, qty: Num)
    requires Text.Lower(measurementType) == "count"
    ensures CheckIfValidUnit(measurementType, unit) == Failure(InvalidUnit)
    ensures Truthy(qty) ==> ToFundamental(measurementType, unit, qty) == Rejected(InvalidUnit)
  {
  }
}

=== FILE: users.dfy ===
/**
 * The pure rules of controllers/userController.js: the favourite and bookmark
 * toggles, the `updateUser` whitelist, the sign-in guards, and the HTML body of
 * the shopping-list email. Tokens are modelled by the claims they carry.
 */
module Users {
  import opened Wrappers
  import opened Js
  import opened Errors
  import opened Models
  import Memberful

  // ---- addRemoveFavorite / addRemoveBookmark ----

  /** `list.filter(x => !x.equals(id))`. */
  function RemoveAll(list: seq<string>, id: string): (r: seq<string>)
    ensures multiset(r) == multiset(list)[id := 0]
  {
    if |list| == 0 then []
    else
      var p := list[..|list| - 1];
      assert list == p + [list[|list| - 1]];
      RemoveAll(p, id) + (if list[|list| - 1] != id then [list[|list| - 1]] else [])
  }

  /**
   * The toggle both endpoints share: an id not in the list is appended at the
   * end, an id in the list is removed with all its copies.
   */
  function Toggle(list: seq<string>, id: string): (r: seq<string>)
    ensures id !in list ==> r == list + [id]
    ensures id in list ==> multiset(r) == multiset(list)[id := 0]
    ensures id in r <==> id !in list
    ensures forall x :: x != id ==> (x in r <==> x in list)
  {
    if id !in list then list + [id]
    else
      var r := RemoveAll(list, id);
      assert forall x :: x in r <==> x in multiset(r);
      r
  }

  /** Removal keeps the remaining ids in their order. */
  lemma {:induction false} RemoveAllKeepsOrder(list: seq<string>, id: string, i: nat, j: nat) returns (a: nat, b: nat)
    requires i < j < |RemoveAll(list, id)|
    ensures a < b < |list| && list[a] == RemoveAll(list, id)[i] && list[b] == RemoveAll(list, id)[j]
  {
    var n := |list| - 1;
    var rest := RemoveAll(list[..n], id);
    if j < |rest| {
      a, b := RemoveAllKeepsOrder(list[..n], id, i, j);
    } else {
      a := RemoveAllIndex(list[..n], id, i);
      b := n;
    }
  }

  lemma {:induction false} RemoveAllIndex(list: seq<string>, id: string, i: nat) returns (a: nat)
    requires i < |RemoveAll(list, id)|
    ensures a < |list| && list[a] == RemoveAll(list, id)[i]
  {
    var n := |list| - 1;
    var rest := RemoveAll(list[..n], id);
    if i < |rest| {
      a := RemoveAllIndex(list[..n], id, i);
    } else {
      a := n;
    }
  }

  /** Removing what is not there changes nothing. */
  lemma {:induction false} RemoveAbsent(list: seq<string>, id: string)
    requires id !in list
    ensures RemoveAll(list, id) == list
  {
    if |list| > 0 {
      var p := list[..|list| - 1];
      RemoveAbsent(p, id);
      assert list == p + [list[|list| - 1]];
    }
  }

  /** Toggling an id on and off again restores the list. */
  lemma ToggleTwice(list: seq<string>, id: string)
    requires id !in list
    ensures Toggle(Toggle(list, id), id) == list
  {
    var l := list + [id];
    assert l[..|l| - 1] == list;
    RemoveAbsent(list, id);
  }

  /** A list without repeats stays without repeats. */
  lemma ToggleKeepsDistinct(list: seq<string>, id: string)
    requires forall i, j :: 0 <= i < j < |list| ==> list[i] != list[j]
    ensures var r := Toggle(list, id);
      forall i, j :: 0 <= i < j < |r| ==> r[i] != r[j]
  {
    var r := Toggle(list, id);
    if id in list {
      forall i, j | 0 <= i < j < |r|
        ensures r[i] != r[j]
      {
        var a, b := RemoveAllKeepsOrder(list, id, i, j);
      }
    }
  }

  /** The favourites after `addRemoveFavorite`. */
  function AddRemoveFavorite(u: UserRecord, recipeId: string): (r: UserRecord)
    ensures r.favoriteRecipes == Toggle(u.favoriteRecipes, recipeId)
    ensures r.(favoriteRecipes := u.favoriteRecipes) == u
  {
    u.(favoriteRecipes := Toggle(u.favoriteRecipes, recipeId))
  }

  /** The bookmarks after `addRemoveBookmark`: the same toggle on the other list. */
  function AddRemoveBookmark(u: UserRecord, recipeId: string): (r: UserRecord)
    ensures r.bookmarkedRecipes == Toggle(u.bookmarkedRecipes, recipeId)
    ensures r.(bookmarkedRecipes := u.bookmarkedRecipes) == u
  {
    u.(bookmarkedRecipes := Toggle(u.bookmarkedRecipes, recipeId))
  }

  // ---- updateUser ----

  /** The request body of `updateUser`; only these four fields are read. */
  datatype UserUpdate = UserUpdate(
    unitPreference: Option<string>, primaryDiet: Option<string>, isGlutenFree: Option<bool>, isDairyFree: Option<bool>)

  /**
   * `updateUser`: a missing user is a 404; otherwise the four whitelisted fields
   * given in the body are written and nothing else changes.
   */
  function UpdateUser(stored: Option<UserRecord>, body: UserUpdate): (r: Result<UserRecord, Thrown>)
    ensures stored.None? ==> r == Failure(App("No document found with that ID", 404))
    ensures stored.Some? ==> r.Success?
    ensures r.Success? ==>
      r.value.(unitPreference := stored.value.unitPreference, primaryDiet := stored.value.primaryDiet,
               isGlutenFree := stored.value.isGlutenFree, isDairyFree := stored.value.isDairyFree) == stored.value
    ensures r.Success? ==> r.value.unitPreference == body.unitPreference.GetOr(stored.value.unitPreference)
    ensures r.Success? ==> r.value.primaryDiet == body.primaryDiet.GetOr(stored.value.primaryDiet)
    ensures r.Success? ==> r.value.isGlutenFree == body.isGlutenFree.GetOr(stored.value.isGlutenFree)
    ensures r.Success? ==> r.value.isDairyFree == body.isDairyFree.GetOr(stored.value.isDairyFree)
  {
    if stored.None? then Failure(App("No document found with that ID", 404))
    else
      var u := stored.value;
      Success(u.(unitPreference := body.unitPreference.GetOr(u.unitPreference),
                 primaryDiet := body.primaryDiet.GetOr(u.primaryDiet),
                 isGlutenFree := body.isGlutenFree.GetOr(u.isGlutenFree),
                 isDairyFree := body.isDairyFree.GetOr(u.isDairyFree)))
  }

  /** Sending the same update twice is sending it once. */
  lemma UpdateIdempotent(u: UserRecord, body: UserUpdate)
    ensures UpdateUser(Some(UpdateUser(Some(u), body).value), body) == UpdateUser(Some(u), body)
  {
  }

  // ---- login / loginAdmin ----

  /** A signed token, modelled by its claims: an email and one id. */
  datatype Token = Token(email: string, id: string)

  datatype Session = Session(user: UserRecord, token: Token)

  /**
   * `login`: whatever the sign-in throws is passed on; a user without an email or
   * a Memberful id is refused with 401; otherwise the token names both.
   */
  function Login(signIn: Result<UserRecord, Thrown>): (r: Result<Session, Thrown>)
    ensures signIn.Failure? ==> r == Failure(signIn.error)
    ensures r.Success? <==> signIn.Success? && StrTruthy(signIn.value.email) && StrTruthy(signIn.value.memberfulId)
    ensures signIn.Success? && r.Failure? ==> r.error == App("Invalid Credentials", 401)
    ensures r.Success? ==>
      r.value.user == signIn.value && r.value.token == Token(signIn.value.email.value, signIn.value.memberfulId.value)
  {
    match signIn
    case Failure(e) => Failure(e)
    case Success(u) =>
      if !StrTruthy(u.email) || !StrTruthy(u.memberfulId) then Failure(App("Invalid Credentials", 401))
      else Success(Session(u, Token(u.email.value, u.memberfulId.value)))
  }

  /**
   * `loginAdmin`: an email and a password must be given, the first user with that
   * email must exist (reading a missing user throws) and must be an admin. The
   * password is never compared.
   */
  function LoginAdmin(email: Option<string>, adminPassword: Option<string>, found: Option<UserRecord>)
    : (r: Result<Session, Thrown>)
    ensures r.Success? <==> StrTruthy(email) && StrTruthy(adminPassword) && found.Some? && found.value.isAdmin
    ensures !StrTruthy(email) || !StrTruthy(adminPassword) ==> r == Failure(App("Invalid credentials", 401))
    ensures StrTruthy(email) && StrTruthy(adminPassword) && found.None? ==> r.Failure? && r.error.Crashed?
    ensures StrTruthy(email) && StrTruthy(adminPassword) && found.Some? && !found.value.isAdmin ==>
      r == Failure(App("Invalid credentials", 401))
    ensures r.Success? ==> r.value == Session(found.value, Token(email.value, found.value.objectId))
  {
    if !StrTruthy(email) || !StrTruthy(adminPassword) then Failure(App("Invalid credentials", 401))
    else if found.None? then Failure(Crashed(TypeError("is_admin of undefined")))
    else if found.value.isAdmin then Success(Session(found.value, Token(email.value, found.value.objectId)))
    else Failure(App("Invalid credentials", 401))
  }

  /** Any non-empty password is as good as any other. */
  lemma PasswordNeverCompared(email: Option<string>, p: string, q: string, found: Option<UserRecord>)
    requires p != "" && q != ""
    ensures LoginAdmin(email, Some(p), found) == LoginAdmin(email, Some(q), found)
  {
  }

  /** A password sign-in whose member comes without subscriptions never reaches the token. */
  lemma PasswordLoginFails(params: Memberful.Credentials, answers: Memberful.MemberfulAnswers,
                           existing: Option<UserRecord>, newId: string, env: Option<string>)
    requires !StrTruthy(params.authCode) && StrTruthy(params.email)
    requires var member := answers.byEmail(params.email.value);
      member.Success? && member.value.Some? && member.value.value.subscriptions.None?
    ensures Login(Memberful.Authenticate(params, answers, existing, newId, env)).Failure?
  {
    Memberful.PasswordSignInNeedsSubscriptions(params, answers, existing, newId, env);
  }

  // ---- sendEmail: the body ----

  /** A stored shopping-list line as the email reads it. */
  datatype EmailLine = EmailLine(checked: bool, title: Option<string>, desiredTitle: Option<string>, notes: Option<string>)

  /** A stored section: its category and lines, either possibly missing. */
  datatype EmailGroup = EmailGroup(category: Option<string>, ingredients: Option<seq<EmailLine>>)

  /** Decimal digits of a natural number. */
  function NatText(n: nat): (r: string)
    ensures |r| > 0
    ensures forall k :: 0 <= k < |r| ==> '0' <= r[k] <= '9'
    decreases n
  {
    var d := [(n % 10 + '0' as int) as char];
    if n < 10 then d else NatText(n / 10) + d
  }

  const LineOpen: string := "<div style='margin-bottom: 5px'><input type='checkbox' "

  const NotesClose: string := "</span></div></div>"

  /** The element id of line `j` of group `i`: `${title}-${i}-${j}`. */
  function LineId(line: EmailLine, i: nat, j: nat): string {
    Show(line.title) + "-" + NatText(i) + "-" + NatText(j)
  }

  /** The notes block, present only when the line has notes. */
  function NotesBlock(line: EmailLine): string {
    if StrTruthy(line.notes) then
      "<div><span style='color:#FF644C'>Shopping Notes: </span><span>" + line.notes.value + "</span></div>"
    else ""
  }

  /** The label part of a line, from the element id to the closing label tag. */
  function LineLabel(line: EmailLine, id: string): (r: string)
    ensures |r| > 9 && r[0] == ' ' && Text.EndsWith(r, " </label>")
  {
    var front := " id='" + id + "'><label for='" + id + "'> " + Show(line.desiredTitle);
    Text.EndsWithAppend(front, " </label>", " </label>");
    front + " </label>"
  }

  /** The end of a line: the notes block when there are notes, then the closing tag. */
  function LineEnd(line: EmailLine): (r: string)
    ensures StrTruthy(line.notes) ==> Text.EndsWith(r, NotesClose)
    ensures !StrTruthy(line.notes) ==> r == "</div>"
  {
    var r := NotesBlock(line) + "</div>";
    assert StrTruthy(line.notes) ==> r[|r| - |NotesClose|..] == NotesClose;
    r
  }

  /** One line: a checkbox, its label, then the notes block when there are notes. */
  function LineHtml(line: EmailLine, id: string): string {
    LineStart(line, id) + LineEnd(line)
  }

  /** The checkbox and its label, which ends with the closing label tag. */
  function LineStart(line: EmailLine, id: string): (r: string)
    ensures |r| >= |NotesClose| && Text.EndsWith(r, " </label>")
  {
    OpenLongerThanClose();
    Text.EndsWithAppend(LineOpen + Tick(line), LineLabel(line, id), " </label>");
    LineOpen + Tick(line) + LineLabel(line, id)
  }

  /** The checkbox attribute: `checked` for a checked line, nothing otherwise. */
  function Tick(line: EmailLine): (r: string)
    ensures line.checked ==> r == "checked"
    ensures !line.checked ==> r == ""
  {
    if line.checked then "checked" else ""
  }

  /** A line opens with a checkbox that is ticked exactly when the line is checked. */
  lemma LineTicked(line: EmailLine, id: string)
    ensures var r := LineHtml(line, id);
      |r| >= |LineOpen| + 7 && r[..|LineOpen|] == LineOpen &&
      (line.checked <==> r[|LineOpen|..|LineOpen| + 7] == "checked")
  {
    TickAt(LineOpen, Tick(line), LineLabel(line, id), LineEnd(line));
  }

  /** A line ends with the notes block exactly when it has notes. */
  lemma LineNotes(line: EmailLine, id: string)
    ensures StrTruthy(line.notes) <==> Text.EndsWith(LineHtml(line, id), NotesClose)
  {
    EndsAt(LineStart(line, id), LineEnd(line), StrTruthy(line.notes));
  }

  lemma OpenLongerThanClose()
    ensures |LineOpen| >= |NotesClose|
  {
  }

  lemma TickAt(open: string, tick: string, tag: string, end: string)
    requires tick == "checked" || (tick == "" && |tag| >= 7 && tag[0] == ' ')
    ensures var r := open + tick + tag + end;
      |r| >= |open| + 7 && r[..|open|] == open &&
      (tick == "checked" <==> r[|open|..|open| + 7] == "checked")
  {
    var r := open + tick + tag + end;
    assert r[..|open|] == open;
    if tick == "" {
      assert r[|open|..|open| + 7][0] == ' ';
    } else {
      assert r[|open|..|open| + 7] == tick;
    }
  }

  lemma EndsAt(x: string, end: string, notes: bool)
    requires |x| >= |NotesClose| && Text.EndsWith(x, " </label>")
    requires notes ==> Text.EndsWith(end, NotesClose)
    requires !notes ==> end == "</div>"
    ensures notes <==> Text.EndsWith(x + end, NotesClose)
  {
    if notes {
      Text.EndsWithAppend(x, end, NotesClose);
    } else {
      var r := x + end;
      assert x[|x| - 9..][1] == '<';
      assert r[|r| - |NotesClose|..][5] == x[|x| - 8];
    }
  }

  function LinesHtml(lines: seq<EmailLine>, i: nat): string {
    if |lines| == 0 then ""
    else LinesHtml(lines[..|lines| - 1], i) + LineHtml(lines[|lines| - 1], LineId(lines[|lines| - 1], i, |lines| - 1))
  }

  const HeadingOpen: string := "<h3 style='color:#FF644C'>"

  /** One group: a heading only when it has a category, then its lines. */
  function GroupHtml(group: Option<EmailGroup>, i: nat): (r: string)
    ensures group.Some? && StrTruthy(group.value.category) ==>
      r == HeadingOpen + group.value.category.value + "</h3>" + LinesHtml(group.value.ingredients.GetOr([]), i)
    ensures !(group.Some? && StrTruthy(group.value.category)) ==>
      r == (if group.Some? then LinesHtml(group.value.ingredients.GetOr([]), i) else "")
  {
    match group
    case None => ""
    case Some(g) =>
      (if StrTruthy(g.category) then HeadingOpen + g.category.value + "</h3>" else "") + LinesHtml(g.ingredients.GetOr([]), i)
  }

  function GroupsHtml(groups: seq<Option<EmailGroup>>): string {
    if |groups| == 0 then ""
    else GroupsHtml(groups[..|groups| - 1]) + GroupHtml(groups[|groups| - 1], |groups| - 1)
  }

  /** The heading naming the plan (an absent plan prints `undefined`). */
  function EmailHeader(planTitle: Option<string>): string {
    "<h1>Shopping List for <span style='color:#FF644C; text-transform:capitalize'>" + Show(planTitle) +
    "</span> meal plan</h1>"
  }

  /** The email body; a missing shopping list is a 404 and nothing is sent. */
  function EmailBody(planTitle: Option<string>, list: Option<seq<Option<EmailGroup>>>): (r: Result<string, Thrown>)
    ensures r.Success? <==> list.Some?
    ensures r.Failure? ==> r.error == App("No document found with that ID", 404)
    ensures r.Success? ==> r.value == EmailHeader(planTitle) + GroupsHtml(list.value)
  {
    if list.None? then Failure(App("No document found with that ID", 404))
    else Success(EmailHeader(planTitle) + GroupsHtml(list.value))
  }

  /** A group's text starts with a heading when it has a category, and is only its lines otherwise. */
  lemma HeadingOnlyWithCategory(group: EmailGroup, i: nat)
    ensures StrTruthy(group.category) ==> GroupHtml(Some(group), i)[..|HeadingOpen|] == HeadingOpen
    ensures !StrTruthy(group.category) ==> GroupHtml(Some(group), i) == LinesHtml(group.ingredients.GetOr([]), i)
  {
  }
}

=== FILE: wrappers.dfy ===
/** Failure-carrying datatypes shared by every module of the model. */
module Wrappers {

  /** An optional value; also stands for a JavaScript value that may be `undefined` or `null`. */
  datatype Option<+T> = None | Some(value: T) {

    /** The wrapped value, or `default` when there is none. */
    function GetOr(default: T): T {
      match this
      case Some(v) => v
      case None => default
    }
  }

  /** Either a value or the error that replaced it (a thrown exception in the source). */
  datatype Result<+R, +E> = Success(value: R) | Failure(error: E) {

    predicate IsFailure() {
      Failure?
    }

    function PropagateFailure<U>(): Result<U, E>
      requires Failure?
    {
      Failure(error)
    }

    function Extract(): R
      requires Success?
    {
      value
    }
  }
}
